=== FILE: README.md ===
# job-monitor, modelled in Dafny

job-monitor is a small dashboard for Slurm clusters. A Flask backend
(`job_monitor.py`) logs into each configured cluster over SSH. It runs
`squeue`, `sacct`, `scontrol` and `nvidia-smi`, then turns their text output
into JSON. A browser script (`static/app.js`) polls `/api/jobs` and keeps one
card per server on the page up to date. It patches each card in place rather
than rebuilding it.

This project models the logic of both halves. None of the input/output around
that logic is modelled.

**Backend** (`job_monitor.py`)
- **The `squeue` table parser** (module `SqueueParse`).
- **The `sacct` filter with its "last N, newest first" selection**
  (`SacctParse`).
- **The `StdOut=`/`StdErr=` scan of `scontrol show job`** (`ScontrolScan`).
- **The GPU lookup for one job** (`GpuInfo`):
  - GRES `IDX:` parsing;
  - bracketed nodelist expansion with zero padding;
  - the `nvidia-smi` CSV filter;
  - the loop over nodes.
- **The settings file and the POST `/api/config` handler** (`Config`).
- **The request checks of the job-output and GPU-status endpoints**
  (`Config`).
- **The job log merge** (`JobLogStore`).
- **One server's `/api/jobs` entry** (`Backend`).

Python's string built-ins are modelled in `Strings`: `strip`, `split` with and
without a separator, `splitlines`, `int`, `zfill` and `str`. `Records` holds
the shared record types.

**Browser script** (`static/app.js`)
- **The pure rendering helpers** (`Render`):
  - the greeting's hour bands;
  - the loading-message counter;
  - `badgeClass`, `escapeHtml`, `formatGres` and `cellHtml`;
  - the recently-finished table.
- **The server card as an object updated in place** (`View.ServerCard`):
  - `renderServerFull`;
  - the shape test and branches of `patchServer`;
  - `patchRecentSection`;
  - the disclosure half of `toggleRecent`;
  - the keyed row diff of `patchTable`, proved against a specification of its
    effect on the rows (`View.ReconcileRows`).
- **The page** (`Dashboard.Page`):
  - its cards in order;
  - the `prevData` and `recentOpen` globals;
  - `isFirstRender`;
  - the success and failure paths of `fetchJobs`;
  - `toggleRecent`.

The subprocess calls are modelled as parameters. Each captured run is a
`Capture`: `Completed(returncode, stdout, stderr)`, `TimedOut`, or
`Failed(message)` when `subprocess.run` raises any other exception (the `ssh`
binary missing, output that cannot be decoded), with the exception's text. For
the per-node `nvidia-smi` calls, the parameter is a function from node name to
`Capture`. The settings file and the job log are in-memory values. A flag says
whether writing them back succeeds.

A table body is modelled as two parts:
- the `data-jobid` order of its rows;
- a map from id to row.

Each row holds its rendered cells by column, the set of columns marked
"changed", its clickable flag and whether it was built with the entry
animation.

## Model

| member | source | states |
|---|---|---|
| Common.FlatMapSnoc | job_monitor.py:164-182 | Collecting per-line results: one more line appends its results at the end. |
| Common.FlatMapAppend | job_monitor.py:164-182 | Collecting per-line results distributes over concatenation: the results for `a + b` are those for `a` followed by those for `b`. |
| Strings.Strip | job_monitor.py:121-123 | `str.strip()`: the result neither starts nor ends with whitespace; it is empty exactly when the input is all whitespace; it adds no character. |
| Strings.StripMiddle | job_monitor.py:121-123 | `str.strip()` removes exactly the leading and trailing whitespace. The result is a contiguous part of `s`, with only whitespace before it and only whitespace after it. With `Strip`'s own ensures, this determines the result, and whitespace inside is kept. |
| Strings.StripTrimmed | job_monitor.py:207-208 | A string that neither starts nor ends with whitespace is unchanged by `strip()`. |
| Strings.Split | job_monitor.py:165 | `str.split(sep)` gives at least one part, and at least two when the separator occurs. |
| Strings.JoinSplit | job_monitor.py:165 | Joining the parts of `split(sep)` with `sep` gives back the original string, so splitting loses no text. |
| Strings.SplitCharFree | job_monitor.py:165 | No part of a split on a character contains that character. |
| Strings.SplitAtChar | job_monitor.py:203 | `(a + c + b).split(c)` with `c` not in `a` is `a` followed by the parts of `b`. |
| Strings.SplitWs | job_monitor.py:127-130 | `str.split(None, maxsplit)`: at most `maxsplit + 1` fields, each non-empty and not starting with whitespace; every field but the last is free of whitespace. `SplitWsLayout` says how the fields rebuild the string. |
| Strings.SplitWsLayout | job_monitor.py:130 | The string is exactly its fields laid out between whitespace runs. The runs between fields are non-empty. The run after the last field is empty when the split used all `maxsplit` splits. |
| Strings.InterleaveEnd | job_monitor.py:130 | A laid-out string ends with its last field followed by the last whitespace run. |
| Strings.SplitWsLastField | job_monitor.py:130 | Only whitespace follows the last field in the string. When the split reached its limit, the last field is the whole rest of the string, trailing whitespace included. |
| Strings.SplitWsUnlimited | job_monitor.py:127 | When the limit cannot bind, no field holds whitespace (the header split). |
| Strings.SplitWsEmpty | job_monitor.py:130-132 | A whitespace split is empty exactly when the line is all whitespace, which is when `fetch_jobs` skips it. |
| Strings.SplitWsKeepsText | job_monitor.py:130 | A whitespace split drops only whitespace: removing whitespace from the concatenated fields and from the line gives the same text. |
| Strings.SplitLines | job_monitor.py:123 | `str.splitlines()`: no line holds a line break, and a non-empty string has at least one line. |
| Strings.SplitLinesLayout | job_monitor.py:123 | `str.splitlines()` rebuilds its string: `s` is the lines, each followed by its terminator (one line-break character or `\r\n`). Only the last line may lack a terminator, and then it is not empty. A lone `\r` terminator is never followed by `\n`. |
| Strings.SplitLinesUnique | job_monitor.py:123 | Conversely, any such splitting of `s` into break-free lines and terminators is exactly what `str.splitlines()` returns. |
| Strings.SingleLine | job_monitor.py:123 | A non-empty string without line breaks is a single line. |
| Strings.NatToString | job_monitor.py:228 | `str(i)` of a non-negative integer is a non-empty digit string denoting `i`, with no leading zero unless `i` is 0. |
| Strings.ParseInt | job_monitor.py:216 | `int(s)` of a string without a minus sign is never negative. |
| Strings.ZFill | job_monitor.py:228 | `zfill(width)` pads a digit string on the left with zeros up to `width` and keeps the digits as its suffix. |
| Strings.ParseZFilled | job_monitor.py:228 | `int` reads back a zero-padded `str(n)` as `n`. |
| Strings.ParseDigits | job_monitor.py:263 | `int` of a non-empty digit string is the number it denotes. |
| Strings.ReplaceChar | static/app.js:82 | `s.replace(/c/g, rep)` leaves no `c` when `rep` holds none, and changes nothing when `s` holds no `c`. |
| Strings.ReplaceCharConcat | static/app.js:82 | A global replacement distributes over concatenation. |
| Records.Field | static/app.js:92 | `job[key] \|\| ""` is `""` for a missing key. |
| SqueueParse.SqueueOutcome | job_monitor.py:111-142 | What `fetch_jobs` returns for a captured squeue run. An error never comes with jobs. `SqueueOutcomes` gives each branch. |
| SqueueParse.ParseSqueue | job_monitor.py:111-142 | The parse is exactly `SqueueOutcome`: a timeout, another exception, a failed run, at most one line, or one job per non-blank data line. |
| SqueueParse.CollectJobs | job_monitor.py:129-136 | The loop over the data lines yields exactly the jobs of the non-blank lines, in order. |
| SqueueParse.BuildJob | job_monitor.py:133-135 | The inner loop builds exactly the job of the line's parts, column by column in header order. |
| SqueueParse.JobOfKeys | job_monitor.py:133-135 | A parsed job has exactly the header's columns as keys. |
| SqueueParse.JobOfValue | job_monitor.py:134-135 | Column `i` (its last occurrence in the header) holds the line's `i`-th part, or `""` when the line is short. |
| SqueueParse.JobsOfShape | job_monitor.py:129-136 | There is one job per non-blank data line, each with the header's keys. |
| SqueueParse.NoTextDropped | job_monitor.py:127-134 | With a non-empty header, a line splits into at most as many parts as there are columns, and no text is lost. The line is its parts with whitespace runs between them. When every column gets a part, the last column's value is the whole rest of the line, trailing whitespace included. |
| SqueueParse.SqueueOutcomes | job_monitor.py:120-142 | A timeout gives the timeout message. Any other exception from the run gives its text and no jobs. A nonzero exit gives the stripped stderr and no jobs. A run with at most one line gives no error and no jobs. Otherwise the jobs of the data lines. |
| SacctParse.RecentJob | job_monitor.py:172-181 | A kept line's job has exactly the seven sacct keys, each holding its field. |
| SacctParse.RecentOutcome | job_monitor.py:145-186 | What `fetch_recent_jobs` returns for a captured sacct run. For a count of at least one it holds at most that many jobs. |
| SacctParse.FetchRecentJobs | job_monitor.py:145-186 | The result is exactly `RecentOutcome`: nothing for a failed, timed-out or raising run, else the kept jobs' `[-count:][::-1]`. |
| SacctParse.KeepFinished | job_monitor.py:163-182 | The filter loop yields exactly the jobs of the kept lines, in order. |
| SacctParse.KeptJobsAppend | job_monitor.py:164-182 | Filtering works line by line: the jobs of `a + b` are the jobs of `a`, then those of `b`. |
| SacctParse.KeptLine | job_monitor.py:165-170 | A line gives one job exactly when it has at least seven `\|`-fields and its State starts with COMPLETED, FAILED, CANCELLED or TIMEOUT; otherwise it gives none. |
| SacctParse.KeptJobsFinished | job_monitor.py:147-170 | There are no more kept jobs than lines, and each has the seven keys and a finished State. |
| SacctParse.SliceStart | job_monitor.py:184 | The start of Python's `[-count:]` slice lies within the list. |
| SacctParse.Reverse | job_monitor.py:184 | `[::-1]` puts element `i` at position `n-1-i`. |
| SacctParse.LastReversedShape | job_monitor.py:184 | `[-count:][::-1]`: for `count >= 1`, at most `count` entries, entry `i` being the `i`-th job from the end, so the newest comes first. A count of 0 keeps every job (Python's `-0` slice), and a negative count drops that many from the front. |
| ScontrolScan.FindOutputPaths | job_monitor.py:65-86 | The token loop returns exactly `ScanOutcome`: no paths for a failed run, else the last usable `StdOut=` and `StdErr=` values. |
| ScontrolScan.KeyValue | job_monitor.py:76-85 | For a `StdOut=`/`StdErr=` token, `split("=", 1)[1]` is everything after the key. |
| ScontrolScan.LastPathIsLast | job_monitor.py:76-85 | A found path is the value of a usable token after which no usable token for that key occurs; no path means no usable token. |
| ScontrolScan.LaterTokenWins | job_monitor.py:80-85 | A later usable token overrides an earlier one, and a token that is empty, `(null)` or for another key changes nothing. |
| GpuInfo.Names | job_monitor.py:227-228 | The names of an inclusive index range: `hi - lo + 1` of them (none when `hi < lo`), in index order. |
| GpuInfo.NodeNames | job_monitor.py:227-228 | The expanded host names are `base` plus each index zero-padded, one per index of the inclusive range. |
| GpuInfo.ExpandNodelist | job_monitor.py:221-232 | The expansion loop gives exactly `NodesOf`, or nothing where `int()` raises. |
| GpuInfo.RangeNames | job_monitor.py:227-228 | The `for i in range(start, end + 1)` loop appends exactly `NodeNames`. |
| GpuInfo.FilterGpuRows | job_monitor.py:259-274 | The CSV loop gives exactly `GpuRowsOf` for the stripped output's lines, or nothing where `int()` raises. |
| GpuInfo.FilterLines | job_monitor.py:260-274 | The loop over the lines stops at the first line whose index raises and otherwise collects exactly `GpuRowsOf`. |
| GpuInfo.KeepLine | job_monitor.py:261-274 | One CSV line adds its row when it has seven fields and an admitted index, adds nothing when it is short or not admitted, and raises on a bad index. |
| GpuInfo.RaisedStaysRaised | job_monitor.py:263 | Once a line's index raises, the whole node's output raises. |
| GpuInfo.GpuInfoOutcome | job_monitor.py:189-287 | What `fetch_job_gpu_info` returns for the captured runs. A result with node entries has at least one. `GpuInfoOutcomes` gives the errors by branch. |
| GpuInfo.FetchJobGpuInfo | job_monitor.py:189-287 | The result is exactly `GpuInfoOutcome` of the squeue capture and the per-node `nvidia-smi` captures. |
| GpuInfo.CollectNodes | job_monitor.py:238-280 | The node loop gives exactly `NodesOutcome`: one entry per node in order, or the first timeout or exception. |
| GpuInfo.FetchNode | job_monitor.py:241-280 | One node gives an error entry for a nonzero exit (stripped stderr, or the fixed text when that is empty), its filtered rows otherwise, or stops the call on a timeout, on another exception of the ssh call (with its text) or on a bad index. |
| GpuInfo.StopStaysStopped | job_monitor.py:239-287 | Once a node stops the loop, that stop is the result of the whole call. |
| GpuInfo.GresRange | job_monitor.py:212-216 | A GRES whose text after `IDX:` is `a-b` (closing parentheses allowed) gives the inclusive list `a..b`: `b - a + 1` indices, the `i`-th being `a + i`. |
| GpuInfo.GresSingle | job_monitor.py:212-218 | A GRES whose text after `IDX:` is `k` (closing parentheses allowed) gives `[k]`. |
| GpuInfo.NodelistPlain | job_monitor.py:231-232 | A nodelist without `[` is the single host it names. |
| GpuInfo.NodelistBracketed | job_monitor.py:222-224 | `base[part]` is expanded from `part` with the bracket cut off. |
| GpuInfo.NodelistSingle | job_monitor.py:229-230 | `base[x]` without a dash is the single host `base + x`. |
| GpuInfo.NodelistRange | job_monitor.py:222-228 | For any digit strings `S` and `E`, leading zeros included, `base[S-E]` yields the hosts `base` followed by `i` zero-padded to `len(S)`, for `i` from `int(S)` to `int(E)` (`int(E) - int(S) + 1` of them, none when `E` is smaller). |
| GpuInfo.NodelistPadded | job_monitor.py:222-228 | `jwb[0012-0014]` expands to exactly `jwb0012`, `jwb0013`, `jwb0014`. |
| GpuInfo.HostNameReadBack | job_monitor.py:228 | A host name starts with the base, is at least base plus width long, and its padded number reads back as the index. |
| GpuInfo.GpuRowsAdmitted | job_monitor.py:262-265 | Every kept row's index is an integer that the parsed indices admit: it is among them, or there are none. |
| GpuInfo.GpuRowsCounted | job_monitor.py:262-265 | There is at most one row per seven-field line, and exactly one when the index list is empty, because an empty list admits every GPU. |
| GpuInfo.NodeStepShape | job_monitor.py:251-280 | One node's entry names the node. An error entry has a non-empty error and no rows; otherwise the loop stops with the timeout message, an exception from the rows, or the text of the exception the node's ssh call raised. |
| GpuInfo.NodesOutcomeShape | job_monitor.py:238-282 | A completed node loop has one well-formed entry per node, in node order. Otherwise it is a timeout, an exception from the rows, or the text of an exception raised by one node's ssh call. |
| GpuInfo.GpuInfoOutcomes | job_monitor.py:200-287 | A timeout of the squeue call gives the timeout text, and another exception gives its own text. After a completed squeue call, every error is one of the fixed texts or the text of an exception raised by some node's ssh call. A nonzero squeue exit gives "Job not found or not running". A node result is never empty. |
| Config.ConfigStore.constructor | job_monitor.py:90-98 | The store starts from the given state of config.json. |
| Config.ConfigStore.UpdateConfig | job_monitor.py:400-427 | An unreadable body gives 400. A rejected body gives 400 with its message and leaves the file unchanged. A failed write gives 500. Otherwise the loaded settings merged with the body are saved and returned with 200. |
| Config.LoadHasDefaults | job_monitor.py:90-98 | The loaded settings always hold the three default keys. With no or an unreadable file they are the defaults. A parsed object's keys override the defaults. |
| Config.UpdateOverridesSuppliedKeys | job_monitor.py:419-420 | An accepted update overrides exactly the supplied keys and keeps every other loaded key. |
| Config.SavedConfigReloads | job_monitor.py:419-423 | Loading a saved configuration gives back exactly what was saved. |
| Config.ValidateExactly | job_monitor.py:404-417 | A body is accepted exactly when it is an object whose `recent_jobs_count`, if present, is an int in 1..50 and whose `refresh_interval`, if present, is 0, 5, 10, 30 or 60. Rejections carry one of the three messages. |
| Config.BooleansAreIntegers | job_monitor.py:408-417 | Python's `isinstance(v, int)` admits booleans: `true` is a valid count and `false` a valid interval; a float never passes. |
| Config.DefaultRequests | job_monitor.py:384-392 | With the default settings, a job request is accepted exactly for `juwels` or `ferranti` with a non-empty job id of ASCII digits, and the check never raises. |
| Config.AcceptedRequest | job_monitor.py:432-439 | An accepted request names a listed server and has a non-empty job id of ASCII digits. |
| JobLogStore.JobLog.constructor | job_monitor.py:24-32 | A missing log is empty. |
| JobLogStore.JobLog.UpdateJob | job_monitor.py:44-56 | A failed write leaves the log unchanged. Otherwise the job's entry becomes its old facts updated by the new ones (created when missing), and every other server and job is unchanged. |
| JobLogStore.MergeKeepsOldFacts | job_monitor.py:51-52 | `dict.update`: the new facts win, old facts not mentioned again survive, and nothing else appears. |
| JobLogStore.UpdateThenGet | job_monitor.py:44-62 | After an update, `get_job_from_log` gives an entry holding every new fact and every key it had before; any other job reads back as before. |
| Backend.FetchAllForServer | job_monitor.py:292-297 | A server's entry carries its name, the error and jobs of the squeue parse, and the recent jobs of the sacct parse for the configured count. |
| Backend.RecentBounded | job_monitor.py:184-186 | With a count that validation accepts, at most that many recent jobs, each with the seven sacct keys and a finished State. |
| Backend.SliceKeepsFinished | job_monitor.py:184 | Slicing and reversing keeps at most `count` jobs, each one of the kept jobs. |
| Backend.NonNumericCount | job_monitor.py:184-186 | A count that is not an int makes the slice raise, which gives no recent jobs. |
| Render.Band | static/app.js:6-10 | The band index never exceeds the number of band starts. |
| Render.GreetingBands | static/app.js:3-10 | The greeting is the message of the hour's band (cuts at 6, 12, 17 and 21), and the five messages are distinct. |
| Render.LoadingCycle.constructor | static/app.js:24 | The counter starts at 0. |
| Render.LoadingCycle.Next | static/app.js:26-28 | `nextLoadMsg` returns the message at the counter modulo six and increments the counter. |
| Render.NextCycles | static/app.js:16-28 | Seven calls in a row repeat the first message on the seventh, the first six show every message, and the counter advances by seven. |
| Render.SixInARow | static/app.js:27 | Six consecutive counter values pick all six messages. |
| Render.KeysPrefixFree | static/app.js:32-40 | No key of STATE_CLASSES is a prefix of another, so at most one key prefixes any state. |
| Render.PrefixUnique | static/app.js:75-76 | Two keys that both prefix a state are the same key. |
| Render.BadgeClass | static/app.js:72-79 | `badgeClass` always gives one of the seven STATE_CLASSES classes or "badge-other". |
| Render.BadgeByPrefix | static/app.js:72-79 | A state starting with a key gets that key's class, whatever follows it, for example "CANCELLED by 12345". A state starting with no key gets "badge-other". |
| Render.KeyPrefixesItself | static/app.js:73 | An exact key also prefixes the state, so the exact-match branch agrees with the prefix loop. |
| Render.EscapeHtml | static/app.js:81-83 | The escaped text holds no `<` and no `>`, and text without `&`, `<` or `>` is left as it is. |
| Render.EscapeHtmlPerChar | static/app.js:81-83 | The three chained replacements (`&` first) escape each character on its own. |
| Render.EscapeHtmlConcat | static/app.js:81-83 | Escaping distributes over concatenation. |
| Render.EscapeRoundTrip | static/app.js:81-83 | Decoding the three entities gives the text back, and the escaped text holds no `<` or `>`. |
| Render.MatchAt | static/app.js:86 | Whatever `/gpu[^:]*:(\d+)/` captures from a given `gpu` is a non-empty digit run. `MatchAtSpec` says exactly when it matches and what it captures. |
| Render.MatchAtSpec | static/app.js:86 | From a `gpu` at `i`, let `c` be the first colon at or after `i + 3` (or the end). The expression matches exactly when a digit follows `c`, and it captures the whole digit run starting at `c + 1`. |
| Render.GpuMatch | static/app.js:86 | The leftmost match's capture is a non-empty digit run. `GpuMatchFound` and `GpuMatchLeftmost` say when there is one and which it is. |
| Render.GpuMatchFound | static/app.js:86 | Searching from `k` finds a match exactly when the expression matches at some position from `k` on. |
| Render.GpuMatchLeftmost | static/app.js:86 | The search from `k` returns the capture at the leftmost position from `k` on where the expression matches. |
| Render.FormatGresMeaning | static/app.js:85-88 | For every value, `formatGres` gives the leftmost match's digits followed by " GPU". When the expression matches nowhere it gives the value itself, or `-` for the empty string and "N/A". |
| Render.GpuMatchSkips | static/app.js:86 | Positions where no `gpu` starts do not affect the leftmost match. |
| Render.GpuCountShown | static/app.js:85-88 | A value with a lower-case `gpu:` followed by the digits of `n`, and no `gpu` of any letter case starting before it, is shown as "`n` GPU". |
| Render.MatchAtNumber | static/app.js:86 | `gpu:` directly followed by digits captures exactly that digit run. |
| Render.FormatGres | static/app.js:85-88 | `formatGres` never gives an empty cell. It gives the value itself, "-", or a text ending in " GPU". |
| Render.NoGpuShownAsIs | static/app.js:87 | A value without any `gpu` is shown as it is, or as `-` when it is empty or "N/A". |
| Render.CellHtml | static/app.js:91-100 | The STATE cell starts with the badge span. Every column other than STATE and GPUs holds no `<`. |
| Render.PlainCellsDecode | static/app.js:91-100 | Every column other than STATE and GPUs shows the job's value escaped: it decodes back to the value and holds no `<`. |
| Render.RenderedCells | static/app.js:349-351 | A row has one rendered cell per column of COLUMNS. |
| Render.JobIds | static/app.js:363 | The row keys are the jobs' ids in job order. |
| Render.RecentRowsAppend | static/app.js:123-134 | The recent table's rows are the rows of its jobs one after another. |
| Render.RecentCellsDecode | static/app.js:125-131 | A recent-table cell is its fixed opening markup (a badge for State), the escaped value and its closing markup. Cutting the markup off decodes to the value, and the value part holds no `<`. |
| Render.EscapedBetween | static/app.js:128-130 | An escaped value between fixed markup is recovered by cutting the markup off and decoding. |
| View.UpdateCells | static/app.js:386-397 | The cell loop rewrites the listed columns to their new content. It marks exactly those whose stored content differed. The row's other state is unchanged. |
| View.PatchedStep | static/app.js:389-396 | One more column is rewritten and marked only when its content differs. |
| View.ChangedColumnsExactly | static/app.js:389-396 | A column is marked exactly when its stored cell differs from the job's `cellHtml`. |
| View.SameJobNoMarks | static/app.js:386-396 | Patching a row with the job it already shows marks no cell. |
| View.ReuseOrBuild | static/app.js:382-417 | A surviving row keeps its id, loses its entering flag (the className assignment) and has its cells patched. Its changed marks gain exactly the changed columns, added to the marks it already had. A new id gets a freshly built row, entering and unmarked. Either way the row shows the job and is clickable exactly when its STATE is RUNNING or COMPLETING. |
| View.SurvivingDrop | static/app.js:371-376 | Taking a placed id out of the surviving rows leaves the survivors of the remaining ids. |
| View.PlacedSplice | static/app.js:419-428 | The cursor step puts the row right after the first `k` rows and keeps the order of the rest. |
| View.PlaceStep | static/app.js:379-430 | With the first `k` jobs' rows in place and the survivors after them, placing job `k`'s row gives the first `k+1` rows followed by the remaining survivors. |
| View.ReconcileRows | static/app.js:357-431 | After `patchTable` (distinct new ids), the rows' ids in order are exactly the new jobs' ids, and every vanished id is gone. Each row shows its job. Surviving rows are patched in place: their cells are rewritten where they differ, their marks are extended by the differing columns, and their entering flag is cleared. Only new ids get fresh rows. |
| View.RepatchSameJobs | static/app.js:357-431 | Patching with the jobs the table already shows keeps the order, the cells, the marks and the clickable flags. Only the entering flag is cleared, on every row (the className assignment). |
| View.SameJobKept | static/app.js:384-411 | A row patched with the job its old row showed keeps that row's cells, marks and clickable flag. |
| View.ShapeChangedExactly | static/app.js:267-275 | The card is rebuilt exactly when the previous snapshot's shape (error, empty, table) differs from the new one's. |
| View.BodyFor | static/app.js:315-327 | The body `renderServerFull` writes has the snapshot's shape. |
| View.ServerCard.Create | static/app.js:232-238 | A new card has the server's name and is entering on the first render. It is exactly `renderServerFull`'s rendering of the snapshot, with the disclosure open as stored. Its rows are unmarked. |
| View.ServerCard.RenderFull | static/app.js:305-336 | Rebuilding shows exactly the snapshot: dot, count, body, one new row per job and the disclosure (when there are recent jobs) open as stored. |
| View.ServerCard.PatchRecent | static/app.js:149-179 | With no recent jobs the disclosure is removed. A missing disclosure is built with the stored flag. Otherwise only the count and rows change and the open state is kept. Nothing else on the card changes. |
| View.ServerCard.ToggleDisclosure | static/app.js:143-146 | Toggling flips the chevron and the body of an existing disclosure and changes nothing else. |
| View.ServerCard.PatchTable | static/app.js:357-431 | Under a table body, the rows become those of the new jobs in order; surviving rows are patched in place. A card whose body is not a job table is left alone. The source instead tests for the first `tbody` of the section, which could be the recently-finished table's. That case never arises, because the table is patched only when the previous snapshot had jobs, and then the card has a job table. |
| View.ServerCard.PatchServer | static/app.js:224-302 | The dot always shows the error flag, and the count is set unless in error. A changed shape rebuilds the card. Otherwise only the error text changes (in error), only the recent section (empty), or the table and the recent section. |
| View.ServerCard.PatchInPlace | static/app.js:282-301 | With the shape unchanged, the error text, the rows or the recent section are patched, keeping the body's shape. |
| View.RenderTable | static/app.js:317-327 | A table body gets one row per job in job order, entering when animated; other bodies have none. |
| View.BuildRows | static/app.js:323-325 | The `forEach` builds one unmarked row per job, keyed by its id, each showing its job. |
| Dashboard.ServerNames | static/app.js:453 | The response's server names, in order. |
| Dashboard.CardNames | static/app.js:227-229 | The cards' names, in page order. |
| Dashboard.SnapshotMap | static/app.js:458-459 | `newPrev` has exactly the response's servers as keys, each mapped to a snapshot of that server. |
| Dashboard.Missing | static/app.js:232-238 | The servers a response adds are in the response and had no card. |
| Dashboard.MissingStep | static/app.js:453-455 | One more server of the response adds a card for it exactly when it had none before the response. |
| Dashboard.IndexOf | static/app.js:229 | `getElementById` finds the card with that name, or reports that there is none. |
| Dashboard.PatchCard | static/app.js:241-302 | Patching an existing card with its previous snapshot leaves it in agreement with the new snapshot and in sync with the stored disclosure flag. |
| Dashboard.NewCard | static/app.js:232-238 | A new card agrees with its snapshot and is entering on the first render. |
| Dashboard.AppendCard | static/app.js:232-238 | A server without a card gets a fresh one at the end; the other cards are untouched. |
| Dashboard.PatchAt | static/app.js:224-302 | Patching the card at a position keeps every card in agreement with the snapshots shown, the patched one with its new snapshot. |
| Dashboard.Place | static/app.js:224-302 | One `patchServer` call patches the server's card, or appends a fresh one when it has none. Cards of other servers are unchanged and existing cards keep their order. |
| Dashboard.ReconcileStep | static/app.js:453-455 | One pass of the `forEach` keeps the cards consistent with the snapshots shown so far, one server further. |
| Dashboard.Reconcile | static/app.js:452-455 | After the `forEach`, the cards are the old ones followed by one per new server in response order, with distinct names. Each agrees with its latest snapshot, and new cards are entering exactly on the first render. |
| Dashboard.ToggleCard | static/app.js:143-146 | Toggling a card's disclosure flips its open state and keeps it in agreement with its snapshot. |
| Dashboard.ToggleIn | static/app.js:139-147 | `toggleRecent` flips the server's flag and that server's card disclosure; every other card is unchanged. |
| Dashboard.ForgetStale | static/app.js:458-460 | Once a response is stored, cards of servers it lacks no longer need a snapshot to agree with. |
| Dashboard.BuildPrev | static/app.js:458-460 | The loop builds exactly the stored response by server. |
| Dashboard.Refresh | static/app.js:452-460 | A successful response leaves the old cards first, then a new card per new server. Each card agrees with the stored response, and `prevData` becomes that response by server. |
| Dashboard.Page.constructor | static/app.js:221-223 | The page starts with the placeholder, no cards, nothing stored, no open disclosures and `isFirstRender` set. |
| Dashboard.Page.FetchSuccess | static/app.js:437-462 | A successful fetch clears the placeholder on the first render. It patches or adds the cards of the response and stores the response as `prevData`. It keeps `recentOpen` and clears `isFirstRender`. The page stays consistent. |
| Dashboard.Page.FetchFailure | static/app.js:466-468 | A failed fetch replaces the cards with the backend-error text and keeps every stored state. |
| Dashboard.Page.ToggleRecent | static/app.js:139-147 | The stored flag flips and the server's card disclosure with it. No card is added or removed and nothing else changes. |
| Dashboard.ToggleTwice | static/app.js:139-147 | Toggling the same server twice restores every flag and every card's disclosure. |

## Left out

- HTTP, Flask routing and JSON (de)serialisation are not modelled; the request body is an already decoded JSON value. `ThreadPoolExecutor` concurrency is not modelled, and results are taken in server order, as `pool.map` returns them.
- SSH and subprocess calls are parameters (`Capture`). The command lines, including `SQUEUE_FORMAT`, and the 15-second timeouts appear only through the `TimedOut` outcome.
- File I/O of config.json and job_log.json is not modelled. The files are in-memory values, and a flag says whether a write succeeds. `load_job_log` and `get_job_from_log` read the in-memory log.
- The texts of Python exceptions raised by the parsing code (`int()` on a non-number, a bad unpacking) are not modelled. Such an exception is the `Raised` outcome (or `None` inside a parser), without its message. An exception raised by `subprocess.run` itself is `Failed(message)` and keeps its text.
- Config.IsDigitString: only ASCII `0`-`9` count as digits. Python's `str.isdigit()` also accepts other Unicode digits (superscripts, digits of other scripts). Listing that Unicode character set is not attempted. `Config.CheckJobRequest` therefore rejects a job id such as "²" that the source accepts.
- Config.DefaultRequests: the "exactly" holds for job ids of ASCII characters only. A job id made of non-ASCII Unicode digits is accepted by the source and rejected by the model (see `Config.IsDigitString`).
- `fetch_job_output` and `api_jobs` are not part of this model, except for the request checks of `api_job_output` (`Config.CheckJobRequest`). They only chain calls to code outside the model.
- `Strings.ParseInt` does not accept `_` digit separators or non-ASCII digits, which Python's `int()` does. Such input is treated as raising.
- The browser DOM is not modelled:
  - HTML serialisation by `innerHTML` and the browser's normalisation of it (the cell comparison is string equality);
  - `querySelector` lookups;
  - the forced reflow that restarts the "changed" animation;
  - the row animation delays, which are floats;
  - the onclick and title attributes of rows and their quote escaping (a row has a clickable flag only).
- Rows are values keyed by `data-jobid`, not DOM nodes. "The same row object" is stated as "the row under the same id is the old row with its cells patched, its changed marks extended by the differing columns and its entering flag cleared". Which DOM node is reused is not captured.
- The removal loop of `patchTable` is modelled as one step: the survivors of the old rows, in their old order.
- Row ids must be distinct within a snapshot. `patchTable` indexes rows by id and cannot tell two rows with the same id apart.
- A job without JOBID is keyed as "undefined", as JavaScript's string conversion gives.
- Dashboard.Page.FetchSuccess: requires distinct server names in a response. The backend answers once per configured server, so the names are distinct unless the setting repeats a server.
- Dashboard.Page.FetchSuccess: states the order of the cards and the consistency of every card with the stored response. The facts that old cards are kept as the same objects in front and that new cards are entering exactly on the first render are stated on Dashboard.Refresh and Dashboard.Reconcile, which it calls.
- The modal, `showJobOutput` and `closeModal` are not modelled.
- The "last updated" time text, the refresh button's text and disabling, and the `setInterval` timer of `updateInterval` are not modelled.
- The greeting takes the hour as a parameter instead of reading `Date`.
- Lookups in plain JavaScript objects are modelled as map lookups, so a key that names a property of `Object.prototype` ("constructor", "toString", "valueOf", "__proto__") finds nothing in the model, where the source finds the inherited value. This affects four lookups. None of them is hit by squeue or sacct states, by Slurm job ids or by ordinary host names.
  - `recentOpen[name]`: such a server would start with its disclosure open.
  - Render.BadgeClass: `STATE_CLASSES[state]` (static/app.js:73) for such a state returns the inherited function or object, which the template prints as text. The model gives "badge-other", and `Render.BadgeByPrefix`'s "any other state gets badge-other" holds only for the other states.
  - `existingRows[id]` (static/app.js:382) in `View.ReconcileRows` and `View.ReuseOrBuild`: for a JOBID such as "constructor" with no row of its own, the source finds `Object`'s constructor, calls `querySelector` on it, throws, and `fetchJobs` shows the backend-error block. The model builds a fresh row instead. Slurm job ids are numeric, so the case does not arise.
  - `prevData[name]` (static/app.js:267) in `View.ServerCard.PatchServer` and `Dashboard.PatchAt`: for such a server name without a snapshot of its own, the source reads `prev.jobs.length` of the inherited value, throws, and `fetchJobs` shows the backend-error block. The model finds no previous snapshot and patches the card normally.
- `formatGres` is modelled on the text value of the GPUs column only.
- `buildRecentSection` is not modelled as markup. The disclosure is a record (count, chevron and body open flags, jobs), and only its table is rendered as text (`Render.RecentTableHtml`).

A behaviour the model makes visible: after a failed fetch that follows a
successful one, `isFirstRender` stays false. Later successful fetches
therefore append the cards after the backend-error block instead of clearing
it (`Dashboard.Page.FetchSuccess` keeps the notice unless it is the first
render).

=== FILE: backend.dfy ===
/**
 * One server's entry of GET /api/jobs (fetch_all_for_server in
 * job_monitor.py): the active jobs from squeue with the recently finished
 * jobs from sacct attached.
 */
module Backend {
  import opened Common
  import opened Strings
  import opened Records
  import opened SqueueParse
  import opened SacctParse
  import opened Config

  /** The count fetch_recent_jobs can slice with: `-count` works for ints and bools and
      raises for any other JSON value, which the function turns into no jobs. */
  function SliceCount(count: Json): Option<int> {
    if IsInt(count) then Some(IntValue(count)) else None
  }

  /** The recent jobs for the recent_jobs_count setting. */
  function RecentFor(sacct: Capture, count: Json): seq<JobRecord> {
    match SliceCount(count)
    case None => []
    case Some(c) => RecentOutcome(sacct, c)
  }

  /** fetch_all_for_server, given the captured squeue and sacct runs. */
  method FetchAllForServer(server: string, squeue: Capture, sacct: Capture, count: Json)
    returns (snap: ServerSnapshot)
    ensures snap.server == server
    ensures snap.error == SqueueOutcome(squeue).error && snap.jobs == SqueueOutcome(squeue).jobs
    ensures snap.recentJobs == RecentFor(sacct, count)
  {
    var active := ParseSqueue(squeue);
    var recent: seq<JobRecord> := [];
    if IsInt(count) {
      recent := FetchRecentJobs(sacct, IntValue(count));
    }
    snap := ServerSnapshot(server, active.error, active.jobs, recent);
  }

  /** With a count the settings validation accepts, a snapshot lists at most that many
      recent jobs, newest first, each with the seven sacct keys and a finished state. */
  lemma RecentBounded(sacct: Capture, count: Json)
    requires ValidCount(count)
    ensures |RecentFor(sacct, count)| <= IntValue(count)
    ensures forall j :: 0 <= j < |RecentFor(sacct, count)| ==>
      && RecentFor(sacct, count)[j].Keys == SacctKeys
      && "State" in RecentFor(sacct, count)[j] && IsFinished(RecentFor(sacct, count)[j]["State"])
  {
    if sacct.Completed? && sacct.returncode == 0 {
      var lines := SplitLines(Strip(sacct.stdout));
      KeptJobsFinished(lines);
      SliceKeepsFinished(KeptJobs(lines), IntValue(count));
    }
  }

  /** Taking the last jobs in reverse keeps at most count of them, each one of the input. */
  lemma SliceKeepsFinished(kept: seq<JobRecord>, count: int)
    requires count >= 1
    requires forall j :: 0 <= j < |kept| ==>
      kept[j].Keys == SacctKeys && "State" in kept[j] && IsFinished(kept[j]["State"])
    ensures |LastReversed(kept, count)| <= count
    ensures forall j :: 0 <= j < |LastReversed(kept, count)| ==>
      && LastReversed(kept, count)[j].Keys == SacctKeys
      && "State" in LastReversed(kept, count)[j] && IsFinished(LastReversed(kept, count)[j]["State"])
  {
    LastReversedShape(kept, count);
    var r := LastReversed(kept, count);
    forall j | 0 <= j < |r|
      ensures r[j].Keys == SacctKeys
      ensures "State" in r[j] && IsFinished(r[j]["State"])
    {
      var m := |kept| - 1 - j;
      assert 0 <= m < |kept| && r[j] == kept[m];
    }
  }

  /** A count that is not a number gives no recent jobs at all. */
  lemma NonNumericCount(sacct: Capture, count: Json)
    requires !IsInt(count)
    ensures RecentFor(sacct, count) == []
  {
  }
}

=== FILE: common.dfy ===
/** Small wrapper types shared by every module of the model. */
module Common {

  /** A value that may be absent: Python's None, JavaScript's null/undefined. */
  datatype Option<+T> = None | Some(value: T)

  /** A sequence whose elements are pairwise distinct. */
  ghost predicate Distinct<T>(s: seq<T>) {
    forall i, j :: 0 <= i < j < |s| ==> s[i] != s[j]
  }

  /** The results of f on the elements of xs, concatenated in order. */
  function FlatMap<T, U>(xs: seq<T>, f: T -> seq<U>): seq<U>
    decreases |xs|
  {
    if xs == [] then [] else FlatMap(xs[..|xs| - 1], f) + f(xs[|xs| - 1])
  }

  /** One more element adds its results at the end. */
  lemma FlatMapSnoc<T, U>(xs: seq<T>, x: T, f: T -> seq<U>)
    ensures FlatMap(xs + [x], f) == FlatMap(xs, f) + f(x)
  {
    var s := xs + [x];
    assert s[..|s| - 1] == xs;
  }

  /** FlatMap distributes over concatenation. */
  lemma {:induction false} FlatMapAppend<T, U>(a: seq<T>, b: seq<T>, f: T -> seq<U>)
    ensures FlatMap(a + b, f) == FlatMap(a, f) + FlatMap(b, f)
    decreases |b|
  {
    if b == [] {
      assert a + b == a;
    } else {
      var init, last := b[..|b| - 1], b[|b| - 1];
      assert b == init + [last];
      assert a + b == (a + init) + [last];
      FlatMapAppend(a, init, f);
      FlatMapSnoc(a + init, last, f);
      FlatMapSnoc(init, last, f);
    }
  }
}

=== FILE: config.dfy ===
/**
 * The dashboard settings of job_monitor.py: the defaults merged with
 * config.json (load_config), the validation and merge of POST /api/config
 * (api_update_config), and the check of the server and job id query
 * parameters of the job-output and GPU-status endpoints.
 */
module Config {
  import opened Common
  import opened Strings

  /** A JSON value as json.load produces it. */
  datatype Json =
    | JNull
    | JBool(b: bool)
    | JInt(i: int)
    | JFloat(r: real)
    | JStr(s: string)
    | JArray(items: seq<Json>)
    | JObject(fields: map<string, Json>)

  type Settings = map<string, Json>

  const DefaultConfig: Settings := map[
    "servers" := JArray([JStr("juwels"), JStr("ferranti")]),
    "recent_jobs_count" := JInt(5),
    "refresh_interval" := JInt(10)]

  /** What is found at config.json: nothing, a file that cannot be opened or parsed,
      or a parsed JSON document. */
  datatype ConfigFile = NoFile | Unreadable | Parsed(doc: Json)

  /** load_config: the defaults overridden by the keys of the file's object; any failure,
      including a document that is not an object (unpacking it with ** raises), gives the
      defaults. */
  function LoadConfig(file: ConfigFile): Settings {
    match file
    case Parsed(JObject(m)) => DefaultConfig + m
    case _ => DefaultConfig
  }

  /** Python's isinstance(v, int), which holds for booleans too. */
  predicate IsInt(v: Json) { v.JInt? || v.JBool? }

  /** The integer an int or bool stands for (True is 1, False is 0). */
  function IntValue(v: Json): int
    requires IsInt(v)
  {
    if v.JInt? then v.i else if v.b then 1 else 0
  }

  const CountError := "recent_jobs_count must be between 1 and 50"
  const IntervalError := "refresh_interval must be 0, 5, 10, 30, or 60"
  const FormatError := "Invalid config format"
  const SaveError := "Failed to save config"

  predicate ValidCount(v: Json) { IsInt(v) && 1 <= IntValue(v) <= 50 }

  predicate ValidInterval(v: Json) { IsInt(v) && IntValue(v) in {0, 5, 10, 30, 60} }

  /** The first validation error of a POST /api/config body, if any. */
  function ValidateUpdate(body: Json): (err: Option<string>) {
    if !body.JObject? then Some(FormatError)
    else if "recent_jobs_count" in body.fields && !ValidCount(body.fields["recent_jobs_count"]) then Some(CountError)
    else if "refresh_interval" in body.fields && !ValidInterval(body.fields["refresh_interval"]) then Some(IntervalError)
    else None
  }

  /** The reply of POST /api/config: the saved settings, one of its error messages, or
      the text of an exception raised while reading the request body (Python's own text,
      not modelled). */
  datatype UpdateReply = Saved(config: Settings) | Rejected(message: string) | RequestFailed

  /** The configuration file together with the handler that rewrites it. */
  class ConfigStore {
    var file: ConfigFile

    constructor(file: ConfigFile)
      ensures this.file == file
    {
      this.file := file;
    }

    /** api_update_config. `body` is None when reading request.json raises; `writable`
        says whether writing config.json succeeds. */
    method UpdateConfig(body: Option<Json>, writable: bool) returns (status: int, reply: UpdateReply)
      modifies this
      ensures body.None? ==> status == 400 && reply == RequestFailed && file == old(file)
      ensures body.Some? && ValidateUpdate(body.value).Some? ==>
        status == 400 && reply == Rejected(ValidateUpdate(body.value).value) && file == old(file)
      ensures body.Some? && ValidateUpdate(body.value).None? && !writable ==>
        status == 500 && reply == Rejected(SaveError) && file == old(file)
      ensures body.Some? && ValidateUpdate(body.value).None? && writable ==>
        status == 200 && reply == Saved(LoadConfig(old(file)) + body.value.fields)
        && file == Parsed(JObject(reply.config))
    {
      if body.None? {
        return 400, RequestFailed;
      }
      var newConfig := body.value;
      if !newConfig.JObject? {
        return 400, Rejected(FormatError);
      }
      if "recent_jobs_count" in newConfig.fields {
        var count := newConfig.fields["recent_jobs_count"];
        if !IsInt(count) || IntValue(count) < 1 || IntValue(count) > 50 {
          return 400, Rejected(CountError);
        }
      }
      if "refresh_interval" in newConfig.fields {
        var interval := newConfig.fields["refresh_interval"];
        if !IsInt(interval) || IntValue(interval) !in {0, 5, 10, 30, 60} {
          return 400, Rejected(IntervalError);
        }
      }
      var config := LoadConfig(file);
      config := config + newConfig.fields;
      if writable {
        file := Parsed(JObject(config));
        return 200, Saved(config);
      } else {
        return 500, Rejected(SaveError);
      }
    }
  }

  /** The loaded settings always hold the three default keys. */
  lemma LoadHasDefaults(file: ConfigFile)
    ensures DefaultConfig.Keys <= LoadConfig(file).Keys
    ensures file.NoFile? || file.Unreadable? ==> LoadConfig(file) == DefaultConfig
    ensures file.Parsed? && file.doc.JObject? ==>
      forall k :: k in LoadConfig(file) ==>
        LoadConfig(file)[k] == if k in file.doc.fields then file.doc.fields[k] else DefaultConfig[k]
  {
  }

  /** An accepted update overrides exactly the supplied keys: every supplied key takes the
      supplied value and every other key keeps its loaded value. */
  lemma UpdateOverridesSuppliedKeys(file: ConfigFile, update: Settings)
    ensures var merged := LoadConfig(file) + update;
      && merged.Keys == LoadConfig(file).Keys + update.Keys
      && (forall k :: k in update ==> merged[k] == update[k])
      && (forall k :: k in LoadConfig(file) && k !in update ==> merged[k] == LoadConfig(file)[k])
  {
  }

  /** Reading back a saved configuration gives exactly what was saved, because it already
      holds every default key. */
  lemma SavedConfigReloads(file: ConfigFile, update: Settings)
    ensures var saved := LoadConfig(file) + update;
      LoadConfig(Parsed(JObject(saved))) == saved
  {
    var saved := LoadConfig(file) + update;
    LoadHasDefaults(file);
    assert DefaultConfig + saved == saved;
  }

  /** Validation accepts exactly the objects whose count, when present, is an int in
      1..50 and whose interval, when present, is one of 0, 5, 10, 30, 60. */
  lemma ValidateExactly(body: Json)
    ensures ValidateUpdate(body).None? <==>
      && body.JObject?
      && ("recent_jobs_count" in body.fields ==> ValidCount(body.fields["recent_jobs_count"]))
      && ("refresh_interval" in body.fields ==> ValidInterval(body.fields["refresh_interval"]))
    ensures ValidateUpdate(body).Some? ==> ValidateUpdate(body).value in {FormatError, CountError, IntervalError}
  {
  }

  /** Booleans pass as integers: true is a valid count (1), false a valid interval (0),
      while a float never passes. */
  lemma BooleansAreIntegers()
    ensures ValidCount(JBool(true)) && !ValidCount(JBool(false))
    ensures ValidInterval(JBool(false)) && !ValidInterval(JBool(true))
    ensures forall r :: !ValidCount(JFloat(r)) && !ValidInterval(JFloat(r))
  {
  }

  /** Python's `server in servers` for the value of the "servers" setting: membership in a
      list, a key of an object, a substring of a string; None where Python raises TypeError. */
  function ServerListed(server: string, servers: Json): Option<bool> {
    match servers
    case JArray(items) => Some(JStr(server) in items)
    case JObject(m) => Some(server in m)
    case JStr(s) => Some(Contains(s, server))
    case _ => None
  }

  /** Python's str.isdigit() restricted to ASCII: non-empty and all of '0' to '9'. The
      other Unicode digits that str.isdigit() accepts (superscripts, other scripts'
      digits) count as non-digits here. */
  predicate IsDigitString(s: string) { s != [] && AllDigits(s) }

  /** The outcome of the checks at the top of the job-output and GPU-status endpoints. */
  datatype RequestCheck = Accept | Reject(status: int, message: string) | ServerError

  const UnknownServer := "Unknown server"
  const InvalidJobId := "Invalid job ID"

  /** The two checks: the server must be listed in the settings, then the job id must be
      a string of digits. A "servers" value of another type makes the check raise, which
      the endpoint does not catch. */
  function CheckJobRequest(server: string, jobid: string, config: Settings): RequestCheck {
    var servers := if "servers" in config then config["servers"] else DefaultConfig["servers"];
    match ServerListed(server, servers)
    case None => ServerError
    case Some(false) => Reject(400, UnknownServer)
    case Some(true) => if IsDigitString(jobid) then Accept else Reject(400, InvalidJobId)
  }

  /** With the default settings only juwels and ferranti are accepted, and only with a
      job id made of ASCII digits. */
  lemma DefaultRequests(server: string, jobid: string)
    ensures CheckJobRequest(server, jobid, DefaultConfig) == Accept <==>
      (server == "juwels" || server == "ferranti") && IsDigitString(jobid)
    ensures CheckJobRequest(server, jobid, DefaultConfig) != ServerError
  {
    var items := [JStr("juwels"), JStr("ferranti")];
    assert JStr(server) in items <==> server == "juwels" || server == "ferranti";
  }

  /** Whatever the settings, an accepted request names a listed server and a digit job id. */
  lemma AcceptedRequest(server: string, jobid: string, config: Settings)
    requires CheckJobRequest(server, jobid, config) == Accept
    ensures IsDigitString(jobid)
    ensures ServerListed(server, if "servers" in config then config["servers"] else DefaultConfig["servers"]) == Some(true)
  {
  }
}

=== FILE: dashboard.dfy ===
/**
 * The dashboard page of static/app.js: the server cards in the #content
 * container, the previous response by server (prevData), the per-server
 * open flags of the recent-jobs disclosures (recentOpen) and the
 * first-render flag, as updated by fetchJobs and toggleRecent.
 */
module Dashboard {
  import opened Common
  import opened Records
  import opened Render
  import opened View

  /** What #content shows besides the cards: the page's "Connecting" placeholder, the
      backend error of a failed fetch (its message; the HTML is UnreachableText), or
      nothing once the first render has cleared it. */
  datatype Notice = Connecting | Unreachable(message: string) | Cleared

  /** The error block fetchJobs writes when the request or the JSON decoding fails. */
  function UnreachableText(message: string): string {
    "<div class=\"error-msg\">Could not reach the backend. Is job_monitor.py running?<br><small>"
      + EscapeHtml(message) + "</small></div>"
  }

  /** `!!recentOpen[name]`: a server never toggled is closed. */
  function OpenFlag(recentOpen: map<string, bool>, name: string): bool {
    name in recentOpen && recentOpen[name]
  }

  /** The server names of a response, in order. */
  function ServerNames(data: seq<ServerSnapshot>): (names: seq<string>)
    ensures |names| == |data| && forall i :: 0 <= i < |data| ==> names[i] == data[i].server
  {
    seq(|data|, i requires 0 <= i < |data| => data[i].server)
  }

  /** The names of the cards, in page order (a card's name never changes). */
  function CardNames(cards: seq<ServerCard>): (names: seq<string>)
    ensures |names| == |cards| && forall i :: 0 <= i < |cards| ==> names[i] == cards[i].name
  {
    seq(|cards|, i requires 0 <= i < |cards| => cards[i].name)
  }

  /** `newPrev[s.server] = s` for every snapshot in order: a later snapshot of the same
      server replaces an earlier one. */
  function SnapshotMap(data: seq<ServerSnapshot>): (m: map<string, ServerSnapshot>)
    ensures m.Keys == set s | s in data :: s.server
    ensures forall n :: n in m ==> m[n].server == n
    decreases |data|
  {
    if data == [] then map[]
    else
      var init, last := data[..|data| - 1], data[|data| - 1];
      assert data == init + [last];
      SnapshotMap(init)[last.server := last]
  }

  /** The snapshot a map holds for a server, if any. */
  function Lookup(m: map<string, ServerSnapshot>, name: string): Option<ServerSnapshot> {
    if name in m then Some(m[name]) else None
  }

  /** The names of names that are not in base, in order: the cards a response adds. */
  function Missing(base: seq<string>, names: seq<string>): (added: seq<string>)
    ensures forall n :: n in added ==> n in names && n !in base
    decreases |names|
  {
    if names == [] then []
    else
      var last := names[|names| - 1];
      Missing(base, names[..|names| - 1]) + (if last in base then [] else [last])
  }

  /** The position of the card named name (document.getElementById), if any. */
  function IndexOf(names: seq<string>, name: string): (r: Option<nat>)
    ensures r.Some? ==> r.value < |names| && names[r.value] == name
    ensures r.None? ==> name !in names
    decreases |names|
  {
    if names == [] then None
    else if names[0] == name then Some(0)
    else match IndexOf(names[1..], name)
      case None => None
      case Some(i) => Some(i + 1)
  }

  /** The recent panel shows the recent jobs: present exactly when there are some, with
      their count and their table. */
  predicate RecentShows(recent: Option<RecentPanel>, jobs: seq<JobRecord>) {
    && (recent.Some? <==> |jobs| > 0)
    && (recent.Some? ==> recent.value.count == |jobs| && recent.value.jobs == jobs)
  }

  /** The card agrees with the snapshot: status dot, job count, body and rows are those
      renderServerFull would give it, and without an error so is the disclosure. */
  ghost predicate Agrees(c: ServerCard, s: ServerSnapshot)
    reads c
  {
    && c.dotOk == !HasError(s)
    && c.jobCount == (if HasError(s) then None else Some(|s.jobs|))
    && c.body == BodyFor(s)
    && ShowJobs(c.order, c.table, if c.body.TableBody? then s.jobs else [])
    && (!HasError(s) ==> RecentShows(c.recent, s.recentJobs))
  }

  /** The chevron and the body of the card's disclosure both show the stored flag. */
  ghost predicate Synced(c: ServerCard, open: bool)
    reads c
  {
    c.recent.Some? ==> c.recent.value.chevronOpen == open && c.recent.value.bodyOpen == open
  }

  /** A card is well formed, its disclosure shows its stored flag, and it agrees with the
      snapshot it should show, if there is one. */
  ghost predicate CardOk(c: ServerCard, last: Option<ServerSnapshot>, open: bool)
    reads c
  {
    && c.Valid()
    && Synced(c, open)
    && (last.Some? ==> Agrees(c, last.value))
  }

  /** patchServer on an existing card, with the previous snapshot of its server: whether
      the card is rebuilt or patched in place, it ends up agreeing with the new snapshot,
      and the disclosure keeps showing the stored flag. */
  method PatchCard(card: ServerCard, s: ServerSnapshot, prev: Option<ServerSnapshot>, open: bool)
    requires DistinctJobIds(s.jobs) && card.name == s.server
    requires prev.Some? ==> prev.value.server == s.server
    requires CardOk(card, prev, open)
    modifies card
    ensures CardOk(card, Some(s), open)
    ensures card.entering == old(card.entering)
  {
    card.PatchServer(s, prev, open);
    if !ShapeChanged(prev, s) {
      ShapeChangedExactly(prev.value, s);
    }
  }

  /** patchServer's first branch, through its constructor: a new card agrees with its
      snapshot at once. */
  method NewCard(s: ServerSnapshot, open: bool, isFirstRender: bool) returns (card: ServerCard)
    requires DistinctJobIds(s.jobs)
    ensures fresh(card) && card.name == s.server && card.entering == isFirstRender
    ensures CardOk(card, Some(s), open)
  {
    card := new ServerCard.Create(s, open, isFirstRender);
  }

  /** Every card is in order for the snapshots shown by server (its own one, if any) and
      for the stored open flags. */
  ghost predicate AllOk(cards: seq<ServerCard>, shown: map<string, ServerSnapshot>, recentOpen: map<string, bool>)
    reads cards
  {
    forall i {:trigger CardOk(cards[i], Lookup(shown, cards[i].name), OpenFlag(recentOpen, cards[i].name))} ::
      0 <= i < |cards| ==> CardOk(cards[i], Lookup(shown, cards[i].name), OpenFlag(recentOpen, cards[i].name))
  }

  /** patchServer's first branch: the card of a server without one is appended. */
  method AppendCard(cards: seq<ServerCard>, s: ServerSnapshot, ghost shown: map<string, ServerSnapshot>,
                    recentOpen: map<string, bool>, isFirstRender: bool) returns (result: seq<ServerCard>)
    requires s.server !in CardNames(cards) && DistinctJobIds(s.jobs)
    requires AllOk(cards, shown, recentOpen)
    ensures |result| == |cards| + 1 && result[..|cards|] == cards && result[|cards|].name == s.server
    ensures AllOk(result, shown[s.server := s], recentOpen)
    ensures fresh(result[|cards|]) && result[|cards|].entering == isFirstRender
  {
    var card := NewCard(s, OpenFlag(recentOpen, s.server), isFirstRender);
    result := cards + [card];
    forall i | 0 <= i < |result|
      ensures CardOk(result[i], Lookup(shown[s.server := s], result[i].name), OpenFlag(recentOpen, result[i].name))
    {
      if i < |cards| {
        assert CardNames(cards)[i] != s.server;
        assert CardOk(cards[i], Lookup(shown, cards[i].name), OpenFlag(recentOpen, cards[i].name));
      }
    }
  }

  /** patchServer on the existing card at position idx, with its server's previous
      snapshot. */
  method PatchAt(cards: seq<ServerCard>, idx: nat, s: ServerSnapshot, prev: Option<ServerSnapshot>,
                 ghost shown: map<string, ServerSnapshot>, recentOpen: map<string, bool>)
    requires idx < |cards| && cards[idx].name == s.server
    requires Distinct(CardNames(cards)) && DistinctJobIds(s.jobs)
    requires prev == Lookup(shown, s.server) && (prev.Some? ==> prev.value.server == s.server)
    requires AllOk(cards, shown, recentOpen)
    modifies cards[idx]
    ensures AllOk(cards, shown[s.server := s], recentOpen)
    ensures cards[idx].entering == old(cards[idx].entering)
  {
    var card := cards[idx];
    assert CardOk(card, Lookup(shown, card.name), OpenFlag(recentOpen, card.name));
    PatchCard(card, s, prev, OpenFlag(recentOpen, s.server));
    forall i | 0 <= i < |cards|
      ensures CardOk(cards[i], Lookup(shown[s.server := s], cards[i].name), OpenFlag(recentOpen, cards[i].name))
    {
      if i != idx {
        assert CardNames(cards)[i] != CardNames(cards)[idx];
        assert old(CardOk(cards[i], Lookup(shown, cards[i].name), OpenFlag(recentOpen, cards[i].name)));
      }
    }
  }

  /** One iteration of fetchJobs' forEach: the card of the snapshot's server is patched
      with the server's previous snapshot, or a new card is appended; no other card
      changes, and afterwards every card is in order for the snapshots shown with this
      one in place of its server's. */
  method Place(cards: seq<ServerCard>, s: ServerSnapshot, prev: Option<ServerSnapshot>,
               ghost shown: map<string, ServerSnapshot>, recentOpen: map<string, bool>, isFirstRender: bool)
    returns (result: seq<ServerCard>)
    requires Distinct(CardNames(cards)) && DistinctJobIds(s.jobs)
    requires prev == Lookup(shown, s.server) && (prev.Some? ==> prev.value.server == s.server)
    requires AllOk(cards, shown, recentOpen)
    modifies cards
    ensures CardNames(result) == CardNames(cards) + (if s.server in CardNames(cards) then [] else [s.server])
    ensures AllOk(result, shown[s.server := s], recentOpen)
    ensures |cards| <= |result| && result[..|cards|] == cards
    ensures forall c :: c in cards && c.name != s.server ==> unchanged(c)
    ensures forall c :: c in cards ==> c.entering == old(c.entering)
    ensures forall i :: |cards| <= i < |result| ==> fresh(result[i]) && result[i].entering == isFirstRender
  {
    var idx := IndexOf(CardNames(cards), s.server);
    if idx.None? {
      result := AppendCard(cards, s, shown, recentOpen, isFirstRender);
    } else {
      PatchAt(cards, idx.value, s, prev, shown, recentOpen);
      result := cards;
    }
  }

  /** Part way through the forEach, with shown the snapshots by server so far (the new
      ones of the servers done, the previous ones of the others) and added the names of
      the cards appended so far: the old cards come first, in order, followed by the
      appended ones, which are entering exactly on the first render; names are distinct
      and every card is in order for what is shown. */
  ghost predicate Progress(cards0: seq<ServerCard>, cards: seq<ServerCard>, shown: map<string, ServerSnapshot>,
                           added: seq<string>, recentOpen: map<string, bool>, entering: bool)
    reads cards
  {
    && CardNames(cards) == CardNames(cards0) + added
    && Distinct(CardNames(cards))
    && AllOk(cards, shown, recentOpen)
    && |cards0| <= |cards| && cards[..|cards0|] == cards0
    && forall i :: |cards0| <= i < |cards| ==> cards[i].entering == entering
  }

  /** One pass of the forEach: patch or append the card of the k-th server. */
  method ReconcileStep(cards0: seq<ServerCard>, cards: seq<ServerCard>, data: seq<ServerSnapshot>, k: nat,
                       prevData: map<string, ServerSnapshot>, recentOpen: map<string, bool>, isFirstRender: bool)
    returns (next: seq<ServerCard>)
    requires k < |data| && Distinct(ServerNames(data)) && DistinctJobIds(data[k].jobs)
    requires forall n :: n in prevData ==> prevData[n].server == n
    requires Progress(cards0, cards, prevData + SnapshotMap(data[..k]),
                      Missing(CardNames(cards0), ServerNames(data)[..k]), recentOpen, isFirstRender)
    modifies cards
    ensures Progress(cards0, next, prevData + SnapshotMap(data[..k + 1]),
                     Missing(CardNames(cards0), ServerNames(data)[..k + 1]), recentOpen, isFirstRender)
    ensures |cards| <= |next| && next[..|cards|] == cards
    ensures forall i :: |cards| <= i < |next| ==> fresh(next[i])
  {
    var s := data[k];
    ghost var shown := prevData + SnapshotMap(data[..k]);
    FreshServer(data, k);
    NamesStep(CardNames(cards0), ServerNames(data), k, CardNames(cards));
    var prev := Lookup(prevData, s.server);
    assert prev == Lookup(shown, s.server);
    next := Place(cards, s, prev, shown, recentOpen, isFirstRender);
    ShownStep(prevData, data, k);
  }

  /** The forEach of fetchJobs over the response: the cards of the servers answered are in
      order for their new snapshots, the others for their previous ones. */
  method Reconcile(cards0: seq<ServerCard>, data: seq<ServerSnapshot>, prevData: map<string, ServerSnapshot>,
                   recentOpen: map<string, bool>, isFirstRender: bool) returns (cards: seq<ServerCard>)
    requires Distinct(CardNames(cards0)) && Distinct(ServerNames(data))
    requires forall n :: n in prevData ==> prevData[n].server == n
    requires forall i :: 0 <= i < |data| ==> DistinctJobIds(data[i].jobs)
    requires AllOk(cards0, prevData, recentOpen)
    modifies cards0
    ensures CardNames(cards) == CardNames(cards0) + Missing(CardNames(cards0), ServerNames(data))
    ensures Distinct(CardNames(cards))
    ensures AllOk(cards, prevData + SnapshotMap(data), recentOpen)
    ensures |cards0| <= |cards| && cards[..|cards0|] == cards0
    ensures forall i :: |cards0| <= i < |cards| ==> cards[i].entering == isFirstRender
  {
    cards := cards0;
    var k := 0;
    assert prevData + SnapshotMap(data[..0]) == prevData;
    assert Missing(CardNames(cards0), ServerNames(data)[..0]) == [];
    while k < |data|
      invariant 0 <= k <= |data|
      invariant Progress(cards0, cards, prevData + SnapshotMap(data[..k]),
                         Missing(CardNames(cards0), ServerNames(data)[..k]), recentOpen, isFirstRender)
      invariant forall i :: |cards0| <= i < |cards| ==> fresh(cards[i])
    {
      cards := ReconcileStep(cards0, cards, data, k, prevData, recentOpen, isFirstRender);
      k := k + 1;
    }
    assert data[..k] == data;
    assert ServerNames(data)[..k] == ServerNames(data);
  }

  /** Appending the next server of the response when it has no card yet extends the
      names by Missing one step further, and keeps them distinct. */
  lemma NamesStep(base: seq<string>, names: seq<string>, k: nat, current: seq<string>)
    requires k < |names| && Distinct(names) && Distinct(current)
    requires current == base + Missing(base, names[..k])
    ensures current + (if names[k] in current then [] else [names[k]]) == base + Missing(base, names[..k + 1])
    ensures Distinct(current + (if names[k] in current then [] else [names[k]]))
  {
    MissingStep(base, names, k);
    assert names[k] !in names[..k] by {
      forall j | 0 <= j < k
        ensures names[..k][j] != names[k]
      {
      }
    }
  }

  /** Storing one more snapshot of the response over the ones before it. */
  lemma ShownStep(prevData: map<string, ServerSnapshot>, data: seq<ServerSnapshot>, k: nat)
    requires k < |data|
    ensures (prevData + SnapshotMap(data[..k]))[data[k].server := data[k]] == prevData + SnapshotMap(data[..k + 1])
  {
    assert data[..k + 1][..k] == data[..k];
  }

  /** A server of a response with distinct names is not among the servers before it. */
  lemma FreshServer(data: seq<ServerSnapshot>, k: nat)
    requires Distinct(ServerNames(data)) && k < |data|
    ensures data[k].server !in SnapshotMap(data[..k])
    ensures data[k].server !in ServerNames(data)[..k]
  {
    forall s | s in data[..k]
      ensures s.server != data[k].server
    {
      var i :| 0 <= i < k && data[..k][i] == s;
      assert ServerNames(data)[i] != ServerNames(data)[k];
    }
  }

  /** The flag of a card changes its synced state and nothing else. */
  method ToggleCard(card: ServerCard, ghost last: Option<ServerSnapshot>, open: bool)
    requires CardOk(card, last, open)
    modifies card
    ensures CardOk(card, last, !open)
    ensures card.recent.Some? <==> old(card.recent).Some?
    ensures card.recent.Some? ==> card.recent.value == old(card.recent).value.(
              chevronOpen := !old(card.recent).value.chevronOpen,
              bodyOpen := !old(card.recent).value.bodyOpen)
  {
    card.ToggleDisclosure();
  }

  /** toggleRecent on the cards: the flag of name flips, and the card of that server, if
      there is one, toggles its disclosure; no other card changes. */
  method ToggleIn(cards: seq<ServerCard>, name: string, ghost shown: map<string, ServerSnapshot>,
                  recentOpen: map<string, bool>)
    requires Distinct(CardNames(cards)) && AllOk(cards, shown, recentOpen)
    modifies cards
    ensures AllOk(cards, shown, recentOpen[name := !OpenFlag(recentOpen, name)])
    ensures forall c :: c in cards && c.name != name ==> unchanged(c)
    ensures forall c :: c in cards && c.name == name ==>
      && (c.recent.Some? <==> old(c.recent).Some?)
      && (c.recent.Some? ==> c.recent.value == old(c.recent).value.(
            chevronOpen := !old(c.recent).value.chevronOpen,
            bodyOpen := !old(c.recent).value.bodyOpen))
  {
    var idx := IndexOf(CardNames(cards), name);
    if idx.Some? {
      var card := cards[idx.value];
      assert CardOk(card, Lookup(shown, card.name), OpenFlag(recentOpen, card.name));
      ToggleCard(card, Lookup(shown, name), OpenFlag(recentOpen, name));
      forall i | 0 <= i < |cards|
        ensures CardOk(cards[i], Lookup(shown, cards[i].name),
                       OpenFlag(recentOpen[name := !OpenFlag(recentOpen, name)], cards[i].name))
      {
        if i != idx.value {
          assert CardNames(cards)[i] != CardNames(cards)[idx.value];
          assert old(CardOk(cards[i], Lookup(shown, cards[i].name), OpenFlag(recentOpen, cards[i].name)));
        }
      }
    } else {
      forall i | 0 <= i < |cards|
        ensures CardOk(cards[i], Lookup(shown, cards[i].name),
                       OpenFlag(recentOpen[name := !OpenFlag(recentOpen, name)], cards[i].name))
      {
        assert CardNames(cards)[i] != name;
        assert CardOk(cards[i], Lookup(shown, cards[i].name), OpenFlag(recentOpen, cards[i].name));
      }
    }
  }

  /** Once a response is stored, a card whose server it lacks no longer has a snapshot to
      agree with; every other card agrees with its new one. */
  lemma ForgetStale(cards: seq<ServerCard>, prevData: map<string, ServerSnapshot>,
                    done: map<string, ServerSnapshot>, recentOpen: map<string, bool>)
    requires AllOk(cards, prevData + done, recentOpen)
    ensures AllOk(cards, done, recentOpen)
  {
    forall i | 0 <= i < |cards|
      ensures CardOk(cards[i], Lookup(done, cards[i].name), OpenFlag(recentOpen, cards[i].name))
    {
      assert CardOk(cards[i], Lookup(prevData + done, cards[i].name), OpenFlag(recentOpen, cards[i].name));
    }
  }

  /** The loop of fetchJobs that builds newPrev. */
  method BuildPrev(data: seq<ServerSnapshot>) returns (newPrev: map<string, ServerSnapshot>)
    ensures newPrev == SnapshotMap(data)
  {
    newPrev := map[];
    var k := 0;
    while k < |data|
      invariant 0 <= k <= |data|
      invariant newPrev == SnapshotMap(data[..k])
    {
      assert data[..k + 1][..k] == data[..k];
      newPrev := newPrev[data[k].server := data[k]];
      k := k + 1;
    }
    assert data[..k] == data;
  }

  /** The cards and the stored response after a successful fetch: the forEach over the
      response, then newPrev. */
  method Refresh(cards0: seq<ServerCard>, data: seq<ServerSnapshot>, prevData: map<string, ServerSnapshot>,
                 recentOpen: map<string, bool>, isFirstRender: bool)
    returns (cards: seq<ServerCard>, newPrev: map<string, ServerSnapshot>)
    requires Distinct(CardNames(cards0)) && Distinct(ServerNames(data))
    requires forall n :: n in prevData ==> prevData[n].server == n
    requires forall i :: 0 <= i < |data| ==> DistinctJobIds(data[i].jobs)
    requires AllOk(cards0, prevData, recentOpen)
    modifies cards0
    ensures newPrev == SnapshotMap(data)
    ensures CardNames(cards) == CardNames(cards0) + Missing(CardNames(cards0), ServerNames(data))
    ensures Distinct(CardNames(cards))
    ensures AllOk(cards, newPrev, recentOpen) && AllOk(cards, prevData + newPrev, recentOpen)
    ensures |cards0| <= |cards| && cards[..|cards0|] == cards0
    ensures forall i :: |cards0| <= i < |cards| ==> cards[i].entering == isFirstRender
  {
    cards := Reconcile(cards0, data, prevData, recentOpen, isFirstRender);
    newPrev := BuildPrev(data);
    ForgetStale(cards, prevData, newPrev, recentOpen);
  }

  /** The page: its cards in #content order and the script's global state. */
  class Page {
    var cards: seq<ServerCard>
    var notice: Notice
    /** prevData: the last successful response, by server. */
    var prevData: map<string, ServerSnapshot>
    var recentOpen: map<string, bool>
    var isFirstRender: bool

    /** Cards have distinct names and are each well formed, in sync with recentOpen and
        with prevData; there are no cards before the first render; prevData is keyed by
        server name. */
    ghost predicate Valid()
      reads this, cards
    {
      && Distinct(CardNames(cards))
      && AllOk(cards, prevData, recentOpen)
      && (isFirstRender ==> cards == [])
      && (forall n :: n in prevData ==> prevData[n].server == n)
    }

    /** The page as loaded: the placeholder, no cards, nothing stored. */
    constructor()
      ensures Valid()
      ensures cards == [] && notice == Connecting && prevData == map[] && recentOpen == map[]
      ensures isFirstRender
    {
      cards, notice, prevData, recentOpen, isFirstRender := [], Connecting, map[], map[], true;
    }

    /** fetchJobs after a successful request: the first render clears the placeholder or
        error, each server of the response is patched into its card or gets a new card at
        the end, prevData becomes the response and the first render is over. A card whose
        server the response lacks keeps agreeing with that server's last snapshot, and the
        open flags are not touched. */
    method FetchSuccess(data: seq<ServerSnapshot>)
      requires Valid() && Distinct(ServerNames(data))
      requires forall i :: 0 <= i < |data| ==> DistinctJobIds(data[i].jobs)
      modifies this, cards
      ensures Valid()
      ensures prevData == SnapshotMap(data) && recentOpen == old(recentOpen) && !isFirstRender
      ensures notice == if old(isFirstRender) then Cleared else old(notice)
      ensures CardNames(cards) == CardNames(old(cards)) + Missing(CardNames(old(cards)), ServerNames(data))
    {
      if isFirstRender {
        notice := Cleared;
      }
      var newCards, newPrev := Refresh(cards, data, prevData, recentOpen, isFirstRender);
      cards, prevData, isFirstRender := newCards, newPrev, false;
    }

    /** fetchJobs when the request or its decoding fails: #content is replaced by the
        error, which removes every card; nothing stored changes. */
    method FetchFailure(message: string)
      requires Valid()
      modifies this
      ensures Valid()
      ensures cards == [] && notice == Unreachable(message)
      ensures prevData == old(prevData) && recentOpen == old(recentOpen) && isFirstRender == old(isFirstRender)
    {
      cards := [];
      notice := Unreachable(message);
    }

    /** toggleRecent: the stored flag flips, and the disclosure of the server's card, if
        there is one, toggles its chevron and body. */
    method ToggleRecent(name: string)
      requires Valid()
      modifies this, cards
      ensures Valid()
      ensures recentOpen == old(recentOpen)[name := !OpenFlag(old(recentOpen), name)]
      ensures cards == old(cards) && notice == old(notice) && prevData == old(prevData)
      ensures isFirstRender == old(isFirstRender)
      ensures forall c :: c in cards && c.name != name ==> unchanged(c)
      ensures forall c :: c in cards && c.name == name ==>
        && (c.recent.Some? <==> old(c.recent).Some?)
        && (c.recent.Some? ==> c.recent.value == old(c.recent).value.(
              chevronOpen := !old(c.recent).value.chevronOpen,
              bodyOpen := !old(c.recent).value.bodyOpen))
    {
      ToggleIn(cards, name, prevData, recentOpen);
      recentOpen := recentOpen[name := !OpenFlag(recentOpen, name)];
    }
  }

  /** One more name extends Missing by that name exactly when it is in neither the base
      nor the names before it. */
  lemma MissingStep(base: seq<string>, names: seq<string>, k: nat)
    requires k < |names|
    ensures Missing(base, names[..k + 1]) ==
      Missing(base, names[..k]) + (if names[k] in base then [] else [names[k]])
  {
    assert names[..k + 1][..k] == names[..k];
  }

  /** Toggling the same server twice restores its flag and its card's disclosure, and
      leaves every other card as it was. */
  method ToggleTwice(page: Page, name: string)
    requires page.Valid()
    modifies page, page.cards
    ensures page.Valid()
    ensures forall n :: OpenFlag(page.recentOpen, n) == OpenFlag(old(page.recentOpen), n)
    ensures page.cards == old(page.cards)
    ensures forall c :: c in page.cards ==> c.recent == old(c.recent)
  {
    page.ToggleRecent(name);
    page.ToggleRecent(name);
  }
}

=== FILE: gpuinfo.dfy ===
/**
 * GPU allocation and statistics of one running job (fetch_job_gpu_info in
 * job_monitor.py): the `%N|%b` squeue line is split into a nodelist and a
 * GRES string, the GRES `IDX:` part gives the allocated GPU indices, the
 * bracketed nodelist is expanded into host names, and each host's
 * nvidia-smi CSV rows are filtered to the allocated GPUs.
 */
module GpuInfo {
  import opened Common
  import opened Strings
  import opened Records

  /** One nvidia-smi row, every field as stripped text. */
  datatype GpuRow = GpuRow(
    index: string, name: string, gpuUtil: string, memUtil: string,
    memUsed: string, memTotal: string, temperature: string)

  /** One node's entry: an error text and no rows, or no error and its rows. */
  datatype NodeGpus = NodeGpus(node: string, error: Option<string>, gpus: seq<GpuRow>)

  /** The JSON object fetch_job_gpu_info returns: an error with one of its fixed
      messages, an error carrying the text of a caught Python exception (the text is
      Python's own and is not modelled), or the stats of every node. */
  datatype GpuInfo = GpuError(message: string) | Raised | GpuNodes(nodes: seq<NodeGpus>)

  const JobNotFound := "Job not found or not running"
  const CannotParse := "Could not parse job information"
  const NoNodes := "No nodes found for this job"
  const SmiFailed := "Failed to get GPU info"

  /** Python's list(range(lo, hi)). */
  function Range(lo: int, hi: int): seq<int> {
    seq(if hi > lo then hi - lo else 0, i => lo + i)
  }

  /** The allocated GPU indices of a GRES string such as "gpu:4(IDX:0-3)"; None when
      int() fails or the range does not split into exactly two ends (Python raises). */
  function ParseGres(gres: string): Option<seq<int>> {
    if !Contains(gres, "IDX:") then Some([])
    else IndicesOf(RStripChar(Split(gres, "IDX:")[1], ')'))
  }

  /** The indices of the text after "IDX:" once its closing parentheses are stripped. */
  function IndicesOf(idx: string): Option<seq<int>> {
    if Contains(idx, "-") then
      var ends := Split(idx, "-");
      if |ends| != 2 then None
      else
        var start, end := ParseInt(ends[0]), ParseInt(ends[1]);
        if start.Some? && end.Some? then Some(Range(start.value, end.value + 1)) else None
    else match ParseInt(idx)
      case Some(k) => Some([k])
      case None => None
  }

  /** The host name base + i, i zero-padded to width. */
  function HostName(base: string, i: nat, width: nat): string {
    base + ZFill(NatToString(i), width)
  }

  /** The names name(lo), ..., name(hi), in index order (none when hi < lo). */
  function Names(lo: nat, hi: int, name: nat -> string): (names: seq<string>)
    ensures |names| == if hi >= lo then hi - lo + 1 else 0
    ensures forall k :: 0 <= k < |names| ==> names[k] == name(lo + k)
    decreases hi - lo
  {
    if hi < lo then [] else Names(lo, hi - 1, name) + [name(hi)]
  }

  /** The host names of the indices from lo to hi inclusive. */
  function NodeNames(base: string, lo: nat, hi: int, width: nat): (names: seq<string>)
    ensures |names| == if hi >= lo then hi - lo + 1 else 0
    ensures forall k :: 0 <= k < |names| ==> names[k] == HostName(base, lo + k, width)
  {
    Names(lo, hi, (i: nat) => HostName(base, i, width))
  }

  /** The host names of a nodelist such as "jwb[0012-0015]"; None when Python raises. */
  function NodesOf(nodelist: string): Option<seq<string>> {
    if !Contains(nodelist, "[") then Some([nodelist])
    else
      var pieces := Split(nodelist, "[");
      BracketNodes(pieces[0], RStripChar(pieces[1], ']'))
  }

  /** The hosts of base[rangePart] once the bracket is removed. */
  function BracketNodes(base: string, rangePart: string): Option<seq<string>> {
    if Contains(rangePart, "-") then
      var ends := Split(rangePart, "-");
      if |ends| != 2 then None
      else
        SplitCharFree(rangePart, '-');
        assert '-' !in ends[0];
        match (ParseInt(ends[0]), ParseInt(ends[1]))
        case (Some(a), Some(b)) => Some(NodeNames(base, a, b, |ends[0]|))
        case _ => None
    else Some([base + rangePart])
  }

  /** The nodelist expansion of fetch_job_gpu_info, with its loop over the range. */
  method ExpandNodelist(nodelist: string) returns (r: Option<seq<string>>)
    ensures r == NodesOf(nodelist)
  {
    if !Contains(nodelist, "[") {
      return Some([nodelist]);
    }
    var pieces := Split(nodelist, "[");
    var base := pieces[0];
    var rangePart := RStripChar(pieces[1], ']');
    if !Contains(rangePart, "-") {
      return Some([base + rangePart]);
    }
    var ends := Split(rangePart, "-");
    if |ends| != 2 {
      return None;
    }
    SplitCharFree(rangePart, '-');
    var start := ParseInt(ends[0]);
    var end := ParseInt(ends[1]);
    if start.None? || end.None? {
      return None;
    }
    var nodes := RangeNames(base, start.value, end.value, |ends[0]|);
    return Some(nodes);
  }

  /** The loop `for i in range(start, end + 1)` appending one padded name per index. */
  method RangeNames(base: string, lo: nat, hi: int, width: nat) returns (nodes: seq<string>)
    ensures nodes == NodeNames(base, lo, hi, width)
  {
    nodes := [];
    var i: int := lo;
    while i < hi + 1
      invariant lo <= i <= if hi >= lo then hi + 1 else lo
      invariant |nodes| == i - lo
      invariant forall k :: 0 <= k < |nodes| ==> nodes[k] == HostName(base, lo + k, width)
    {
      nodes := nodes + [HostName(base, i, width)];
      i := i + 1;
    }
    assert |nodes| == |NodeNames(base, lo, hi, width)|;
  }

  /** A CSV line split on commas, each field stripped. */
  function CsvFields(line: string): (parts: seq<string>) {
    var raw := Split(line, ",");
    seq(|raw|, i requires 0 <= i < |raw| => Strip(raw[i]))
  }

  function RowOf(parts: seq<string>): GpuRow
    requires |parts| >= 7
  {
    GpuRow(parts[0], parts[1], parts[2], parts[3], parts[4], parts[5], parts[6])
  }

  /** A GPU index is shown when no indices were parsed or it is one of them. */
  predicate Admits(indices: seq<int>, k: int) {
    indices == [] || k in indices
  }

  /** The rows of the CSV lines with at least seven fields whose index is admitted, in
      line order; None when such a line's first field is not an integer. */
  function GpuRowsOf(lines: seq<string>, indices: seq<int>): Option<seq<GpuRow>>
    decreases |lines|
  {
    if lines == [] then Some([])
    else
      match GpuRowsOf(lines[..|lines| - 1], indices)
      case None => None
      case Some(rows) => LineStep(rows, lines[|lines| - 1], indices)
  }

  /** What one CSV line does to the rows kept so far: a line with fewer than seven
      fields is skipped, a non-integer index raises, and an admitted index adds the row. */
  function LineStep(rows: seq<GpuRow>, line: string, indices: seq<int>): Option<seq<GpuRow>> {
    var parts := CsvFields(line);
    if |parts| < 7 then Some(rows)
    else match ParseInt(parts[0])
      case None => None
      case Some(k) => if Admits(indices, k) then Some(rows + [RowOf(parts)]) else Some(rows)
  }

  /** The CSV loop of fetch_job_gpu_info over one node's nvidia-smi output. */
  method FilterGpuRows(stdout: string, indices: seq<int>) returns (r: Option<seq<GpuRow>>)
    ensures r == GpuRowsOf(SplitLines(Strip(stdout)), indices)
  {
    r := FilterLines(SplitLines(Strip(stdout)), indices);
  }

  /** The loop over the lines, stopping at the first line whose index raises. */
  method FilterLines(lines: seq<string>, indices: seq<int>) returns (r: Option<seq<GpuRow>>)
    ensures r == GpuRowsOf(lines, indices)
  {
    var gpus: seq<GpuRow> := [];
    var k := 0;
    while k < |lines|
      invariant 0 <= k <= |lines|
      invariant GpuRowsOf(lines[..k], indices) == Some(gpus)
    {
      GpuRowsSnoc(lines, k, indices);
      var next := KeepLine(gpus, lines[k], indices);
      if next.None? {
        RaisedStaysRaised(lines, k + 1, indices);
        return None;
      }
      gpus := next.value;
      k := k + 1;
    }
    assert lines[..k] == lines;
    return Some(gpus);
  }

  /** The body of the CSV loop for one line. */
  method KeepLine(gpus: seq<GpuRow>, line: string, indices: seq<int>) returns (r: Option<seq<GpuRow>>)
    ensures r == LineStep(gpus, line, indices)
  {
    var parts := CsvFields(line);
    if |parts| < 7 {
      return Some(gpus);
    }
    var gpuIdx := ParseInt(parts[0]);
    if gpuIdx.None? {
      return None;
    }
    if indices == [] || gpuIdx.value in indices {
      return Some(gpus + [RowOf(parts)]);
    }
    return Some(gpus);
  }

  /** The rows of one more line follow from the rows of the lines before it. */
  lemma GpuRowsSnoc(lines: seq<string>, k: nat, indices: seq<int>)
    requires k < |lines|
    ensures GpuRowsOf(lines[..k + 1], indices) ==
      match GpuRowsOf(lines[..k], indices)
      case None => None
      case Some(rows) => LineStep(rows, lines[k], indices)
  {
    assert lines[..k + 1][..k] == lines[..k];
  }

  /** Once a line raises, the whole output does. */
  lemma {:induction false} RaisedStaysRaised(lines: seq<string>, k: nat, indices: seq<int>)
    requires k <= |lines| && GpuRowsOf(lines[..k], indices).None?
    ensures GpuRowsOf(lines, indices).None?
    decreases |lines| - k
  {
    if k < |lines| {
      assert lines[..k + 1][..k] == lines[..k];
      RaisedStaysRaised(lines, k + 1, indices);
    } else {
      assert lines[..k] == lines;
    }
  }

  /** What one node contributes: its entry, or the result that ends the whole call (a
      timeout of the inner ssh, or an exception from the CSV rows). */
  datatype Step = Entry(entry: NodeGpus) | Stop(result: GpuInfo)

  function NodeStep(node: string, indices: seq<int>, cap: Capture): Step {
    match cap
    case TimedOut => Stop(GpuError(TimeoutMessage))
    case Failed(message) => Stop(GpuError(message))
    case Completed(rc, out, err) =>
      if rc != 0 then Entry(NodeGpus(node, Some(if Strip(err) == "" then SmiFailed else Strip(err)), []))
      else match GpuRowsOf(SplitLines(Strip(out)), indices)
        case None => Stop(Raised)
        case Some(gpus) => Entry(NodeGpus(node, None, gpus))
  }

  /** The node loop: the entries of the nodes in order, or the first stopping result. */
  function NodesOutcome(nodes: seq<string>, indices: seq<int>, smi: string -> Capture): GpuInfo
    decreases |nodes|
  {
    if nodes == [] then GpuNodes([])
    else
      match NodesOutcome(nodes[..|nodes| - 1], indices, smi)
      case GpuNodes(entries) =>
        (match NodeStep(nodes[|nodes| - 1], indices, smi(nodes[|nodes| - 1]))
         case Entry(e) => GpuNodes(entries + [e])
         case Stop(res) => res)
      case other => other
  }

  /** What fetch_job_gpu_info returns, given the squeue capture and, for every node name,
      the capture of nvidia-smi run on it. */
  function GpuInfoOutcome(squeue: Capture, smi: string -> Capture): (r: GpuInfo)
    ensures r.GpuNodes? ==> r.nodes != []
  {
    match squeue
    case TimedOut => GpuError(TimeoutMessage)
    case Failed(message) => GpuError(message)
    case Completed(rc, out, _) =>
      if rc != 0 || Strip(out) == "" then GpuError(JobNotFound)
      else
        var parts := Split(Strip(out), "|");
        if |parts| < 2 then GpuError(CannotParse)
        else
          match ParseGres(Strip(parts[1]))
          case None => Raised
          case Some(indices) =>
            match NodesOf(Strip(parts[0]))
            case None => Raised
            case Some(nodes) =>
              if nodes == [] then GpuError(NoNodes)
              else NodesOutcomeShape(nodes, indices, smi); NodesOutcome(nodes, indices, smi)
  }

  /** fetch_job_gpu_info after the first ssh call, with its loop over the nodes. */
  method FetchJobGpuInfo(squeue: Capture, smi: string -> Capture) returns (r: GpuInfo)
    ensures r == GpuInfoOutcome(squeue, smi)
  {
    if squeue.TimedOut? {
      return GpuError(TimeoutMessage);
    }
    if squeue.Failed? {
      return GpuError(squeue.message);
    }
    if squeue.returncode != 0 || Strip(squeue.stdout) == "" {
      return GpuError(JobNotFound);
    }
    var parts := Split(Strip(squeue.stdout), "|");
    if |parts| < 2 {
      return GpuError(CannotParse);
    }
    var nodelist := Strip(parts[0]);
    var gres := Strip(parts[1]);
    var gpuIndices := ParseGres(gres);
    if gpuIndices.None? {
      return Raised;
    }
    var indices := gpuIndices.value;
    var expanded := ExpandNodelist(nodelist);
    if expanded.None? {
      return Raised;
    }
    var nodes := expanded.value;
    if nodes == [] {
      return GpuError(NoNodes);
    }
    r := CollectNodes(nodes, indices, smi);
  }

  /** The loop over the nodes: one ssh call per node, stopping at a timeout or at an
      exception from the CSV rows. */
  method CollectNodes(nodes: seq<string>, indices: seq<int>, smi: string -> Capture) returns (r: GpuInfo)
    ensures r == NodesOutcome(nodes, indices, smi)
  {
    var nodeGpus: seq<NodeGpus> := [];
    var i := 0;
    while i < |nodes|
      invariant 0 <= i <= |nodes|
      invariant NodesOutcome(nodes[..i], indices, smi) == GpuNodes(nodeGpus)
    {
      NodesSnoc(nodes, i, indices, smi);
      var step := FetchNode(nodes[i], indices, smi(nodes[i]));
      if step.Stop? {
        StopStaysStopped(nodes, i + 1, indices, smi);
        return step.result;
      }
      nodeGpus := nodeGpus + [step.entry];
      i := i + 1;
    }
    assert nodes[..i] == nodes;
    return GpuNodes(nodeGpus);
  }

  /** The body of the node loop for one node, given the capture of its ssh call. */
  method FetchNode(node: string, indices: seq<int>, result: Capture) returns (step: Step)
    ensures step == NodeStep(node, indices, result)
  {
    if result.TimedOut? {
      return Stop(GpuError(TimeoutMessage));
    }
    if result.Failed? {
      return Stop(GpuError(result.message));
    }
    if result.returncode != 0 {
      var err := Strip(result.stderr);
      return Entry(NodeGpus(node, Some(if err == "" then SmiFailed else err), []));
    }
    var gpus := FilterGpuRows(result.stdout, indices);
    if gpus.None? {
      return Stop(Raised);
    }
    return Entry(NodeGpus(node, None, gpus.value));
  }

  /** The outcome of one more node follows from the outcome of the nodes before it. */
  lemma NodesSnoc(nodes: seq<string>, i: nat, indices: seq<int>, smi: string -> Capture)
    requires i < |nodes|
    ensures NodesOutcome(nodes[..i + 1], indices, smi) ==
      match NodesOutcome(nodes[..i], indices, smi)
      case GpuNodes(entries) =>
        (match NodeStep(nodes[i], indices, smi(nodes[i]))
         case Entry(e) => GpuNodes(entries + [e])
         case Stop(res) => res)
      case other => other
  {
    assert nodes[..i + 1][..i] == nodes[..i];
  }

  /** Once a node stops the loop, the result of the whole loop is that stop. */
  lemma {:induction false} StopStaysStopped(nodes: seq<string>, k: nat, indices: seq<int>,
                                            smi: string -> Capture)
    requires k <= |nodes| && !NodesOutcome(nodes[..k], indices, smi).GpuNodes?
    ensures NodesOutcome(nodes, indices, smi) == NodesOutcome(nodes[..k], indices, smi)
    decreases |nodes| - k
  {
    if k < |nodes| {
      assert nodes[..k + 1][..k] == nodes[..k];
      StopStaysStopped(nodes, k + 1, indices, smi);
    } else {
      assert nodes[..k] == nodes;
    }
  }

  /** A pattern is only found where its first character occurs. */
  lemma FoundFirstChar(s: string, pat: string)
    requires pat != []
    ensures FindFrom(s, pat, 0).Some? ==> pat[0] in s
  {
    var f := FindFrom(s, pat, 0);
    if f.Some? {
      assert s[f.value..f.value + |pat|][0] == s[f.value];
    }
  }

  /** Digits contain none of the separators the parsers split on. */
  lemma DigitsFree(d: string)
    requires AllDigits(d)
    ensures '-' !in d && ']' !in d && ')' !in d && '[' !in d && 'I' !in d
  {
  }

  /** The text after the first "IDX:" is the second part of the split when no other
      "IDX:" follows. */
  lemma AfterIdx(gres: string, p: nat)
    requires FindFrom(gres, "IDX:", 0) == Some(p)
    requires 'I' !in gres[p + 4..]
    ensures Contains(gres, "IDX:") && Split(gres, "IDX:")[1] == gres[p + 4..]
  {
    FoundFirstChar(gres[p + 4..], "IDX:");
    assert Split(gres, "IDX:") == [gres[..p]] + Split(gres[p + 4..], "IDX:");
  }

  /** Two digit strings joined by '-' split back into the two. */
  lemma DashPair(A: string, B: string)
    requires AllDigits(A) && AllDigits(B)
    ensures Contains(A + "-" + B, "-")
    ensures Split(A + "-" + B, "-") == [A, B]
  {
    DigitsFree(A);
    DigitsFree(B);
    ContainsChar(A + "-" + B, '-');
    SplitAtChar(A, '-', B);
    SplitCharAbsent(B, '-');
  }

  /** int() reads back str(n). */
  lemma ParseNat(n: nat)
    ensures ParseInt(NatToString(n)) == Some(n)
  {
    ParseDigits(NatToString(n));
  }

  /** "IDX:a-b" (closing parentheses allowed) gives the inclusive index list a..b. */
  lemma GresRange(gres: string, p: nat, a: nat, b: nat, closing: nat)
    requires FindFrom(gres, "IDX:", 0) == Some(p)
    requires gres[p + 4..] == NatToString(a) + "-" + NatToString(b) + Repeat(')', closing)
    ensures ParseGres(gres) == Some(Range(a, b + 1))
    ensures var r := Range(a, b + 1);
      && (b >= a ==> |r| == b - a + 1)
      && forall i :: 0 <= i < |r| ==> a <= r[i] <= b
  {
    var A, B := NatToString(a), NatToString(b);
    DigitsFree(A);
    DigitsFree(B);
    var idx := A + "-" + B;
    assert 'I' !in idx && idx[|idx| - 1] != ')';
    IdxPart(gres, p, idx, closing);
    DashPair(A, B);
    ParseNat(a);
    ParseNat(b);
    IndicesOfRange(idx, a, b);
    RangeBounds(a, b + 1);
  }

  lemma IndicesOfRange(idx: string, a: int, b: int)
    requires Contains(idx, "-") && |Split(idx, "-")| == 2
    requires ParseInt(Split(idx, "-")[0]) == Some(a) && ParseInt(Split(idx, "-")[1]) == Some(b)
    ensures IndicesOf(idx) == Some(Range(a, b + 1))
  {
  }

  lemma RangeBounds(lo: int, hi: int)
    ensures hi > lo ==> |Range(lo, hi)| == hi - lo
    ensures forall i :: 0 <= i < |Range(lo, hi)| ==> lo <= Range(lo, hi)[i] < hi
  {
  }

  /** The text after "IDX:", with its closing parentheses stripped. */
  lemma IdxPart(gres: string, p: nat, idx: string, closing: nat)
    requires FindFrom(gres, "IDX:", 0) == Some(p)
    requires gres[p + 4..] == idx + Repeat(')', closing)
    requires 'I' !in idx && (idx == [] || idx[|idx| - 1] != ')')
    ensures Contains(gres, "IDX:") && RStripChar(Split(gres, "IDX:")[1], ')') == idx
  {
    assert 'I' !in Repeat(')', closing);
    AfterIdx(gres, p);
    RStripRepeat(idx, ')', closing);
  }

  /** "IDX:k" (closing parentheses allowed) gives the single index k. */
  lemma GresSingle(gres: string, p: nat, k: nat, closing: nat)
    requires FindFrom(gres, "IDX:", 0) == Some(p)
    requires gres[p + 4..] == NatToString(k) + Repeat(')', closing)
    ensures ParseGres(gres) == Some([k])
  {
    var K := NatToString(k);
    DigitsFree(K);
    AfterIdx(gres, p);
    RStripRepeat(K, ')', closing);
    ContainsChar(K, '-');
    ParseNat(k);
  }

  /** A nodelist without a bracket is a single host. */
  lemma NodelistPlain(nodelist: string)
    requires '[' !in nodelist
    ensures NodesOf(nodelist) == Some([nodelist])
  {
    ContainsChar(nodelist, '[');
  }

  /** "base[rest]" with no other bracket splits into base and "rest]", and the closing
      bracket is stripped. */
  lemma Bracketed(base: string, rest: string)
    requires '[' !in base && '[' !in rest && ']' !in rest
    ensures Contains(base + "[" + rest + "]", "[")
    ensures Split(base + "[" + rest + "]", "[") == [base, rest + "]"]
    ensures RStripChar(rest + "]", ']') == rest
  {
    var nodelist := base + "[" + rest + "]";
    assert nodelist == base + ['['] + (rest + "]");
    ContainsChar(nodelist, '[');
    SplitAtChar(base, '[', rest + "]");
    SplitCharAbsent(rest + "]", '[');
    assert rest + "]" == rest + Repeat(']', 1);
    RStripRepeat(rest, ']', 1);
  }

  /** "base[rangePart]" is expanded from rangePart. */
  lemma NodelistBracketed(base: string, rangePart: string)
    requires '[' !in base && '[' !in rangePart && ']' !in rangePart
    ensures NodesOf(base + "[" + rangePart + "]") == BracketNodes(base, rangePart)
  {
    Bracketed(base, rangePart);
  }

  /** "base[x]" without a range is the single host base + x. */
  lemma NodelistSingle(base: string, x: string)
    requires '[' !in base && '[' !in x && ']' !in x && '-' !in x
    ensures NodesOf(base + "[" + x + "]") == Some([base + x])
  {
    NodelistBracketed(base, x);
    ContainsChar(x, '-');
  }

  /** "base[S-E]", for digit strings S and E that may carry leading zeros, expands to the
      hosts base + i for i from the value of S to the value of E, i zero-padded to the
      number of digits written in S. */
  lemma NodelistRange(base: string, S: string, E: string)
    requires '[' !in base
    requires S != [] && AllDigits(S) && E != [] && AllDigits(E)
    ensures NodesOf(base + "[" + S + "-" + E + "]")
      == Some(NodeNames(base, DigitsValue(S), DigitsValue(E), |S|))
  {
    DigitsFree(S);
    DigitsFree(E);
    JoinAssoc(base + "[", S, "-", E, "]");
    NodelistBracketed(base, S + "-" + E);
    DashPair(S, E);
    ParseDigits(S);
    ParseDigits(E);
  }

  /** The padded range of the usual form, written out: "jwb[0012-0014]" names three
      hosts, each number padded to four digits. */
  lemma NodelistPadded()
    ensures NodesOf("jwb[0012-0014]") == Some(["jwb0012", "jwb0013", "jwb0014"])
  {
    NodelistRange("jwb", "0012", "0014");
    assert "jwb" + "[" + "0012" + "-" + "0014" + "]" == "jwb[0012-0014]";
    PaddedValues();
    PaddedNames();
  }

  lemma PaddedValues()
    ensures DigitsValue("0012") == 12 && DigitsValue("0014") == 14
  {
    assert "0012"[..3] == "001" && "0014"[..3] == "001";
    assert "001"[..2] == "00" && "00"[..1] == "0" && "0"[..0] == [];
  }

  lemma PaddedNames()
    ensures NodeNames("jwb", 12, 14, 4) == ["jwb0012", "jwb0013", "jwb0014"]
  {
    var names := NodeNames("jwb", 12, 14, 4);
    assert names[0] == "jwb0012" by { assert NatToString(12) == "12"; }
    assert names[1] == "jwb0013" by { assert NatToString(13) == "13"; }
    assert names[2] == "jwb0014" by { assert NatToString(14) == "14"; }
  }

  lemma JoinAssoc(p: string, a: string, m: string, b: string, q: string)
    ensures p + a + m + b + q == p + (a + m + b) + q
  {
  }

  /** A host name starts with the base, and the padded number after it reads back. */
  lemma HostNameReadBack(base: string, i: nat, width: nat)
    ensures StartsWith(HostName(base, i, width), base)
    ensures |HostName(base, i, width)| >= |base| + width
    ensures ParseInt(HostName(base, i, width)[|base|..]) == Some(i)
  {
    var z := ZFill(NatToString(i), width);
    assert HostName(base, i, width)[|base|..] == z;
    ParseZFilled(i, width);
  }

  /** Number of CSV lines with at least seven fields. */
  function WideCount(lines: seq<string>): nat {
    if lines == [] then 0
    else WideCount(lines[..|lines| - 1]) + (if |CsvFields(lines[|lines| - 1])| >= 7 then 1 else 0)
  }

  /** Every row kept has an integer index that the indices admit. */
  lemma {:induction false} GpuRowsAdmitted(lines: seq<string>, indices: seq<int>)
    requires GpuRowsOf(lines, indices).Some?
    ensures forall i :: 0 <= i < |GpuRowsOf(lines, indices).value| ==>
      var index := GpuRowsOf(lines, indices).value[i].index;
      ParseInt(index).Some? && Admits(indices, ParseInt(index).value)
    decreases |lines|
  {
    if lines != [] {
      var init := lines[..|lines| - 1];
      assert GpuRowsOf(init, indices).Some?;
      GpuRowsAdmitted(init, indices);
      var rows := GpuRowsOf(init, indices).value;
      var parts := CsvFields(lines[|lines| - 1]);
      if |parts| >= 7 && Admits(indices, ParseInt(parts[0]).value) {
        assert GpuRowsOf(lines, indices).value == rows + [RowOf(parts)];
      }
    }
  }

  /** There is at most one row per line with seven fields, and exactly one when no
      indices were parsed. */
  lemma {:induction false} GpuRowsCounted(lines: seq<string>, indices: seq<int>)
    requires GpuRowsOf(lines, indices).Some?
    ensures |GpuRowsOf(lines, indices).value| <= WideCount(lines)
    ensures indices == [] ==> |GpuRowsOf(lines, indices).value| == WideCount(lines)
    decreases |lines|
  {
    if lines != [] {
      var init := lines[..|lines| - 1];
      assert GpuRowsOf(init, indices).Some?;
      GpuRowsCounted(init, indices);
    }
  }

  /** An entry names its node, and an entry with an error has a non-empty error text and
      no rows. */
  predicate WellFormedEntry(e: NodeGpus, node: string) {
    e.node == node && (e.error.Some? ==> e.error.value != "" && e.gpus == [])
  }

  /** What ends the node loop early: the timeout text, an exception from the CSV rows, or
      the text of an exception raised by the ssh call to one of the nodes. */
  predicate EndsLoop(r: GpuInfo, nodes: seq<string>, smi: string -> Capture) {
    || r == GpuError(TimeoutMessage)
    || r == Raised
    || (r.GpuError? && exists i :: 0 <= i < |nodes| && smi(nodes[i]) == Failed(r.message))
  }

  /** One node gives a well-formed entry, or stops the loop by a timeout or an exception. */
  lemma NodeStepShape(node: string, indices: seq<int>, cap: Capture)
    ensures NodeStep(node, indices, cap).Entry? ==> WellFormedEntry(NodeStep(node, indices, cap).entry, node)
    ensures NodeStep(node, indices, cap).Stop? ==>
      || NodeStep(node, indices, cap).result in {GpuError(TimeoutMessage), Raised}
      || cap == Failed(NodeStep(node, indices, cap).result.message)
  {
  }

  /** When the node loop completes there is one well-formed entry per node, in node order;
      otherwise the loop was ended by a timeout or an exception. */
  lemma {:induction false} NodesOutcomeShape(nodes: seq<string>, indices: seq<int>, smi: string -> Capture)
    ensures NodesOutcome(nodes, indices, smi).GpuNodes? ==>
      && |NodesOutcome(nodes, indices, smi).nodes| == |nodes|
      && forall i :: 0 <= i < |nodes| ==> WellFormedEntry(NodesOutcome(nodes, indices, smi).nodes[i], nodes[i])
    ensures !NodesOutcome(nodes, indices, smi).GpuNodes? ==> EndsLoop(NodesOutcome(nodes, indices, smi), nodes, smi)
    decreases |nodes|
  {
    if nodes != [] {
      var init, last := nodes[..|nodes| - 1], nodes[|nodes| - 1];
      NodesOutcomeShape(init, indices, smi);
      NodeStepShape(last, indices, smi(last));
      var prev := NodesOutcome(init, indices, smi);
      var step := NodeStep(last, indices, smi(last));
      if !prev.GpuNodes? {
        if prev.GpuError? && prev != GpuError(TimeoutMessage) {
          var i :| 0 <= i < |init| && smi(init[i]) == Failed(prev.message);
          assert nodes[i] == init[i];
        }
      } else if step.Stop? {
        if step.result.GpuError? && step.result != GpuError(TimeoutMessage) {
          assert smi(nodes[|nodes| - 1]) == Failed(step.result.message);
        }
      } else {
        var entries := prev.nodes + [step.entry];
        assert NodesOutcome(nodes, indices, smi) == GpuNodes(entries);
        forall i | 0 <= i < |nodes|
          ensures WellFormedEntry(entries[i], nodes[i])
        {
          if i < |init| {
            assert nodes[i] == init[i];
          }
        }
      }
    }
  }

  /** The fixed error texts fetch_job_gpu_info can return, and the shape of a result
      with node entries. */
  lemma GpuInfoOutcomes(squeue: Capture, smi: string -> Capture)
    ensures squeue.TimedOut? ==> GpuInfoOutcome(squeue, smi) == GpuError(TimeoutMessage)
    ensures squeue.Failed? ==> GpuInfoOutcome(squeue, smi) == GpuError(squeue.message)
    ensures squeue.Completed? && GpuInfoOutcome(squeue, smi).GpuError? ==>
      || GpuInfoOutcome(squeue, smi).message in {TimeoutMessage, JobNotFound, CannotParse, NoNodes}
      || exists node :: smi(node) == Failed(GpuInfoOutcome(squeue, smi).message)
    ensures squeue.Completed? && squeue.returncode != 0 ==> GpuInfoOutcome(squeue, smi) == GpuError(JobNotFound)
    ensures GpuInfoOutcome(squeue, smi).GpuNodes? ==> GpuInfoOutcome(squeue, smi).nodes != []
  {
    if squeue.Completed? && squeue.returncode == 0 && Strip(squeue.stdout) != "" {
      var parts := Split(Strip(squeue.stdout), "|");
      if |parts| >= 2 {
        var gres := ParseGres(Strip(parts[1]));
        var nodes := NodesOf(Strip(parts[0]));
        if gres.Some? && nodes.Some? && nodes.value != [] {
          NodesOutcomeShape(nodes.value, gres.value, smi);
        }
      }
    }
  }
}

=== FILE: joblog.dfy ===
/**
 * The persistent job log of job_monitor.py (job_log.json): per server, per
 * job id, a dict of remembered facts such as the output file paths.
 */
module JobLogStore {
  import opened Common

  type JobInfo = map<string, string>

  /** The log as it is stored on disk: server, then job id, then the job's facts. */
  class JobLog {
    var entries: map<string, map<string, JobInfo>>

    constructor()
      ensures entries == map[]
    {
      entries := map[];
    }

    /** get_job_from_log: the logged entry of a job, if any. */
    function GetJob(server: string, jobid: string): Option<JobInfo>
      reads this
    {
      if server in entries && jobid in entries[server] then Some(entries[server][jobid]) else None
    }

    /** update_job_in_log: merge the new facts into the job's entry (dict.update), creating
        the server's table and the entry when missing. `writable` says whether writing
        job_log.json succeeds; a failed write is silent and leaves the log as it was. */
    method UpdateJob(server: string, jobid: string, info: JobInfo, writable: bool)
      modifies this
      ensures !writable ==> entries == old(entries)
      ensures writable ==>
        && entries.Keys == old(entries).Keys + {server}
        && (forall s :: s in old(entries) && s != server ==> entries[s] == old(entries)[s])
        && entries[server].Keys == (if server in old(entries) then old(entries)[server].Keys else {}) + {jobid}
        && (forall j :: j in entries[server] && j != jobid ==> entries[server][j] == old(entries)[server][j])
        && entries[server][jobid] == (if old(GetJob(server, jobid)).Some? then old(GetJob(server, jobid)).value else map[]) + info
    {
      if !writable {
        return;
      }
      var log := entries;
      if server !in log {
        log := log[server := map[]];
      }
      var jobs := log[server];
      if jobid in jobs {
        jobs := jobs[jobid := jobs[jobid] + info];
      } else {
        jobs := jobs[jobid := info];
      }
      entries := log[server := jobs];
    }
  }

  /** What a merge leaves in a job's entry: the new facts win, older facts not mentioned
      again survive, and nothing else appears. */
  lemma MergeKeepsOldFacts(existing: JobInfo, info: JobInfo)
    ensures (existing + info).Keys == existing.Keys + info.Keys
    ensures forall k :: k in info ==> (existing + info)[k] == info[k]
    ensures forall k :: k in existing && k !in info ==> (existing + info)[k] == existing[k]
  {
  }

  /** After a successful update the job's entry holds every new fact, keeps the facts it
      had, and every other job reads back as before. */
  method UpdateThenGet(log: JobLog, server: string, jobid: string, info: JobInfo,
                       otherServer: string, otherJob: string)
    returns (entry: Option<JobInfo>, other: Option<JobInfo>)
    requires otherServer != server || otherJob != jobid
    modifies log
    ensures entry.Some? && info.Keys <= entry.value.Keys
    ensures forall k :: k in info ==> entry.value[k] == info[k]
    ensures old(log.GetJob(server, jobid)).Some? ==> old(log.GetJob(server, jobid)).value.Keys <= entry.value.Keys
    ensures other == old(log.GetJob(otherServer, otherJob))
  {
    log.UpdateJob(server, jobid, info, true);
    entry := log.GetJob(server, jobid);
    other := log.GetJob(otherServer, otherJob);
  }
}

=== FILE: records.dfy ===
/**
 * The records the backend produces and the dashboard consumes: JSON objects of
 * strings for jobs, one snapshot per monitored server, and the captured
 * result of one ssh command.
 */
module Records {
  import opened Common

  /** A job as a JSON object: column name to text. */
  type JobRecord = map<string, string>

  /** What subprocess.run(..., capture_output=True, timeout=15) gives back: the
      exit status and both streams, the timeout exception, or any other exception
      (ssh not found, output that cannot be decoded) with its text, str(exc). */
  datatype Capture =
    | Completed(returncode: int, stdout: string, stderr: string)
    | TimedOut
    | Failed(message: string)

  /** One server's entry in the /api/jobs response: an error (null or text),
      the active jobs in scheduler order and the recently finished ones. */
  datatype ServerSnapshot = ServerSnapshot(
    server: string,
    error: Option<string>,
    jobs: seq<JobRecord>,
    recentJobs: seq<JobRecord>)

  /** JavaScript's `job[key] || ""`: the value of a key, or "" when it is missing. */
  function Field(job: JobRecord, key: string): (v: string)
    ensures key !in job ==> v == ""
  {
    if key in job then job[key] else ""
  }

  const TimeoutMessage := "SSH connection timed out"
}

=== FILE: render.dfy ===
/**
 * The pure rendering helpers of the dashboard (static/app.js): the greeting,
 * the cycling loading message, the state badge, HTML escaping, the GPU column
 * and the HTML of one job-table cell and of the recently-finished table.
 */
module Render {
  import opened Common
  import opened Strings
  import opened Records

  /* ── Greeting ───────────────────────────────────────────── */

  const Greetings: seq<string> := [
    "Burning the midnight oil?",
    "Good morning. Let\U{2019}s see what\U{2019}s running.",
    "Good afternoon. Here\U{2019}s the latest.",
    "Good evening. Checking in on jobs.",
    "Late session. Here\U{2019}s the status."]

  /** The first hour of each band after the first one. */
  const BandStarts: seq<int> := [6, 12, 17, 21]

  /** setGreeting, given the hour Date.getHours() returns. */
  function Greeting(hour: int): string {
    if hour < 6 then "Burning the midnight oil?"
    else if hour < 12 then "Good morning. Let\U{2019}s see what\U{2019}s running."
    else if hour < 17 then "Good afternoon. Here\U{2019}s the latest."
    else if hour < 21 then "Good evening. Checking in on jobs."
    else "Late session. Here\U{2019}s the status."
  }

  /** How many band starts the hour has reached. */
  function Band(hour: int, starts: seq<int>): (b: nat)
    ensures b <= |starts|
  {
    if starts == [] then 0 else (if starts[0] <= hour then 1 else 0) + Band(hour, starts[1..])
  }

  /** The greeting is the message of the band the hour falls in: the day is cut at
      6, 12, 17 and 21 o'clock, and the five bands have five different messages. */
  lemma GreetingBands(hour: int)
    ensures Greeting(hour) == Greetings[Band(hour, BandStarts)]
    ensures forall i, j :: 0 <= i < j < |Greetings| ==> Greetings[i] != Greetings[j]
  {
    var s := BandStarts;
    assert s[1..] == [12, 17, 21] && s[1..][1..] == [17, 21] && s[1..][1..][1..] == [21];
    assert s[1..][1..][1..][1..] == [];
    assert Band(hour, [21]) == (if 21 <= hour then 1 else 0);
    assert Band(hour, [17, 21]) == (if 17 <= hour then 1 else 0) + Band(hour, [21]);
    assert Band(hour, [12, 17, 21]) == (if 12 <= hour then 1 else 0) + Band(hour, [17, 21]);
    assert Band(hour, s) == (if 6 <= hour then 1 else 0) + Band(hour, [12, 17, 21]);
    assert Greetings[0][0] == 'B' && Greetings[1][5] == 'm' && Greetings[2][5] == 'a';
    assert Greetings[3][5] == 'e' && Greetings[4][0] == 'L';
  }

  /* ── Loading messages ───────────────────────────────────── */

  const LoadingMessages: seq<string> := [
    "SSHing into the cluster\U{2026}",
    "Poking the scheduler\U{2026}",
    "Asking squeue nicely\U{2026}",
    "Checking on your jobs\U{2026}",
    "Rounding up job statuses\U{2026}",
    "Querying the queue\U{2026}"]

  /** The counter behind nextLoadMsg (loadMsgIdx). */
  class LoadingCycle {
    var index: nat

    constructor()
      ensures index == 0
    {
      index := 0;
    }

    /** nextLoadMsg: the message at the counter, modulo the six messages, then the
        counter moves on by one. */
    method Next() returns (msg: string)
      modifies this
      ensures msg == LoadingMessages[old(index) % |LoadingMessages|]
      ensures index == old(index) + 1
    {
      msg := LoadingMessages[index % |LoadingMessages|];
      index := index + 1;
    }
  }

  /** Six calls later the same message comes round again, and six consecutive calls
      show all six messages. */
  method NextCycles(cycle: LoadingCycle) returns (shown: seq<string>)
    modifies cycle
    ensures |shown| == 7 && shown[6] == shown[0]
    ensures forall m :: m in LoadingMessages ==> m in shown[..6]
    ensures cycle.index == old(cycle.index) + 7
  {
    ghost var start := cycle.index;
    shown := [];
    var k := 0;
    while k < 7
      invariant 0 <= k <= 7 && |shown| == k
      invariant cycle.index == start + k
      invariant forall i :: 0 <= i < k ==> shown[i] == LoadingMessages[(start + i) % 6]
    {
      var msg := cycle.Next();
      shown := shown + [msg];
      k := k + 1;
    }
    SixInARow(start, shown);
  }

  /** Six consecutive counter values pick all six messages. */
  lemma SixInARow(start: nat, shown: seq<string>)
    requires |shown| >= 6 && forall i :: 0 <= i < 6 ==> shown[i] == LoadingMessages[(start + i) % 6]
    ensures forall m :: m in LoadingMessages ==> m in shown[..6]
  {
    forall m | m in LoadingMessages
      ensures m in shown[..6]
    {
      var j :| 0 <= j < 6 && LoadingMessages[j] == m;
      var i: int := (j - start % 6 + 6) % 6;
      assert (start + i) % 6 == j;
      assert shown[..6][i] == m;
    }
  }

  /* ── State badge ────────────────────────────────────────── */

  /** The keys of STATE_CLASSES in declaration order, and their classes. */
  const StateKeys: seq<string> := ["RUNNING", "PENDING", "COMPLETING", "FAILED", "CANCELLED", "COMPLETED", "TIMEOUT"]
  const StateBadges: seq<string> := ["badge-running", "badge-pending", "badge-completing", "badge-failed",
                                      "badge-cancelled", "badge-completed", "badge-timeout"]
  const OtherBadge := "badge-other"

  /** The class of the first key from position i on that prefixes the state. */
  function FirstPrefixBadge(state: string, i: nat): (cls: Option<string>)
    requires i <= |StateKeys|
    ensures cls.Some? ==> cls.value in StateBadges
    decreases |StateKeys| - i
  {
    if i == |StateKeys| then None
    else if StartsWith(state, StateKeys[i]) then Some(StateBadges[i])
    else FirstPrefixBadge(state, i + 1)
  }

  /** badgeClass: an exact key wins, then the first key in declaration order that
      prefixes the state, then "badge-other". */
  function BadgeClass(state: string): (cls: string)
    ensures cls == OtherBadge || cls in StateBadges
  {
    if state in StateKeys then
      var i :| 0 <= i < |StateKeys| && StateKeys[i] == state; StateBadges[i]
    else match FirstPrefixBadge(state, 0)
      case Some(cls) => cls
      case None => OtherBadge
  }

  /** No key of STATE_CLASSES is a prefix of another (COMPLETED and COMPLETING share
      only "COMPLET"). */
  lemma KeysPrefixFree()
    ensures forall i, j :: 0 <= i < |StateKeys| && 0 <= j < |StateKeys| && i != j ==>
      !StartsWith(StateKeys[j], StateKeys[i])
  {
    forall i, j | 0 <= i < |StateKeys| && 0 <= j < |StateKeys| && i != j
      ensures !StartsWith(StateKeys[j], StateKeys[i])
    {
      var a, b := StateKeys[i], StateKeys[j];
      if |a| <= |b| {
        if i == 5 && j == 2 { assert a[7] != b[7]; }
        else if i == 0 && j == 4 { assert a[0] != b[0]; }
        else { assert a[0] != b[0] || a[1] != b[1]; }
      }
    }
  }

  lemma {:induction false} FirstPrefixFinds(state: string, i: nat, k: nat)
    requires i <= k < |StateKeys| && StartsWith(state, StateKeys[k])
    requires forall j :: i <= j < |StateKeys| && j != k ==> !StartsWith(state, StateKeys[j])
    ensures FirstPrefixBadge(state, i) == Some(StateBadges[k])
    decreases k - i
  {
    if i < k {
      FirstPrefixFinds(state, i + 1, k);
    }
  }

  lemma {:induction false} FirstPrefixNone(state: string, i: nat)
    requires i <= |StateKeys|
    requires forall j :: i <= j < |StateKeys| ==> !StartsWith(state, StateKeys[j])
    ensures FirstPrefixBadge(state, i) == None
    decreases |StateKeys| - i
  {
    if i < |StateKeys| {
      FirstPrefixNone(state, i + 1);
    }
  }

  /** Two keys that both prefix a state are the same key. */
  lemma PrefixUnique(state: string, j: nat, k: nat)
    requires j < |StateKeys| && k < |StateKeys|
    requires StartsWith(state, StateKeys[j]) && StartsWith(state, StateKeys[k])
    ensures j == k
  {
    var a, b := StateKeys[j], StateKeys[k];
    assert StartsWith(b, a) || StartsWith(a, b) by {
      if |a| <= |b| {
        assert b[..|a|] == state[..|b|][..|a|];
      } else {
        assert a[..|b|] == state[..|a|][..|b|];
      }
    }
    KeysPrefixFree();
  }

  /** A state that starts with a key gets that key's class whatever follows it
      ("CANCELLED by 12345" is cancelled), because at most one key can prefix a state;
      a state no key prefixes gets "badge-other". */
  lemma BadgeByPrefix(state: string)
    ensures forall k :: 0 <= k < |StateKeys| && StartsWith(state, StateKeys[k]) ==>
      BadgeClass(state) == StateBadges[k]
    ensures (forall k :: 0 <= k < |StateKeys| ==> !StartsWith(state, StateKeys[k])) ==>
      BadgeClass(state) == OtherBadge
  {
    forall k | 0 <= k < |StateKeys| && StartsWith(state, StateKeys[k])
      ensures BadgeClass(state) == StateBadges[k]
    {
      forall j | 0 <= j < |StateKeys| && j != k
        ensures !StartsWith(state, StateKeys[j])
      {
        if StartsWith(state, StateKeys[j]) {
          PrefixUnique(state, j, k);
        }
      }
      if state in StateKeys {
        var i :| 0 <= i < |StateKeys| && StateKeys[i] == state;
        assert StartsWith(state, StateKeys[i]);
        PrefixUnique(state, i, k);
      } else {
        FirstPrefixFinds(state, 0, k);
      }
    }
    if forall k :: 0 <= k < |StateKeys| ==> !StartsWith(state, StateKeys[k]) {
      KeyPrefixesItself(state);
      FirstPrefixNone(state, 0);
    }
  }

  /** A state equal to a key starts with that key. */
  lemma KeyPrefixesItself(state: string)
    ensures state in StateKeys ==> exists i :: 0 <= i < |StateKeys| && StartsWith(state, StateKeys[i])
  {
    if state in StateKeys {
      var i :| 0 <= i < |StateKeys| && StateKeys[i] == state;
      assert StartsWith(state, StateKeys[i]);
    }
  }

  /* ── HTML escaping ──────────────────────────────────────── */

  /** escapeHtml: "&" first, then "<", then ">". */
  function EscapeHtml(s: string): (r: string)
    ensures '<' !in r && '>' !in r
    ensures '&' !in s && '<' !in s && '>' !in s ==> r == s
  {
    ReplaceChar(ReplaceChar(ReplaceChar(s, '&', "&amp;"), '<', "&lt;"), '>', "&gt;")
  }

  /** The entity of one character. */
  function EscapeChar(c: char): string {
    if c == '&' then "&amp;" else if c == '<' then "&lt;" else if c == '>' then "&gt;" else [c]
  }

  /** Escaping character by character, the reference definition. */
  function EscapeEach(s: string): string {
    if s == [] then [] else EscapeChar(s[0]) + EscapeEach(s[1..])
  }

  /** Decoding of the three entities, every other character kept as it is. */
  function Unescape(t: string): string
    decreases |t|
  {
    if t == [] then []
    else if StartsWith(t, "&amp;") then ['&'] + Unescape(t[5..])
    else if StartsWith(t, "&lt;") then ['<'] + Unescape(t[4..])
    else if StartsWith(t, "&gt;") then ['>'] + Unescape(t[4..])
    else [t[0]] + Unescape(t[1..])
  }

  /** The three chained replacements escape each character on its own: the "&" of the
      entities introduced by the later replacements is not escaped again. */
  lemma {:induction false} EscapeHtmlPerChar(s: string)
    ensures EscapeHtml(s) == EscapeEach(s)
    decreases |s|
  {
    if s != [] {
      assert s == [s[0]] + s[1..];
      EscapeHtmlConcat([s[0]], s[1..]);
      EscapeHtmlChar(s[0]);
      EscapeHtmlPerChar(s[1..]);
    }
  }

  /** The replacements work piece by piece. */
  lemma EscapeHtmlConcat(a: string, b: string)
    ensures EscapeHtml(a + b) == EscapeHtml(a) + EscapeHtml(b)
  {
    ReplaceCharConcat(a, b, '&', "&amp;");
    var a1, b1 := ReplaceChar(a, '&', "&amp;"), ReplaceChar(b, '&', "&amp;");
    ReplaceCharConcat(a1, b1, '<', "&lt;");
    var a2, b2 := ReplaceChar(a1, '<', "&lt;"), ReplaceChar(b1, '<', "&lt;");
    ReplaceCharConcat(a2, b2, '>', "&gt;");
  }

  /** On one character the three replacements give its entity. */
  lemma EscapeHtmlChar(c: char)
    ensures EscapeHtml([c]) == EscapeChar(c)
  {
    ReplaceOne(c, '&', "&amp;");
    if c == '&' {
      assert '<' !in "&amp;" && '>' !in "&amp;";
    } else {
      ReplaceOne(c, '<', "&lt;");
      if c == '<' {
        assert '>' !in "&lt;";
      } else {
        ReplaceOne(c, '>', "&gt;");
      }
    }
  }

  lemma ReplaceOne(c: char, x: char, rep: string)
    ensures ReplaceChar([c], x, rep) == if c == x then rep else [c]
  {
    assert [c][1..] == [];
  }

  lemma {:induction false} UnescapeEach(s: string)
    ensures Unescape(EscapeEach(s)) == s
    decreases |s|
  {
    if s != [] {
      assert EscapeEach(s) == EscapeChar(s[0]) + EscapeEach(s[1..]);
      UnescapeChar(s[0], EscapeEach(s[1..]));
      UnescapeEach(s[1..]);
      assert s == [s[0]] + s[1..];
    }
  }

  /** Decoding an escaped character gives the character back, whatever follows. */
  lemma UnescapeChar(c: char, rest: string)
    ensures Unescape(EscapeChar(c) + rest) == [c] + Unescape(rest)
  {
    if c == '&' {
      UnescapeAmp(rest);
    } else if c == '<' {
      UnescapeLt(rest);
    } else if c == '>' {
      UnescapeGt(rest);
    } else {
      UnescapePlain(c, rest);
    }
  }

  lemma UnescapeAmp(rest: string)
    ensures Unescape("&amp;" + rest) == "&" + Unescape(rest)
  {
    var t := "&amp;" + rest;
    assert t[..5] == "&amp;" && t[5..] == rest;
  }

  lemma UnescapeLt(rest: string)
    ensures Unescape("&lt;" + rest) == "<" + Unescape(rest)
  {
    var t := "&lt;" + rest;
    assert t[1] == 'l' && t[..4] == "&lt;" && t[4..] == rest;
  }

  lemma UnescapeGt(rest: string)
    ensures Unescape("&gt;" + rest) == ">" + Unescape(rest)
  {
    var t := "&gt;" + rest;
    assert t[1] == 'g' && t[..4] == "&gt;" && t[4..] == rest;
  }

  lemma UnescapePlain(c: char, rest: string)
    requires c != '&'
    ensures Unescape([c] + rest) == [c] + Unescape(rest)
  {
    var t := [c] + rest;
    assert t[0] == c && t[1..] == rest;
  }

  lemma {:induction false} EscapeEachFree(s: string)
    ensures '<' !in EscapeEach(s) && '>' !in EscapeEach(s)
    decreases |s|
  {
    if s != [] {
      EscapeEachFree(s[1..]);
    }
  }

  /** Escaping loses nothing (decoding the entities gives the text back) and leaves no
      angle bracket that could open or close a tag. */
  lemma EscapeRoundTrip(s: string)
    ensures Unescape(EscapeHtml(s)) == s
    ensures '<' !in EscapeHtml(s) && '>' !in EscapeHtml(s)
  {
    EscapeHtmlPerChar(s);
    UnescapeEach(s);
    EscapeEachFree(s);
  }

  /* ── GPU column ─────────────────────────────────────────── */

  /** "gpu" in any letter case at position i. */
  predicate GpuAt(v: string, i: nat) {
    i + 3 <= |v| && v[i] in "gG" && v[i + 1] in "pP" && v[i + 2] in "uU"
  }

  predicate IsColon(c: char) { c == ':' }

  predicate NotDigit(c: char) { !IsDigit(c) }

  /** The digits that /gpu[^:]*:(\d+)/ captures when its "gpu" is at position i: the
      run of non-colons ends at the first colon after "gpu", which must be followed by
      at least one digit; the capture is the whole run of digits there. */
  function MatchAt(v: string, i: nat): (d: Option<string>)
    requires GpuAt(v, i)
    ensures d.Some? ==> d.value != [] && AllDigits(d.value)
  {
    var c := i + 3 + SpanNot(v[i + 3..], IsColon);
    if c < |v| && c + 1 < |v| && IsDigit(v[c + 1]) then
      var n := SpanNot(v[c + 1..], NotDigit);
      Some(v[c + 1..c + 1 + n])
    else None
  }

  /** The leftmost match from position i on, as the regular expression engine finds it. */
  function GpuMatch(v: string, i: nat): (d: Option<string>)
    decreases |v| - i
    ensures d.Some? ==> d.value != [] && AllDigits(d.value)
  {
    if i + 3 > |v| then None
    else if GpuAt(v, i) && MatchAt(v, i).Some? then MatchAt(v, i)
    else GpuMatch(v, i + 1)
  }

  /** formatGres. */
  function FormatGres(v: string): (r: string)
    ensures r != []
    ensures r == v || r == "-" || EndsWith(r, " GPU")
  {
    match GpuMatch(v, 0)
    case Some(d) => d + " GPU"
    case None => if v != "" && v != "N/A" then v else "-"
  }

  lemma {:induction false} GpuMatchSkips(v: string, i: nat, k: nat)
    requires i <= k && forall j :: i <= j < k ==> !GpuAt(v, j)
    ensures GpuMatch(v, i) == GpuMatch(v, k)
    decreases k - i
  {
    if i < k && i + 3 <= |v| {
      GpuMatchSkips(v, i + 1, k);
    } else if i < k {
      assert GpuMatch(v, i) == None;
      GpuMatchNone(v, k);
    }
  }

  lemma {:induction false} GpuMatchNone(v: string, i: nat)
    requires i + 3 > |v|
    ensures GpuMatch(v, i) == None
  {
  }

  lemma {:induction false} DigitRun(n: string, rest: string)
    requires AllDigits(n) && (rest == [] || !IsDigit(rest[0]))
    ensures SpanNot(n + rest, NotDigit) == |n|
    decreases |n|
  {
    if n != [] {
      assert (n + rest)[1..] == n[1..] + rest;
      assert !NotDigit((n + rest)[0]);
      DigitRun(n[1..], rest);
    } else {
      assert n + rest == rest;
    }
  }

  /** The usual Slurm form: after a prefix in which no "gpu" starts, "gpu:" and a count
      shows as "<count> GPU" ("gres/gpu:4" shows "4 GPU"). */
  lemma GpuCountShown(prefix: string, n: nat, rest: string)
    requires rest == [] || !IsDigit(rest[0])
    requires forall j :: 0 <= j < |prefix| ==> !GpuAt(prefix + "gpu:" + NatToString(n) + rest, j)
    ensures FormatGres(prefix + "gpu:" + NatToString(n) + rest) == NatToString(n) + " GPU"
  {
    var num := NatToString(n);
    var v := prefix + "gpu:" + num + rest;
    var i := |prefix|;
    GpuMatchSkips(v, 0, i);
    AfterPrefix(prefix, "gpu:", num, rest);
    MatchAtNumber(v, i, num, rest);
  }

  lemma AfterPrefix(p: string, a: string, b: string, c: string)
    ensures (p + a + b + c)[|p|..] == a + (b + c)
  {
    assert p + a + b + c == p + (a + (b + c));
  }

  /** "gpu" directly followed by ":" and a run of digits captures that run. */
  lemma MatchAtNumber(v: string, i: nat, num: string, rest: string)
    requires i <= |v| && v[i..] == "gpu:" + (num + rest)
    requires num != [] && AllDigits(num) && (rest == [] || !IsDigit(rest[0]))
    ensures GpuAt(v, i) && MatchAt(v, i) == Some(num)
  {
    assert v[i + 3..] == v[i..][3..];
    assert SpanNot(v[i + 3..], IsColon) == 0;
    var c := i + 3;
    assert v[c + 1..] == num + rest;
    DigitRun(num, rest);
    assert v[c + 1..c + 1 + |num|] == v[c + 1..][..|num|];
  }

  /** A value in which "gpu" never appears is shown as it is, or as "-" when it is
      empty or "N/A". */
  lemma NoGpuShownAsIs(v: string)
    requires forall j :: 0 <= j < |v| ==> !GpuAt(v, j)
    ensures FormatGres(v) == if v == "" || v == "N/A" then "-" else v
  {
    GpuMatchSkips(v, 0, |v|);
    GpuMatchNone(v, |v|);
  }

  /** The regular expression matches with its "gpu" at position i. */
  predicate Matches(v: string, i: nat) {
    GpuAt(v, i) && MatchAt(v, i).Some?
  }

  /** What /gpu[^:]*:(\d+)/ does from a "gpu" at i, in the regular expression's own
      terms: with c the first colon at or after i + 3 (or the end of v when there is
      none) and e the end of the digit run that starts at c + 1, it matches exactly
      when that run is non-empty, and captures the run. */
  lemma MatchAtSpec(v: string, i: nat, c: nat, e: nat)
    requires GpuAt(v, i)
    requires i + 3 <= c <= |v| && (c < |v| ==> v[c] == ':')
    requires forall k :: i + 3 <= k < c ==> v[k] != ':'
    requires c < |v| ==> c + 1 <= e <= |v| && (e < |v| ==> !IsDigit(v[e]))
    requires c < |v| ==> forall k :: c + 1 <= k < e ==> IsDigit(v[k])
    ensures MatchAt(v, i) == if c < |v| && c + 1 < e then Some(v[c + 1..e]) else None
  {
    var tail := v[i + 3..];
    var s := SpanNot(tail, IsColon);
    assert i + 3 + s == c;
    if c < |v| {
      var run := v[c + 1..];
      var n := SpanNot(run, NotDigit);
      assert c + 1 + n == e;
      if c + 1 < |v| {
        assert run[0] == v[c + 1];
      }
    }
  }

  /** GpuMatch from position k finds a match exactly when the regular expression matches
      somewhere from k on. */
  lemma {:induction false} GpuMatchFound(v: string, k: nat)
    ensures GpuMatch(v, k).Some? <==> exists i :: k <= i < |v| && Matches(v, i)
    decreases |v| - k
  {
    if k + 3 > |v| {
      assert forall i :: k <= i < |v| ==> !GpuAt(v, i);
    } else if Matches(v, k) {
      assert GpuMatch(v, k) == MatchAt(v, k);
    } else {
      GpuMatchFound(v, k + 1);
      assert GpuMatch(v, k) == GpuMatch(v, k + 1);
    }
  }

  /** When i is the leftmost position from k on where the regular expression matches,
      GpuMatch from k gives the capture at i. */
  lemma {:induction false} GpuMatchLeftmost(v: string, k: nat, i: nat)
    requires k <= i && Matches(v, i)
    requires forall j :: k <= j < i ==> !Matches(v, j)
    ensures GpuMatch(v, k) == MatchAt(v, i)
    decreases i - k
  {
    if k < i {
      assert !Matches(v, k);
      GpuMatchLeftmost(v, k + 1, i);
    }
  }

  /** formatGres on any value: the leftmost match's digits followed by " GPU", or, when
      the regular expression matches nowhere, the value itself ("-" for "" and "N/A"). */
  lemma FormatGresMeaning(v: string)
    ensures (forall i :: 0 <= i < |v| ==> !Matches(v, i)) ==>
      FormatGres(v) == if v == "" || v == "N/A" then "-" else v
    ensures forall i :: 0 <= i < |v| && Matches(v, i) && (forall j :: 0 <= j < i ==> !Matches(v, j)) ==>
      FormatGres(v) == MatchAt(v, i).value + " GPU"
  {
    GpuMatchFound(v, 0);
    forall i | 0 <= i < |v| && Matches(v, i) && (forall j :: 0 <= j < i ==> !Matches(v, j))
      ensures FormatGres(v) == MatchAt(v, i).value + " GPU"
    {
      GpuMatchLeftmost(v, 0, i);
    }
  }

  /* ── Table cells ────────────────────────────────────────── */

  /** The keys of COLUMNS, in table order. */
  const Columns: seq<string> := ["JOBID", "PARTITION", "NAME", "STATE", "TIME", "TIME_LIMIT",
                                  "TRES_PER_NODE", "SUBMIT_TIME", "NODES", "NODELIST(REASON)"]
  const ColumnSet: set<string> := set c | c in Columns

  /** cellHtml: the state as a badge (its text inserted as it is), the GPU column through
      formatGres, every other column escaped. */
  function CellHtml(column: string, job: JobRecord): (r: string)
    ensures column == "STATE" ==> StartsWith(r, "<span class=\"badge ")
    ensures column != "STATE" && column != "TRES_PER_NODE" ==> '<' !in r
  {
    var val := Field(job, column);
    if column == "STATE" then "<span class=\"badge " + BadgeClass(val) + "\">" + val + "</span>"
    else if column == "TRES_PER_NODE" then FormatGres(val)
    else EscapeHtml(val)
  }

  /** Every plain column shows exactly the job's value: its cell decodes back to the
      value and holds no tag. */
  lemma PlainCellsDecode(column: string, job: JobRecord)
    requires column != "STATE" && column != "TRES_PER_NODE"
    ensures Unescape(CellHtml(column, job)) == Field(job, column)
    ensures '<' !in CellHtml(column, job)
  {
    EscapeRoundTrip(Field(job, column));
  }

  /** The rendered cells of a job, one per column. */
  function RenderedCells(job: JobRecord): (cells: map<string, string>)
    ensures cells.Keys == ColumnSet
  {
    map c | c in ColumnSet :: CellHtml(c, job)
  }

  /** CLICKABLE_STATES: a job opens its output only while it runs or completes. */
  predicate IsClickable(job: JobRecord) {
    Field(job, "STATE") in {"RUNNING", "COMPLETING"}
  }

  /** The id a row is keyed by (`data-jobid`): JOBID, or "undefined" when it is missing. */
  function JobId(job: JobRecord): string {
    if "JOBID" in job then job["JOBID"] else "undefined"
  }

  function JobIds(jobs: seq<JobRecord>): (ids: seq<string>)
    ensures |ids| == |jobs| && forall i :: 0 <= i < |jobs| ==> ids[i] == JobId(jobs[i])
  {
    seq(|jobs|, i requires 0 <= i < |jobs| => JobId(jobs[i]))
  }

  /** `${n} job${n !== 1 ? "s" : ""}` */
  function CountText(n: nat): string {
    NatToString(n) + " job" + (if n != 1 then "s" else "")
  }

  /* ── Recently finished table ────────────────────────────── */

  const RecentColumns: seq<string> := ["JobID", "JobName", "State", "Elapsed", "Start", "End", "ExitCode"]

  const RecentHead: string :=
    "<div class=\"table-wrap\"><table class=\"recent-table\"><thead><tr>"
    + "<th>Job ID</th><th>Name</th><th>State</th><th>Elapsed</th><th>Start</th><th>End</th><th>Exit Code</th>"
    + "</tr></thead><tbody>"

  /** One cell of the recent table: every value escaped, the state inside a badge. */
  function RecentCellHtml(key: string, job: JobRecord): string {
    var val := Field(job, key);
    if key == "State" then "<td><span class=\"badge " + BadgeClass(val) + "\">" + EscapeHtml(val) + "</span></td>"
    else "<td>" + EscapeHtml(val) + "</td>"
  }

  function RecentCells(keys: seq<string>, job: JobRecord): string {
    if keys == [] then [] else RecentCellHtml(keys[0], job) + RecentCells(keys[1..], job)
  }

  function RecentRowsHtml(jobs: seq<JobRecord>): string {
    if jobs == [] then [] else "<tr>" + RecentCells(RecentColumns, jobs[0]) + "</tr>" + RecentRowsHtml(jobs[1..])
  }

  /** buildRecentTableHtml. */
  function RecentTableHtml(jobs: seq<JobRecord>): string {
    RecentHead + RecentRowsHtml(jobs) + "</tbody></table></div>"
  }

  /** The rows of the recent table are the rows of its jobs one after another, so a job
      renders the same whatever its neighbours. */
  lemma {:induction false} RecentRowsAppend(a: seq<JobRecord>, b: seq<JobRecord>)
    ensures RecentRowsHtml(a + b) == RecentRowsHtml(a) + RecentRowsHtml(b)
    decreases |a|
  {
    if a == [] {
      assert a + b == b;
    } else {
      assert (a + b)[1..] == a[1..] + b;
      RecentRowsAppend(a[1..], b);
    }
  }

  /** Unlike the job table, the recent table escapes the state too: once the fixed badge
      markup around it is cut off, the state cell decodes back to the state and holds no
      tag, and every other cell, cut out of its td, does the same for its value. */
  lemma RecentCellsDecode(key: string, job: JobRecord)
    ensures var cell, val := RecentCellHtml(key, job), Field(job, key);
      var open := if key == "State" then "<td><span class=\"badge " + BadgeClass(val) + "\">" else "<td>";
      var close := if key == "State" then "</span></td>" else "</td>";
      && |open| + |close| <= |cell| && StartsWith(cell, open) && cell[|cell| - |close|..] == close
      && Unescape(cell[|open|..|cell| - |close|]) == val && '<' !in cell[|open|..|cell| - |close|]
  {
    var val := Field(job, key);
    if key == "State" {
      EscapedBetween("<td><span class=\"badge " + BadgeClass(val) + "\">", val, "</span></td>");
    } else {
      EscapedBetween("<td>", val, "</td>");
    }
  }

  /** A value escaped between two fixed pieces of markup is recovered by cutting them off. */
  lemma EscapedBetween(open: string, val: string, close: string)
    ensures var cell := open + EscapeHtml(val) + close;
      && |open| + |close| <= |cell| && StartsWith(cell, open) && cell[|cell| - |close|..] == close
      && Unescape(cell[|open|..|cell| - |close|]) == val && '<' !in cell[|open|..|cell| - |close|]
  {
    var cell := open + EscapeHtml(val) + close;
    assert cell[|open|..|cell| - |close|] == EscapeHtml(val);
    assert cell[..|open|] == open;
    assert cell[|cell| - |close|..] == close;
    EscapeRoundTrip(val);
  }
}

=== FILE: sacct.dfy ===
/**
 * The recently finished jobs of one server (fetch_recent_jobs in
 * job_monitor.py): `sacct --parsable2` lines filtered to finished states,
 * then the last `count` of them, newest first.
 */
module SacctParse {
  import opened Common
  import opened Strings
  import opened Records

  /** A state counts as finished when it starts with one of these prefixes
      ("CANCELLED by 12345" is finished). */
  predicate IsFinished(state: string) {
    || StartsWith(state, "COMPLETED")
    || StartsWith(state, "FAILED")
    || StartsWith(state, "CANCELLED")
    || StartsWith(state, "TIMEOUT")
  }

  /** The keys of every recent job, in the order of the --format option. */
  const SacctColumns: seq<string> := ["JobID", "JobName", "State", "Elapsed", "Start", "End", "ExitCode"]

  /** The same keys as a set. */
  const SacctKeys: set<string> := set c | c in SacctColumns

  /** A line is kept when it has at least seven `|`-fields and its third field is a finished state. */
  predicate Keeps(line: string) {
    var parts := Split(line, "|");
    |parts| >= 7 && IsFinished(parts[2])
  }

  /** The job dict built from the first seven fields of a kept line. */
  function RecentJob(parts: seq<string>): (job: JobRecord)
    requires |parts| >= 7
    ensures job.Keys == SacctKeys
    ensures forall i :: 0 <= i < 7 ==> job[SacctColumns[i]] == parts[i]
  {
    map["JobID" := parts[0], "JobName" := parts[1], "State" := parts[2], "Elapsed" := parts[3],
        "Start" := parts[4], "End" := parts[5], "ExitCode" := parts[6]]
  }

  /** The jobs of the kept lines, in line order. */
  function KeptJobs(lines: seq<string>): seq<JobRecord> {
    FlatMap(lines, LineJobs)
  }

  /** The job of one line, if it is kept. */
  function LineJobs(line: string): seq<JobRecord> {
    if Keeps(line) then [RecentJob(Split(line, "|"))] else []
  }

  /** Where Python's slice jobs[-count:] starts in a list of n elements: count 0 means
      "from the start", a negative count counts from the front. */
  function SliceStart(n: nat, count: int): (start: nat)
    ensures start <= n
  {
    if count > 0 then (if count >= n then 0 else n - count)
    else if -count >= n then n
    else -count
  }

  /** Python's s[::-1]. */
  function Reverse<T>(s: seq<T>): (r: seq<T>)
    ensures |r| == |s| && forall i :: 0 <= i < |s| ==> r[i] == s[|s| - 1 - i]
  {
    if s == [] then [] else [s[|s| - 1]] + Reverse(s[..|s| - 1])
  }

  /** jobs[-count:][::-1]. */
  function LastReversed(jobs: seq<JobRecord>, count: int): seq<JobRecord> {
    Reverse(jobs[SliceStart(|jobs|, count)..])
  }

  /** What fetch_recent_jobs returns for a captured sacct run; a failed or timed-out
      run, or one that raises, gives no jobs. */
  function RecentOutcome(cap: Capture, count: int): (r: seq<JobRecord>)
    ensures count >= 1 ==> |r| <= count
  {
    match cap
    case TimedOut => []
    case Failed(_) => []
    case Completed(rc, out, _) =>
      if rc != 0 then [] else LastReversed(KeptJobs(SplitLines(Strip(out))), count)
  }

  /** fetch_recent_jobs after the ssh call: the loop that filters the lines, then the
      slice and the reversal. */
  method FetchRecentJobs(cap: Capture, count: int) returns (r: seq<JobRecord>)
    ensures r == RecentOutcome(cap, count)
  {
    if !cap.Completed? || cap.returncode != 0 {
      return [];
    }
    var jobs := KeepFinished(SplitLines(Strip(cap.stdout)));
    r := Reverse(jobs[SliceStart(|jobs|, count)..]);
  }

  /** The loop of fetch_recent_jobs over the output lines. */
  method KeepFinished(lines: seq<string>) returns (jobs: seq<JobRecord>)
    ensures jobs == KeptJobs(lines)
  {
    jobs := [];
    var k := 0;
    while k < |lines|
      invariant 0 <= k <= |lines|
      invariant jobs == KeptJobs(lines[..k])
    {
      assert lines[..k + 1] == lines[..k] + [lines[k]];
      FlatMapSnoc(lines[..k], lines[k], LineJobs);
      var parts := Split(lines[k], "|");
      if |parts| >= 7 && IsFinished(parts[2]) {
        jobs := jobs + [RecentJob(parts)];
      }
      k := k + 1;
    }
    assert lines[..k] == lines;
  }

  /** Filtering is line by line: the jobs of two blocks of lines are the jobs of the first
      followed by the jobs of the second. */
  lemma KeptJobsAppend(a: seq<string>, b: seq<string>)
    ensures KeptJobs(a + b) == KeptJobs(a) + KeptJobs(b)
  {
    FlatMapAppend(a, b, LineJobs);
  }

  /** A single line gives one job exactly when it has seven fields and a finished state,
      and nothing otherwise. */
  lemma KeptLine(line: string)
    ensures Keeps(line) ==> KeptJobs([line]) == [RecentJob(Split(line, "|"))]
    ensures !Keeps(line) ==> KeptJobs([line]) == []
  {
    assert [] + [line] == [line];
    FlatMapSnoc([], line, LineJobs);
  }

  /** Every kept job has exactly the seven sacct keys and a finished state. */
  lemma {:induction false} KeptJobsFinished(lines: seq<string>)
    ensures |KeptJobs(lines)| <= |lines|
    ensures forall j :: 0 <= j < |KeptJobs(lines)| ==>
      && KeptJobs(lines)[j].Keys == SacctKeys
      && "State" in KeptJobs(lines)[j] && IsFinished(KeptJobs(lines)[j]["State"])
    decreases |lines|
  {
    if lines != [] {
      var init, line := lines[..|lines| - 1], lines[|lines| - 1];
      KeptJobsFinished(init);
      assert lines == init + [line];
      FlatMapSnoc(init, line, LineJobs);
      if Keeps(line) {
        RecentJobFinished(line);
        assert KeptJobs(lines) == KeptJobs(init) + [RecentJob(Split(line, "|"))];
      } else {
        assert KeptJobs(lines) == KeptJobs(init);
      }
    }
  }

  /** The job of a kept line has the seven keys and a finished state. */
  lemma RecentJobFinished(line: string)
    requires Keeps(line)
    ensures var job := RecentJob(Split(line, "|"));
      job.Keys == SacctKeys && "State" in job && IsFinished(job["State"])
  {
    assert SacctColumns[2] == "State";
  }

  /** The result is the newest kept jobs first: entry i is the i-th job from the end.
      For count >= 1 there are min(count, n) of them; count 0 keeps every job, and a
      negative count drops that many from the front. */
  lemma LastReversedShape(jobs: seq<JobRecord>, count: int)
    ensures var r := LastReversed(jobs, count);
      && (forall i :: 0 <= i < |r| ==> r[i] == jobs[|jobs| - 1 - i])
      && (count >= 1 ==> |r| == (if count < |jobs| then count else |jobs|))
      && (count == 0 ==> |r| == |jobs|)
      && (count < 0 ==> |r| == (if -count < |jobs| then |jobs| + count else 0))
  {
  }
}

=== FILE: scontrol.dfy ===
/**
 * The scan of `scontrol show job` output for a job's output files
 * (_find_output_paths_scontrol in job_monitor.py): the last usable
 * `StdOut=` and `StdErr=` token wins.
 */
module ScontrolScan {
  import opened Common
  import opened Strings

  /** The stdout and stderr paths found, each possibly absent. */
  datatype OutputPaths = OutputPaths(stdout: Option<string>, stderr: Option<string>)

  const StdOutKey := "StdOut="
  const StdErrKey := "StdErr="

  /** Python's token.split("=", 1)[1]: what follows the first "=". */
  function AfterFirstEq(token: string): string
    requires '=' in token
  {
    match FindFrom(token, "=", 0)
    case Some(k) => token[k + 1..]
    case None => assert OccursAt(token, "=", IndexOfEq(token)); []
  }

  /** The position of some "=" in the token (only used to show one exists). */
  function IndexOfEq(token: string): (k: nat)
    requires '=' in token
    ensures k < |token| && token[k] == '='
  {
    if token[0] == '=' then 0 else 1 + IndexOfEq(token[1..])
  }

  /** The value a key token carries, when it is a usable path: neither empty nor "(null)". */
  predicate UsableValue(v: string) { v != "" && v != "(null)" }

  /** A token starting with the key whose value is usable. */
  predicate PathToken(token: string, key: string)
    requires key == StdOutKey || key == StdErrKey
  {
    StartsWith(token, key) && UsableValue(token[|key|..])
  }

  /** The value of the last usable token for the key among the tokens. */
  function LastPath(tokens: seq<string>, key: string): Option<string>
    requires key == StdOutKey || key == StdErrKey
    decreases |tokens|
  {
    if tokens == [] then None
    else
      var t := tokens[|tokens| - 1];
      if PathToken(t, key) then Some(t[|key|..]) else LastPath(tokens[..|tokens| - 1], key)
  }

  /** What _find_output_paths_scontrol returns for the exit status and output of the
      scontrol call. */
  function ScanOutcome(returncode: int, stdout: string): OutputPaths {
    if returncode != 0 then OutputPaths(None, None)
    else OutputPaths(LastPath(Words(stdout), StdOutKey), LastPath(Words(stdout), StdErrKey))
  }

  /** The token loop of _find_output_paths_scontrol. */
  method FindOutputPaths(returncode: int, stdout: string) returns (r: OutputPaths)
    ensures r == ScanOutcome(returncode, stdout)
  {
    if returncode != 0 {
      return OutputPaths(None, None);
    }
    var tokens := Words(stdout);
    var outPath: Option<string> := None;
    var errPath: Option<string> := None;
    var i := 0;
    while i < |tokens|
      invariant 0 <= i <= |tokens|
      invariant outPath == LastPath(tokens[..i], StdOutKey)
      invariant errPath == LastPath(tokens[..i], StdErrKey)
    {
      var part := tokens[i];
      assert tokens[..i + 1][..i] == tokens[..i];
      if StartsWith(part, StdOutKey) {
        assert part[6] == '=';
        var path := AfterFirstEq(part);
        KeyValue(part, StdOutKey);
        if path != "" && path != "(null)" {
          outPath := Some(path);
        }
        assert !StartsWith(part, StdErrKey) by { assert part[4] != StdErrKey[4]; }
      } else if StartsWith(part, StdErrKey) {
        assert part[6] == '=';
        var path := AfterFirstEq(part);
        KeyValue(part, StdErrKey);
        if path != "" && path != "(null)" {
          errPath := Some(path);
        }
      }
      i := i + 1;
    }
    assert tokens[..i] == tokens;
    return OutputPaths(outPath, errPath);
  }

  /** The value of a key token is everything after the key. */
  lemma KeyValue(token: string, key: string)
    requires key == StdOutKey || key == StdErrKey
    requires StartsWith(token, key)
    ensures '=' in token && AfterFirstEq(token) == token[|key|..]
  {
    assert token[6] == '=';
    assert OccursAt(token, "=", 6);
    forall j | 0 <= j < 6
      ensures !OccursAt(token, "=", j)
    {
      assert token[j] == key[j];
    }
  }

  /** LastPath finds the last usable token: a found path is the value of a token after
      which no usable token for the key follows, and no path means no usable token. */
  lemma {:induction false} LastPathIsLast(tokens: seq<string>, key: string)
    requires key == StdOutKey || key == StdErrKey
    ensures LastPath(tokens, key).Some? ==>
      exists i :: 0 <= i < |tokens| && PathToken(tokens[i], key)
        && LastPath(tokens, key).value == tokens[i][|key|..]
        && forall j :: i < j < |tokens| ==> !PathToken(tokens[j], key)
    ensures LastPath(tokens, key).None? ==>
      forall i :: 0 <= i < |tokens| ==> !PathToken(tokens[i], key)
    decreases |tokens|
  {
    if tokens != [] {
      var n := |tokens| - 1;
      var init := tokens[..n];
      LastPathIsLast(init, key);
      if PathToken(tokens[n], key) {
      } else if LastPath(init, key).Some? {
        var i :| 0 <= i < |init| && PathToken(init[i], key)
          && LastPath(init, key).value == init[i][|key|..]
          && forall j :: i < j < |init| ==> !PathToken(init[j], key);
        assert tokens[i] == init[i];
        assert forall j :: i < j < |tokens| ==> !PathToken(tokens[j], key) by {
          forall j | i < j < |tokens|
            ensures !PathToken(tokens[j], key)
          {
            if j < n { assert tokens[j] == init[j]; }
          }
        }
      } else {
        forall i | 0 <= i < |tokens|
          ensures !PathToken(tokens[i], key)
        {
          if i < n { assert tokens[i] == init[i]; }
        }
      }
    }
  }

  /** A later token overrides an earlier one: appending a usable token makes its value
      the result, appending any other token leaves the result as it was. */
  lemma LaterTokenWins(tokens: seq<string>, token: string, key: string)
    requires key == StdOutKey || key == StdErrKey
    ensures PathToken(token, key) ==> LastPath(tokens + [token], key) == Some(token[|key|..])
    ensures !PathToken(token, key) ==> LastPath(tokens + [token], key) == LastPath(tokens, key)
  {
    assert (tokens + [token])[..|tokens|] == tokens;
  }
}

=== FILE: squeue.dfy ===
/**
 * Parsing of `squeue --me --format ...` output into job records
 * (fetch_jobs in job_monitor.py): the first line is the header, every
 * other non-blank line one job.
 */
module SqueueParse {
  import opened Common
  import opened Strings
  import opened Records

  /** What fetch_jobs returns before the recent jobs are attached. */
  datatype ActiveJobs = ActiveJobs(error: Option<string>, jobs: seq<JobRecord>)

  /** Column i of a split line: its i-th part, or "" when the line is short. */
  function Part(parts: seq<string>, i: nat): string {
    if i < |parts| then parts[i] else ""
  }

  /** The split limit len(header) - 1; Python reads -1 (an empty header) as "no limit". */
  function MaxSplit(header: seq<string>, line: string): nat {
    if |header| == 0 then |line| else |header| - 1
  }

  /** The parts of one data line. */
  function LineParts(header: seq<string>, line: string): seq<string> {
    SplitWs(line, MaxSplit(header, line))
  }

  /** The job built column by column in header order; a repeated column name
      keeps the value of its last occurrence, as assignment into a dict does. */
  function JobOf(header: seq<string>, parts: seq<string>): JobRecord
    decreases |header|
  {
    if header == [] then map[]
    else JobOf(header[..|header| - 1], parts)[header[|header| - 1] := Part(parts, |header| - 1)]
  }

  /** The jobs of the data lines in order, blank lines skipped. */
  function JobsOf(header: seq<string>, lines: seq<string>): seq<JobRecord>
    decreases |lines|
  {
    if lines == [] then []
    else
      var parts := LineParts(header, lines[|lines| - 1]);
      JobsOf(header, lines[..|lines| - 1]) + (if parts == [] then [] else [JobOf(header, parts)])
  }

  /** The outcome fetch_jobs computes from the captured squeue run. */
  function SqueueOutcome(cap: Capture): (r: ActiveJobs)
    ensures r.error.Some? ==> r.jobs == []
  {
    match cap
    case TimedOut => ActiveJobs(Some(TimeoutMessage), [])
    case Failed(message) => ActiveJobs(Some(message), [])
    case Completed(rc, out, err) =>
      if rc != 0 then ActiveJobs(Some(Strip(err)), [])
      else
        var lines := SplitLines(Strip(out));
        if |lines| <= 1 then ActiveJobs(None, [])
        else ActiveJobs(None, JobsOf(Words(lines[0]), lines[1..]))
  }

  /** The inner loop of fetch_jobs: one dict entry per header column. */
  method BuildJob(header: seq<string>, parts: seq<string>) returns (job: JobRecord)
    ensures job == JobOf(header, parts)
  {
    job := map[];
    var i := 0;
    while i < |header|
      invariant 0 <= i <= |header|
      invariant job == JobOf(header[..i], parts)
    {
      assert header[..i + 1][..i] == header[..i];
      job := job[header[i] := if i < |parts| then parts[i] else ""];
      i := i + 1;
    }
    assert header[..|header|] == header;
  }

  /** fetch_jobs after the ssh call: the loop over the data lines and, inside it,
      over the header columns. */
  method ParseSqueue(cap: Capture) returns (r: ActiveJobs)
    ensures r == SqueueOutcome(cap)
  {
    if cap.TimedOut? {
      return ActiveJobs(Some(TimeoutMessage), []);
    }
    if cap.Failed? {
      return ActiveJobs(Some(cap.message), []);
    }
    if cap.returncode != 0 {
      return ActiveJobs(Some(Strip(cap.stderr)), []);
    }
    var lines := SplitLines(Strip(cap.stdout));
    if |lines| <= 1 {
      return ActiveJobs(None, []);
    }
    var jobs := CollectJobs(Words(lines[0]), lines[1..]);
    return ActiveJobs(None, jobs);
  }

  /** The loop of fetch_jobs over the data lines, blank lines skipped. */
  method CollectJobs(header: seq<string>, data: seq<string>) returns (jobs: seq<JobRecord>)
    ensures jobs == JobsOf(header, data)
  {
    jobs := [];
    var k := 0;
    while k < |data|
      invariant 0 <= k <= |data|
      invariant jobs == JobsOf(header, data[..k])
    {
      JobsSnoc(header, data, k);
      var parts := SplitWs(data[k], MaxSplit(header, data[k]));
      if parts != [] {
        var job := BuildJob(header, parts);
        jobs := jobs + [job];
      }
      k := k + 1;
    }
    assert data[..k] == data;
  }

  /** The jobs of one more line follow from the jobs of the lines before it. */
  lemma JobsSnoc(header: seq<string>, data: seq<string>, k: nat)
    requires k < |data|
    ensures JobsOf(header, data[..k + 1]) == JobsOf(header, data[..k]) +
      (if LineParts(header, data[k]) == [] then [] else [JobOf(header, LineParts(header, data[k]))])
  {
    assert data[..k + 1][..k] == data[..k];
  }

  /** Every job has exactly the header's columns as keys. */
  lemma {:induction false} JobOfKeys(header: seq<string>, parts: seq<string>)
    ensures JobOf(header, parts).Keys == set c | c in header
    decreases |header|
  {
    if header != [] {
      var init := header[..|header| - 1];
      JobOfKeys(init, parts);
      assert header == init + [header[|header| - 1]];
      assert (set c | c in header) == (set c | c in init) + {header[|header| - 1]};
    }
  }

  /** Column i holds the i-th part of the line, or "" for a missing trailing part,
      unless the same column name occurs again later in the header. */
  lemma {:induction false} JobOfValue(header: seq<string>, parts: seq<string>, i: nat)
    requires i < |header|
    requires forall j :: i < j < |header| ==> header[j] != header[i]
    ensures header[i] in JobOf(header, parts)
    ensures JobOf(header, parts)[header[i]] == Part(parts, i)
    decreases |header|
  {
    if i < |header| - 1 {
      JobOfValue(header[..|header| - 1], parts, i);
    }
  }

  /** A line with no non-whitespace character. */
  predicate Blank(line: string) {
    forall i :: 0 <= i < |line| ==> IsSpace(line[i])
  }

  function NonBlankCount(lines: seq<string>): nat {
    if lines == [] then 0
    else NonBlankCount(lines[..|lines| - 1]) + (if Blank(lines[|lines| - 1]) then 0 else 1)
  }

  /** One job per non-blank data line, each with the header's columns. */
  lemma {:induction false} JobsOfShape(header: seq<string>, lines: seq<string>)
    ensures |JobsOf(header, lines)| == NonBlankCount(lines)
    ensures forall j :: 0 <= j < |JobsOf(header, lines)| ==>
      JobsOf(header, lines)[j].Keys == set c | c in header
    decreases |lines|
  {
    if lines != [] {
      var last := lines[|lines| - 1];
      JobsOfShape(header, lines[..|lines| - 1]);
      SplitWsEmpty(last, MaxSplit(header, last));
      JobOfKeys(header, LineParts(header, last));
    }
  }

  /** With a non-empty header no text of a line is dropped: there are at most as many
      parts as columns, the line is its parts with whitespace between them, and when
      every column gets a part the last column holds the whole rest of the line. */
  lemma NoTextDropped(header: seq<string>, line: string)
    requires header != []
    ensures |LineParts(header, line)| <= |header|
    ensures Squash(Concat(LineParts(header, line))) == Squash(line)
    ensures MaxSplit(header, line) == |header| - 1
    ensures exists ws :: Layout(line, LineParts(header, line), ws, MaxSplit(header, line))
    ensures |LineParts(header, line)| == |header| ==> EndsWith(line, LineParts(header, line)[|header| - 1])
  {
    SplitWsKeepsText(line, MaxSplit(header, line));
    SplitWsLayout(line, MaxSplit(header, line));
    if |LineParts(header, line)| == |header| {
      SplitWsLastField(line, MaxSplit(header, line));
    }
  }

  /** The outcomes of fetch_jobs: a timeout or another exception gives its message and
      no jobs, a failed run gives the stripped stderr and no jobs, output of at most one
      line gives no error and no jobs, and otherwise there is one job per non-blank data
      line, keyed by the header's columns. */
  lemma SqueueOutcomes(cap: Capture)
    ensures cap.TimedOut? ==> SqueueOutcome(cap) == ActiveJobs(Some(TimeoutMessage), [])
    ensures cap.Failed? ==> SqueueOutcome(cap) == ActiveJobs(Some(cap.message), [])
    ensures cap.Completed? && cap.returncode != 0 ==>
      SqueueOutcome(cap) == ActiveJobs(Some(Strip(cap.stderr)), [])
    ensures cap.Completed? && cap.returncode == 0 ==> SqueueOutcome(cap).error == None
    ensures cap.Completed? && cap.returncode == 0 && |SplitLines(Strip(cap.stdout))| <= 1 ==>
      SqueueOutcome(cap).jobs == []
    ensures cap.Completed? && cap.returncode == 0 && |SplitLines(Strip(cap.stdout))| > 1 ==>
      var lines := SplitLines(Strip(cap.stdout));
      && |SqueueOutcome(cap).jobs| == NonBlankCount(lines[1..])
      && forall j :: 0 <= j < |SqueueOutcome(cap).jobs| ==>
           SqueueOutcome(cap).jobs[j].Keys == set c | c in Words(lines[0])
  {
    if cap.Completed? && cap.returncode == 0 {
      var lines := SplitLines(Strip(cap.stdout));
      if |lines| > 1 {
        JobsOfShape(Words(lines[0]), lines[1..]);
      }
    }
  }
}

=== FILE: strings.dfy ===
/**
 * The string operations the dashboard's backend and front end rely on, with
 * the semantics of Python's str methods (isspace, strip, split, splitlines,
 * int, zfill) and of JavaScript's global String.replace.
 */
module Strings {
  import opened Common

  /** Python's str.isspace() on one character: what str.split() and str.strip() skip. */
  predicate IsSpace(c: char) {
    c == ' ' || ('\t' <= c <= '\r') || ('\U{1C}' <= c <= '\U{1F}') || c == '\U{85}' || c == '\U{A0}'
    || c == '\U{1680}' || ('\U{2000}' <= c <= '\U{200A}') || c == '\U{2028}' || c == '\U{2029}'
    || c == '\U{202F}' || c == '\U{205F}' || c == '\U{3000}'
  }

  /** The line boundaries recognised by Python's str.splitlines(). */
  predicate IsLineBreak(c: char) {
    c == '\n' || c == '\r' || c == '\U{B}' || c == '\U{C}' || ('\U{1C}' <= c <= '\U{1E}')
    || c == '\U{85}' || c == '\U{2028}' || c == '\U{2029}'
  }

  predicate IsDigit(c: char) { '0' <= c <= '9' }

  predicate AllDigits(s: string) { forall i :: 0 <= i < |s| ==> IsDigit(s[i]) }

  predicate NoSpace(s: string) { forall i :: 0 <= i < |s| ==> !IsSpace(s[i]) }

  predicate StartsWith(s: string, prefix: string) { |prefix| <= |s| && s[..|prefix|] == prefix }

  predicate OccursAt(s: string, pat: string, i: int) {
    0 <= i && i + |pat| <= |s| && s[i..i + |pat|] == pat
  }

  /** Length of the longest prefix of s in which stop holds of no character. */
  function SpanNot(s: string, stop: char -> bool): (n: nat)
    ensures n <= |s|
    ensures forall i :: 0 <= i < n ==> !stop(s[i])
    ensures n < |s| ==> stop(s[n])
  {
    if s == [] || stop(s[0]) then 0 else 1 + SpanNot(s[1..], stop)
  }

  predicate NotSpace(c: char) { !IsSpace(c) }

  /** Python's str.lstrip(): s without its leading whitespace. */
  function LStrip(s: string): (r: string)
    ensures r == [] || !IsSpace(r[0])
  {
    s[SpanNot(s, NotSpace)..]
  }

  /** Number of trailing characters of s of which drop holds. */
  function TrailingCount(s: string, drop: char -> bool): (k: nat)
    ensures k <= |s|
    ensures forall i :: |s| - k <= i < |s| ==> drop(s[i])
    ensures k < |s| ==> !drop(s[|s| - k - 1])
  {
    if s == [] || !drop(s[|s| - 1]) then 0 else 1 + TrailingCount(s[..|s| - 1], drop)
  }

  /** Python's str.rstrip(chars): s without the trailing characters of which drop holds. */
  function RStripBy(s: string, drop: char -> bool): (r: string)
    ensures r == [] || !drop(r[|r| - 1])
  {
    s[..|s| - TrailingCount(s, drop)]
  }

  /** Python's str.rstrip(c) for a single character c. */
  function RStripChar(s: string, c: char): string {
    RStripBy(s, x => x == c)
  }

  /** Python's str.strip(): s without leading and trailing whitespace. */
  function Strip(s: string): (r: string)
    ensures r == [] || (!IsSpace(r[0]) && !IsSpace(r[|r| - 1]))
    ensures r == [] <==> forall i :: 0 <= i < |s| ==> IsSpace(s[i])
    ensures forall c :: c in r ==> c in s
  {
    var a := SpanNot(s, NotSpace);
    var l := s[a..];
    var k := TrailingCount(l, IsSpace);
    assert forall i :: 0 <= i < a ==> IsSpace(s[i]);
    assert k < |l| ==> !IsSpace(l[0]);
    assert LStrip(s) == l;
    l[..|l| - k]
  }

  /** Python's str.strip() removes exactly the leading and trailing whitespace: the result
      is the part of s after its first a whitespace characters and before a tail of
      whitespace, so (with Strip's ensures) a run of whitespace is kept inside it. */
  lemma StripMiddle(s: string)
    ensures var r, a := Strip(s), SpanNot(s, NotSpace);
      && a + |r| <= |s| && s[a..a + |r|] == r
      && (forall i :: 0 <= i < a ==> IsSpace(s[i]))
      && (forall i :: a + |r| <= i < |s| ==> IsSpace(s[i]))
  {
    var a := SpanNot(s, NotSpace);
    var l := s[a..];
    var k := TrailingCount(l, IsSpace);
    assert Strip(s) == l[..|l| - k];
    MiddleSlice(s, a, k, Strip(s));
  }

  /** The part of s between a characters and a whitespace tail of k characters. */
  lemma MiddleSlice(s: string, a: nat, k: nat, r: string)
    requires a + k <= |s| && r == s[a..][..|s| - a - k]
    requires forall i :: |s| - a - k <= i < |s| - a ==> IsSpace(s[a..][i])
    ensures a + |r| <= |s| && s[a..a + |r|] == r
    ensures forall i :: a + |r| <= i < |s| ==> IsSpace(s[i])
  {
    assert forall i :: a + |r| <= i < |s| ==> s[i] == s[a..][i - a];
  }

  /** A string that neither starts nor ends with whitespace is its own strip. */
  lemma StripTrimmed(s: string)
    requires s != [] && !IsSpace(s[0]) && !IsSpace(s[|s| - 1])
    ensures Strip(s) == s
  {
    assert SpanNot(s, NotSpace) == 0;
    assert TrailingCount(s, IsSpace) == 0;
  }

  /** Index of the first occurrence of pat in s at or after from (Python's str.find). */
  function FindFrom(s: string, pat: string, from: nat): (r: Option<nat>)
    decreases |s| - from
    ensures r.Some? ==> from <= r.value && OccursAt(s, pat, r.value)
    ensures r.Some? ==> forall j :: from <= j < r.value ==> !OccursAt(s, pat, j)
    ensures r.None? ==> forall j :: from <= j ==> !OccursAt(s, pat, j)
  {
    if from + |pat| > |s| then None
    else if s[from..from + |pat|] == pat then Some(from)
    else FindFrom(s, pat, from + 1)
  }

  /** Python's `pat in s` on strings. */
  predicate Contains(s: string, pat: string) {
    FindFrom(s, pat, 0).Some?
  }

  /** Python's str.split(sep) with a non-empty separator and no limit. */
  function Split(s: string, sep: string): (parts: seq<string>)
    requires sep != []
    ensures |parts| >= 1
    ensures Contains(s, sep) ==> |parts| >= 2
    decreases |s|
  {
    match FindFrom(s, sep, 0)
    case None => [s]
    case Some(k) => [s[..k]] + Split(s[k + |sep|..], sep)
  }

  /** Python's sep.join(parts): the inverse of Split. */
  function Join(parts: seq<string>, sep: string): string {
    if parts == [] then []
    else if |parts| == 1 then parts[0]
    else parts[0] + sep + Join(parts[1..], sep)
  }

  /** Joining the pieces of a split with the same separator gives back the string. */
  lemma {:induction false} JoinSplit(s: string, sep: string)
    requires sep != []
    ensures Join(Split(s, sep), sep) == s
    decreases |s|
  {
    var f := FindFrom(s, sep, 0);
    if f.Some? {
      var k := f.value;
      var rest := s[k + |sep|..];
      var tail := Split(rest, sep);
      JoinSplit(rest, sep);
      var parts := [s[..k]] + tail;
      assert Split(s, sep) == parts;
      assert parts[1..] == tail;
      calc {
        Join(parts, sep);
        parts[0] + sep + Join(tail, sep);
        s[..k] + sep + rest;
        { assert s[k..k + |sep|] == sep; }
        s;
      }
    }
  }

  /** For a one-character pattern, Python's `pat in s` is character membership. */
  lemma {:induction false} ContainsChar(s: string, c: char)
    ensures Contains(s, [c]) <==> c in s
  {
    if c in s {
      var i :| 0 <= i < |s| && s[i] == c;
      assert OccursAt(s, [c], i);
    }
    var f := FindFrom(s, [c], 0);
    if f.Some? {
      assert s[f.value..f.value + 1][0] == s[f.value];
    }
  }

  /** No part of a split on a character contains that character. */
  lemma {:induction false} SplitCharFree(s: string, c: char)
    ensures forall i :: 0 <= i < |Split(s, [c])| ==> c !in Split(s, [c])[i]
    decreases |s|
  {
    match FindFrom(s, [c], 0)
    case None =>
      ContainsChar(s, c);
    case Some(k) =>
      SplitCharFree(s[k + 1..], c);
      forall j | 0 <= j < k ensures s[j] != c {
        assert !OccursAt(s, [c], j);
      }
  }

  /** Splitting a + [c] + b on c when a does not contain c: a, then the parts of b. */
  lemma SplitAtChar(a: string, c: char, b: string)
    requires c !in a
    ensures Split(a + [c] + b, [c]) == [a] + Split(b, [c])
  {
    var s := a + [c] + b;
    assert OccursAt(s, [c], |a|);
    forall j | 0 <= j < |a| ensures !OccursAt(s, [c], j) {
      assert s[j] == a[j];
    }
    assert FindFrom(s, [c], 0) == Some(|a|);
    assert s[..|a|] == a && s[|a| + 1..] == b;
  }

  /** A string without the character is a single part. */
  lemma SplitCharAbsent(s: string, c: char)
    requires c !in s
    ensures Split(s, [c]) == [s]
  {
    ContainsChar(s, c);
  }

  /** rstrip(c) removes exactly the trailing run of c. */
  lemma RStripRepeat(d: string, c: char, k: nat)
    requires d == [] || d[|d| - 1] != c
    ensures RStripChar(d + Repeat(c, k), c) == d
  {
    TrailingRepeat(d, c, k);
    assert (d + Repeat(c, k))[..|d|] == d;
  }

  lemma {:induction false} TrailingRepeat(d: string, c: char, k: nat)
    requires d == [] || d[|d| - 1] != c
    ensures TrailingCount(d + Repeat(c, k), x => x == c) == k
  {
    if k == 0 {
      assert d + Repeat(c, k) == d;
    } else {
      TrailingRepeat(d, c, k - 1);
      var s := d + Repeat(c, k);
      assert s[..|s| - 1] == d + Repeat(c, k - 1);
    }
  }

  /** A field of a whitespace split: non-empty and not starting with whitespace. */
  predicate IsField(w: string) { w != [] && !IsSpace(w[0]) }

  /** Python's str.split(None, maxsplit): whitespace-separated fields, at most maxsplit splits;
      the last field then holds the rest of the string, trailing whitespace included. */
  function SplitWs(s: string, maxsplit: nat): (r: seq<string>)
    ensures |r| <= maxsplit + 1
    ensures forall i :: 0 <= i < |r| ==> IsField(r[i])
    ensures forall i :: 0 <= i < |r| - 1 ==> NoSpace(r[i])
    decreases |s|
  {
    if s == [] then []
    else if IsSpace(s[0]) then SplitWs(s[1..], maxsplit)
    else if maxsplit == 0 then [s]
    else
      var n := SpanNot(s, IsSpace);
      if n == |s| then [s]
      else [s[..n]] + SplitWs(s[n..], maxsplit - 1)
  }

  /** Python's str.split() with no arguments: the maximal runs of non-whitespace. */
  function Words(s: string): (r: seq<string>)
    ensures forall i :: 0 <= i < |r| ==> r[i] != [] && NoSpace(r[i])
  {
    SplitWsUnlimited(s, |s|);
    SplitWs(s, |s|)
  }

  /** With a limit no smaller than the length, the limit never binds: no field holds whitespace. */
  lemma {:induction false} SplitWsUnlimited(s: string, maxsplit: nat)
    requires maxsplit >= |s|
    ensures forall i :: 0 <= i < |SplitWs(s, maxsplit)| ==> NoSpace(SplitWs(s, maxsplit)[i])
    decreases |s|
  {
    if s != [] {
      if IsSpace(s[0]) {
        SplitWsUnlimited(s[1..], maxsplit);
      } else {
        var n := SpanNot(s, IsSpace);
        if n < |s| {
          SplitWsUnlimited(s[n..], maxsplit - 1);
        }
      }
    }
  }

  /** A whitespace split is empty exactly when the string is all whitespace. */
  lemma {:induction false} SplitWsEmpty(s: string, maxsplit: nat)
    ensures SplitWs(s, maxsplit) == [] <==> forall i :: 0 <= i < |s| ==> IsSpace(s[i])
    decreases |s|
  {
    if s != [] && IsSpace(s[0]) {
      SplitWsEmpty(s[1..], maxsplit);
      if forall i :: 0 <= i < |s| - 1 ==> IsSpace(s[1..][i]) {
        forall i | 0 <= i < |s| ensures IsSpace(s[i]) {
          if i > 0 { assert s[i] == s[1..][i - 1]; }
        }
      }
    }
  }

  /** s with its whitespace characters removed. */
  function Squash(s: string): string {
    if s == [] then [] else (if IsSpace(s[0]) then [] else [s[0]]) + Squash(s[1..])
  }

  /** The concatenation of a sequence of strings. */
  function Concat(parts: seq<string>): string {
    if parts == [] then [] else parts[0] + Concat(parts[1..])
  }

  lemma {:induction false} SquashAppend(a: string, b: string)
    ensures Squash(a + b) == Squash(a) + Squash(b)
    decreases |a|
  {
    if a == [] {
      assert a + b == b;
    } else {
      var ab := a + b;
      var h := if IsSpace(a[0]) then [] else [a[0]];
      SquashAppend(a[1..], b);
      calc {
        Squash(ab);
        { assert ab != [] && ab[0] == a[0] && ab[1..] == a[1..] + b; }
        h + Squash(a[1..] + b);
        h + (Squash(a[1..]) + Squash(b));
        (h + Squash(a[1..])) + Squash(b);
        Squash(a) + Squash(b);
      }
    }
  }

  /** A whitespace split loses no text: only whitespace is dropped between fields. */
  lemma {:induction false} SplitWsKeepsText(s: string, maxsplit: nat)
    ensures Squash(Concat(SplitWs(s, maxsplit))) == Squash(s)
    decreases |s|
  {
    if s == [] {
    } else if IsSpace(s[0]) {
      SplitWsKeepsText(s[1..], maxsplit);
      assert Squash(s) == Squash(s[1..]);
    } else if maxsplit == 0 {
      assert Concat([s]) == s;
    } else {
      var n := SpanNot(s, IsSpace);
      if n == |s| {
        assert Concat([s]) == s;
      } else {
        SplitWsKeepsText(s[n..], maxsplit - 1);
        FieldThenRest(s, n, SplitWs(s[n..], maxsplit - 1));
      }
    }
  }

  /** A first field followed by parts that keep the text after it keeps the whole text. */
  lemma FieldThenRest(s: string, n: nat, rest: seq<string>)
    requires n <= |s| && Squash(Concat(rest)) == Squash(s[n..])
    ensures Squash(Concat([s[..n]] + rest)) == Squash(s)
  {
    assert ([s[..n]] + rest)[1..] == rest;
    assert Concat([s[..n]] + rest) == s[..n] + Concat(rest);
    SquashAppend(s[..n], Concat(rest));
    SquashAppend(s[..n], s[n..]);
    assert s[..n] + s[n..] == s;
  }

  /** Every character of w is whitespace. */
  predicate AllSpace(w: string) { forall i :: 0 <= i < |w| ==> IsSpace(w[i]) }

  /** ws[0] + r[0] + ws[1] + r[1] + ... + r[|r| - 1] + ws[|r|]: fields r laid out between
      the separators ws. */
  function Interleave(ws: seq<string>, r: seq<string>): string
    requires |ws| == |r| + 1
    decreases |r|
  {
    if r == [] then ws[0] else ws[0] + r[0] + Interleave(ws[1..], r[1..])
  }

  /** s is the fields r with the whitespace runs ws around them: a non-empty run between
      two fields, possibly empty ones before the first and after the last, and none after
      the last when the split used up all maxsplit splits. */
  predicate Layout(s: string, r: seq<string>, ws: seq<string>, maxsplit: nat) {
    && |ws| == |r| + 1
    && s == Interleave(ws, r)
    && (forall i :: 0 <= i < |ws| ==> AllSpace(ws[i]))
    && (forall i :: 0 < i < |r| ==> ws[i] != [])
    && (|r| == maxsplit + 1 ==> ws[|r|] == [])
  }

  /** A whitespace split rebuilds its string: the string is its fields with whitespace
      runs between them, so the last field of a split that reached its limit is the
      whole rest of the string. */
  lemma {:induction false} SplitWsLayout(s: string, maxsplit: nat)
    ensures exists ws :: Layout(s, SplitWs(s, maxsplit), ws, maxsplit)
    decreases |s|
  {
    var r := SplitWs(s, maxsplit);
    if s == [] {
      assert Layout(s, r, [[]], maxsplit);
    } else if IsSpace(s[0]) {
      SplitWsLayout(s[1..], maxsplit);
      var ws' :| Layout(s[1..], r, ws', maxsplit);
      LayoutSpaceFirst(s, r, ws', maxsplit);
    } else if maxsplit == 0 || SpanNot(s, IsSpace) == |s| {
      assert r == [s];
      assert Interleave([[], []], [s]) == [] + s + [];
      assert Layout(s, r, [[], []], maxsplit);
    } else {
      var n := SpanNot(s, IsSpace);
      var r' := SplitWs(s[n..], maxsplit - 1);
      assert r == [s[..n]] + r';
      SplitWsLayout(s[n..], maxsplit - 1);
      var ws' :| Layout(s[n..], r', ws', maxsplit - 1);
      LayoutFieldFirst(s, n, r', ws', maxsplit);
    }
  }

  /** A leading whitespace character joins the first separator. */
  lemma LayoutSpaceFirst(s: string, r: seq<string>, ws': seq<string>, maxsplit: nat)
    requires s != [] && IsSpace(s[0]) && Layout(s[1..], r, ws', maxsplit)
    ensures Layout(s, r, [[s[0]] + ws'[0]] + ws'[1..], maxsplit)
  {
    var ws := [[s[0]] + ws'[0]] + ws'[1..];
    InterleaveHead(s[0], ws', r);
    assert s == [s[0]] + s[1..];
    assert forall i :: 0 < i < |ws| ==> ws[i] == ws'[i];
    forall i | 0 <= i < |ws[0]| ensures IsSpace(ws[0][i]) {
      if i > 0 { assert ws[0][i] == ws'[0][i - 1]; }
    }
  }

  /** A first field of n characters, followed by a laid-out rest that starts with
      whitespace, is laid out with an empty first separator. */
  lemma LayoutFieldFirst(s: string, n: nat, r': seq<string>, ws': seq<string>, maxsplit: nat)
    requires 0 < n < |s| && IsSpace(s[n]) && maxsplit > 0
    requires Layout(s[n..], r', ws', maxsplit - 1)
    requires forall i :: 0 <= i < |r'| ==> IsField(r'[i])
    ensures Layout(s, [s[..n]] + r', [[]] + ws', maxsplit)
  {
    var r, ws := [s[..n]] + r', [[]] + ws';
    assert r[1..] == r' && ws[1..] == ws';
    assert s == s[..n] + s[n..];
    assert Interleave(ws, r) == [] + s[..n] + Interleave(ws', r');
    if r' != [] {
      InterleaveStart(ws', r');
      assert ws'[0] != [];
    }
    assert forall i :: 0 < i < |ws| ==> ws[i] == ws'[i - 1];
  }

  /** A character put in front of the first separator goes in front of the whole. */
  lemma InterleaveHead(c: char, ws: seq<string>, r: seq<string>)
    requires |ws| == |r| + 1
    ensures Interleave([[c] + ws[0]] + ws[1..], r) == [c] + Interleave(ws, r)
  {
    var ws2 := [[c] + ws[0]] + ws[1..];
    if r != [] {
      var t := Interleave(ws[1..], r[1..]);
      assert ws2[0] == [c] + ws[0] && ws2[1..] == ws[1..];
      assert Interleave(ws2, r) == ([c] + ws[0]) + r[0] + t;
      assert Interleave(ws, r) == ws[0] + r[0] + t;
    }
  }

  /** With at least one field, the laid-out string starts with the first separator and
      the first field. */
  lemma InterleaveStart(ws: seq<string>, r: seq<string>)
    requires |ws| == |r| + 1 && r != []
    ensures StartsWith(Interleave(ws, r), ws[0] + r[0])
  {
    var t := Interleave(ws[1..], r[1..]);
    assert Interleave(ws, r) == (ws[0] + r[0]) + t;
  }

  /** The laid-out string ends with the last field and the last separator. */
  lemma {:induction false} InterleaveEnd(ws: seq<string>, r: seq<string>)
    requires |ws| == |r| + 1 && r != []
    ensures EndsWith(Interleave(ws, r), r[|r| - 1] + ws[|r|])
    decreases |r|
  {
    var t := Interleave(ws[1..], r[1..]);
    if |r| == 1 {
      assert Interleave(ws, r) == ws[0] + (r[0] + ws[1]);
      EndsWithAfter(ws[0], r[0] + ws[1], r[0] + ws[1]);
    } else {
      InterleaveEnd(ws[1..], r[1..]);
      assert r[1..][|r| - 2] == r[|r| - 1] && ws[1..][|r| - 1] == ws[|r|];
      EndsWithAfter(ws[0] + r[0], t, r[|r| - 1] + ws[|r|]);
    }
  }

  predicate EndsWith(s: string, suffix: string) { |suffix| <= |s| && s[|s| - |suffix|..] == suffix }

  lemma EndsWithAfter(p: string, t: string, suffix: string)
    requires EndsWith(t, suffix)
    ensures EndsWith(p + t, suffix)
  {
    assert (p + t)[|p + t| - |suffix|..] == t[|t| - |suffix|..];
  }

  /** The last field of a whitespace split is followed only by whitespace in the string,
      and is the exact end of the string when the split reached its limit. */
  lemma SplitWsLastField(s: string, maxsplit: nat)
    requires SplitWs(s, maxsplit) != []
    ensures var r := SplitWs(s, maxsplit);
      exists w :: AllSpace(w) && EndsWith(s, r[|r| - 1] + w)
    ensures var r := SplitWs(s, maxsplit);
      |r| == maxsplit + 1 ==> EndsWith(s, r[|r| - 1])
  {
    var r := SplitWs(s, maxsplit);
    SplitWsLayout(s, maxsplit);
    var ws :| Layout(s, r, ws, maxsplit);
    InterleaveEnd(ws, r);
    assert AllSpace(ws[|r|]);
    if |r| == maxsplit + 1 {
      assert r[|r| - 1] + ws[|r|] == r[|r| - 1];
    }
  }

  /** Python's str.splitlines(): the lines of s without their line breaks ("\r\n" counts as one). */
  function SplitLines(s: string): (lines: seq<string>)
    ensures forall i, j :: 0 <= i < |lines| && 0 <= j < |lines[i]| ==> !IsLineBreak(lines[i][j])
    ensures s != [] ==> lines != []
    decreases |s|
  {
    if s == [] then []
    else
      var n := SpanNot(s, IsLineBreak);
      if n == |s| then [s]
      else
        var skip := if s[n] == '\r' && n + 1 < |s| && s[n + 1] == '\n' then 2 else 1;
        [s[..n]] + SplitLines(s[n + skip..])
  }

  /** One line terminator of str.splitlines(): a single line-break character, or "\r\n". */
  predicate LineEnd(e: string) {
    (|e| == 1 && IsLineBreak(e[0])) || e == "\r\n"
  }

  predicate NoBreak(line: string) { forall j :: 0 <= j < |line| ==> !IsLineBreak(line[j]) }

  /** lines[0] + ends[0] + lines[1] + ends[1] + ...: each line followed by its terminator. */
  function JoinLines(lines: seq<string>, ends: seq<string>): string
    requires |lines| == |ends|
    decreases |lines|
  {
    if lines == [] then [] else lines[0] + ends[0] + JoinLines(lines[1..], ends[1..])
  }

  /** s is the lines, each without a break, each followed by a terminator; only the last
      may lack one, and then it is not empty; a lone "\r" is never followed by "\n". */
  predicate LinesLayout(s: string, lines: seq<string>, ends: seq<string>) {
    && |ends| == |lines|
    && s == JoinLines(lines, ends)
    && (forall i :: 0 <= i < |lines| ==> NoBreak(lines[i]))
    && (forall i :: 0 <= i < |lines| - 1 ==> LineEnd(ends[i]))
    && (lines != [] ==> LineEnd(ends[|lines| - 1]) || (ends[|lines| - 1] == [] && lines[|lines| - 1] != []))
    && (forall i :: 0 <= i < |lines| - 1 && ends[i] == "\r" ==>
          lines[i + 1] != [] || ends[i + 1] == [] || ends[i + 1][0] != '\n')
  }

  /** The lines of str.splitlines() rebuild the string: each is followed in s by its own
      terminator, the last possibly by none. */
  lemma {:induction false} SplitLinesLayout(s: string)
    ensures exists ends :: LinesLayout(s, SplitLines(s), ends)
    decreases |s|
  {
    if s == [] {
      assert LinesLayout(s, SplitLines(s), []);
    } else if SpanNot(s, IsLineBreak) == |s| {
      assert SplitLines(s) == [s];
      assert JoinLines([s], [[]]) == s + [] + [];
      assert LinesLayout(s, SplitLines(s), [[]]);
    } else {
      var line, e, rest := FirstLineParts(s);
      SplitLinesLayout(rest);
      var ends' :| LinesLayout(rest, SplitLines(rest), ends');
      LinesLayoutCons(s, line, e, rest, SplitLines(rest), ends');
    }
  }

  /** Where str.splitlines() cuts s: a break-free line, one terminator, and the rest. */
  lemma FirstLineParts(s: string) returns (line: string, e: string, rest: string)
    requires SpanNot(s, IsLineBreak) < |s|
    ensures s == line + (e + rest) && |rest| < |s|
    ensures NoBreak(line) && LineEnd(e) && (e == "\r" && rest != [] ==> rest[0] != '\n')
    ensures SplitLines(s) == [line] + SplitLines(rest)
  {
    var n := SpanNot(s, IsLineBreak);
    var skip := if s[n] == '\r' && n + 1 < |s| && s[n + 1] == '\n' then 2 else 1;
    line, e, rest := s[..n], s[n..n + skip], s[n + skip..];
    Cut3(s, n, n + skip);
    assert LineEnd(e);
    assert e == "\r" && rest != [] ==> rest[0] != '\n';
    forall j | 0 <= j < n ensures !IsLineBreak(line[j]) { assert line[j] == s[j]; }
    FirstLineStep(s, line, e, rest);
  }

  /** Cutting a string at two positions loses nothing. */
  lemma Cut3(s: string, i: nat, j: nat)
    requires i <= j <= |s|
    ensures s == s[..i] + (s[i..j] + s[j..])
  {
    assert s[i..j] + s[j..] == s[i..];
  }

  /** A break-free line and its terminator, before a laid-out rest, give a layout of the
      whole string. */
  lemma LinesLayoutCons(s: string, line: string, e: string, rest: string, lines': seq<string>, ends': seq<string>)
    requires s == line + (e + rest)
    requires NoBreak(line) && LineEnd(e) && (e == "\r" && rest != [] ==> rest[0] != '\n')
    requires LinesLayout(rest, lines', ends')
    ensures LinesLayout(s, [line] + lines', [e] + ends')
  {
    var lines, ends := [line] + lines', [e] + ends';
    assert lines[1..] == lines' && ends[1..] == ends';
    assert JoinLines(lines, ends) == line + e + rest;
    forall i | 0 < i < |lines| ensures NoBreak(lines[i]) && (i < |lines| - 1 ==> LineEnd(ends[i])) {
      assert lines[i] == lines'[i - 1] && ends[i] == ends'[i - 1];
    }
    forall i | 0 <= i < |lines| - 1 && ends[i] == "\r"
      ensures lines[i + 1] != [] || ends[i + 1] == [] || ends[i + 1][0] != '\n'
    {
      assert lines[i + 1] == lines'[i] && ends[i + 1] == ends'[i];
      if i == 0 && lines'[0] == [] && ends'[0] != [] {
        assert rest == ends'[0] + JoinLines(lines'[1..], ends'[1..]);
      } else if i > 0 {
        assert ends'[i - 1] == ends[i];
      }
    }
  }

  /** The layout determines the lines: any splitting of s into break-free lines with
      their terminators is the one str.splitlines() returns. */
  lemma {:induction false} SplitLinesUnique(s: string, lines: seq<string>, ends: seq<string>)
    requires LinesLayout(s, lines, ends)
    ensures lines == SplitLines(s)
    decreases |lines|
  {
    if lines != [] {
      var rest := JoinLines(lines[1..], ends[1..]);
      assert s == lines[0] + (ends[0] + rest);
      if ends[0] == [] {
        assert |lines| == 1 && s == lines[0] && NoBreak(lines[0]);
        assert lines == [lines[0]];
        SingleLine(s);
      } else {
        if ends[0] == "\r" && rest != [] {
          CrThenRest(s, lines, ends);
        }
        FirstLineStep(s, lines[0], ends[0], rest);
        LinesLayoutTail(s, lines, ends);
        SplitLinesUnique(rest, lines[1..], ends[1..]);
      }
    }
  }

  /** A break-free line and its terminator in front of the rest are where
      str.splitlines() cuts and what it skips. */
  lemma FirstLineStep(s: string, line: string, e: string, rest: string)
    requires s == line + (e + rest) && NoBreak(line) && LineEnd(e)
    requires e == "\r" && rest != [] ==> rest[0] != '\n'
    ensures SplitLines(s) == [line] + SplitLines(rest)
  {
    var n := |line|;
    assert s[..n] == line && s[n..] == e + rest;
    SpanNotPrefix(s, line);
    var skip := if s[n] == '\r' && n + 1 < |s| && s[n + 1] == '\n' then 2 else 1;
    if e == "\r" && rest != [] {
      assert s[n + 1] == rest[0];
    }
    assert skip == |e|;
    assert s[n + skip..] == rest;
  }

  /** After a lone "\r" terminator, the rest of the string does not start with "\n". */
  lemma CrThenRest(s: string, lines: seq<string>, ends: seq<string>)
    requires LinesLayout(s, lines, ends) && lines != [] && ends[0] == "\r"
    requires JoinLines(lines[1..], ends[1..]) != []
    ensures JoinLines(lines[1..], ends[1..])[0] != '\n'
  {
    var rest := JoinLines(lines[1..], ends[1..]);
    assert |lines| > 1;
    assert rest == lines[1] + ends[1] + JoinLines(lines[2..], ends[2..]);
    if lines[1] != [] {
      assert NoBreak(lines[1]);
    } else {
      assert LineEnd(ends[1]);
    }
  }

  /** The line-free prefix of s is exactly a break-free first line followed by a break. */
  lemma SpanNotPrefix(s: string, line: string)
    requires |line| < |s| && s[..|line|] == line && NoBreak(line) && IsLineBreak(s[|line|])
    ensures SpanNot(s, IsLineBreak) == |line|
  {
    assert forall i :: 0 <= i < |line| ==> s[i] == line[i];
  }

  /** Dropping the first line and its terminator leaves a layout of the rest. */
  lemma LinesLayoutTail(s: string, lines: seq<string>, ends: seq<string>)
    requires LinesLayout(s, lines, ends) && lines != []
    ensures LinesLayout(JoinLines(lines[1..], ends[1..]), lines[1..], ends[1..])
  {
    assert forall i :: 0 <= i < |lines| - 1 ==> lines[1..][i] == lines[i + 1] && ends[1..][i] == ends[i + 1];
  }

  /** A non-empty string without line breaks is a single line. */
  lemma SingleLine(s: string)
    requires s != [] && forall i :: 0 <= i < |s| ==> !IsLineBreak(s[i])
    ensures SplitLines(s) == [s]
  {
  }

  function Repeat(c: char, k: nat): (r: string)
    ensures |r| == k && forall i :: 0 <= i < k ==> r[i] == c
  {
    if k == 0 then [] else [c] + Repeat(c, k - 1)
  }

  /** The number a string of decimal digits denotes (leading zeros allowed). */
  function DigitsValue(d: string): nat
    requires AllDigits(d)
  {
    if d == [] then 0 else 10 * DigitsValue(d[..|d| - 1]) + (d[|d| - 1] as int - '0' as int)
  }

  function DigitChar(n: nat): (c: char)
    requires n < 10
    ensures IsDigit(c) && c as int - '0' as int == n
  {
    ('0' as int + n) as char
  }

  /** Python's str(n) and JavaScript's String(n) for a non-negative integer. */
  function NatToString(n: nat): (s: string)
    ensures s != [] && AllDigits(s) && DigitsValue(s) == n
    ensures s[0] == '0' ==> n == 0
  {
    if n < 10 then [DigitChar(n)]
    else
      var s := NatToString(n / 10) + [DigitChar(n % 10)];
      assert s[..|s| - 1] == NatToString(n / 10);
      s
  }

  /** Python's int(s) in base 10: optional surrounding whitespace, an optional sign, ASCII digits. */
  function ParseInt(s: string): (r: Option<int>)
    ensures r.Some? && '-' !in s ==> r.value >= 0
  {
    var t := Strip(s);
    if t == [] then None
    else
      var body := if t[0] == '+' || t[0] == '-' then t[1..] else t;
      if body == [] || !AllDigits(body) then None
      else if t[0] == '-' then Some(0 - DigitsValue(body) as int)
      else Some(DigitsValue(body))
  }

  /** Python's str.zfill(width) applied to a string of digits: pad with zeros on the left. */
  function ZFill(digits: string, width: int): (r: string)
    ensures |r| == if |digits| >= width then |digits| else width
    ensures |digits| <= |r| && r[|r| - |digits|..] == digits
    ensures forall i :: 0 <= i < |r| - |digits| ==> r[i] == '0'
  {
    if |digits| >= width then digits else Repeat('0', width - |digits|) + digits
  }

  lemma {:induction false} ZerosValue(k: nat)
    ensures AllDigits(Repeat('0', k)) && DigitsValue(Repeat('0', k)) == 0
  {
    if k > 0 {
      ZerosValue(k - 1);
      assert Repeat('0', k)[..k - 1] == Repeat('0', k - 1);
    }
  }

  /** Leading zeros do not change the value of a digit string. */
  lemma {:induction false} LeadingZeros(k: nat, d: string)
    requires AllDigits(d)
    ensures AllDigits(Repeat('0', k) + d)
    ensures DigitsValue(Repeat('0', k) + d) == DigitsValue(d)
    decreases |d|
  {
    if d == [] {
      ZerosValue(k);
      assert Repeat('0', k) + d == Repeat('0', k);
    } else {
      var z := Repeat('0', k);
      var init := d[..|d| - 1];
      LeadingZeros(k, init);
      assert (z + d)[..|z + d| - 1] == z + init;
    }
  }

  /** int() reads back a zero-padded decimal: the padding of zfill is harmless. */
  lemma ParseZFilled(n: nat, width: int)
    ensures ParseInt(ZFill(NatToString(n), width)) == Some(n)
  {
    var d := NatToString(n);
    var z := ZFill(d, width);
    if |d| < width {
      LeadingZeros(width - |d|, d);
    }
    assert AllDigits(z) && DigitsValue(z) == n;
    ParseDigits(z);
  }

  /** int() of a non-empty string of ASCII digits is the number it denotes. */
  lemma ParseDigits(z: string)
    requires z != [] && AllDigits(z)
    ensures ParseInt(z) == Some(DigitsValue(z) as int)
  {
    assert IsDigit(z[0]) && IsDigit(z[|z| - 1]);
    StripTrimmed(z);
  }

  /** JavaScript's s.replace(/c/g, rep): every occurrence of c replaced by rep. */
  function ReplaceChar(s: string, c: char, rep: string): (r: string)
    ensures c !in rep ==> c !in r
    ensures c !in s ==> r == s
    ensures forall x :: x in r ==> x in s || x in rep
  {
    if s == [] then [] else (if s[0] == c then rep else [s[0]]) + ReplaceChar(s[1..], c, rep)
  }

  lemma {:induction false} ReplaceCharConcat(a: string, b: string, c: char, rep: string)
    ensures ReplaceChar(a + b, c, rep) == ReplaceChar(a, c, rep) + ReplaceChar(b, c, rep)
    decreases |a|
  {
    if a != [] {
      var ab := a + b;
      var h := if a[0] == c then rep else [a[0]];
      var ra, rb := ReplaceChar(a[1..], c, rep), ReplaceChar(b, c, rep);
      assert ab[0] == a[0] && ab[1..] == a[1..] + b;
      ReplaceCharConcat(a[1..], b, c, rep);
      assert ReplaceChar(ab, c, rep) == h + (ra + rb);
      assert ReplaceChar(a, c, rep) == h + ra;
      assert h + (ra + rb) == (h + ra) + rb;
    } else {
      assert a + b == b;
    }
  }
}

=== FILE: view.dfy ===
/**
 * One server card of the dashboard and its in-place reconciliation
 * (static/app.js): the job table's rows keyed by job id, the card's status
 * dot, job count, body and recently-finished disclosure.
 */
module View {
  import opened Common
  import opened Strings
  import opened Records
  import opened Render

  /** A `<tr data-jobid>` of a job table: its cells by column key, the columns marked
      "changed", and the classes "clickable" and "entering". */
  datatype Row = Row(cells: map<string, string>, changed: set<string>, clickable: bool, entering: bool)

  /** buildRowHtml: a row showing the job, entering when it is given an animation delay. */
  function BuildRow(job: JobRecord, animate: bool): Row {
    Row(RenderedCells(job), {}, IsClickable(job), animate)
  }

  /** The row shows the job: its cells, and "clickable" exactly when the job runs or
      completes. */
  predicate ShowsJob(row: Row, job: JobRecord) {
    row.cells == RenderedCells(job) && row.clickable == IsClickable(job)
  }

  /** The entries of target for the columns among cols. */
  function Restrict(target: map<string, string>, cols: seq<string>): map<string, string> {
    map c | c in cols && c in target :: target[c]
  }

  lemma RestrictStep(cells: map<string, string>, target: map<string, string>, cols: seq<string>, c: string)
    requires c in target
    ensures cells + Restrict(target, cols + [c]) == (cells + Restrict(target, cols))[c := target[c]]
  {
    assert forall x :: x in cols + [c] <==> x in cols || x == c;
  }

  /** The columns among cols whose stored content differs from the target's. */
  function Marked(cells: map<string, string>, target: map<string, string>, cols: seq<string>): set<string> {
    set c | c in cols && c in cells && c in target && cells[c] != target[c]
  }

  lemma MarkedStep(cells: map<string, string>, target: map<string, string>, cols: seq<string>, c: string)
    ensures Marked(cells, target, cols + [c]) ==
      Marked(cells, target, cols) + (if c in cells && c in target && cells[c] != target[c] then {c} else {})
  {
    assert forall x :: x in cols + [c] <==> x in cols || x == c;
  }

  /** The columns whose stored content differs from the job's rendering. */
  function ChangedColumns(cells: map<string, string>, job: JobRecord): set<string> {
    Marked(cells, RenderedCells(job), Columns)
  }

  /** The cell loop of patchTable (`COLUMNS.forEach`), given the new content of the cells
      (RenderedCells of the job): each cell whose content differs is rewritten and marked
      changed; the other cells are left alone. */
  method UpdateCells(row: Row, target: map<string, string>, columns: seq<string>) returns (updated: Row)
    requires forall c :: c in columns ==> c in row.cells && c in target
    ensures updated.cells == row.cells + Restrict(target, columns)
    ensures updated.changed == row.changed + Marked(row.cells, target, columns)
    ensures updated.clickable == row.clickable && updated.entering == row.entering
  {
    var cells := row.cells;
    var changed := row.changed;
    var i := 0;
    assert columns[..0] == [];
    while i < |columns|
      invariant 0 <= i <= |columns|
      invariant Patched(row, target, columns[..i], cells, changed)
    {
      var column := columns[i];
      PatchedStep(row, target, columns[..i], cells, changed, column);
      assert columns[..i + 1] == columns[..i] + [column];
      if cells[column] != target[column] {
        cells := cells[column := target[column]];
        changed := changed + {column};
      }
      i := i + 1;
    }
    assert columns[..i] == columns;
    updated := row.(cells := cells, changed := changed);
  }

  /** The cells and marks of a row once the columns in done have been patched. */
  ghost predicate Patched(row: Row, target: map<string, string>, done: seq<string>,
                          cells: map<string, string>, changed: set<string>)
  {
    && cells == row.cells + Restrict(target, done)
    && changed == row.changed + Marked(row.cells, target, done)
  }

  /** Patching one more column: its cell is rewritten and marked only when it differs. */
  lemma PatchedStep(row: Row, target: map<string, string>, done: seq<string>,
                    cells: map<string, string>, changed: set<string>, c: string)
    requires Patched(row, target, done, cells, changed) && c in row.cells && c in target
    ensures c in cells
    ensures cells[c] == target[c] ==> Patched(row, target, done + [c], cells, changed)
    ensures cells[c] != target[c] ==>
      Patched(row, target, done + [c], cells[c := target[c]], changed + {c})
  {
    MarkedStep(row.cells, target, done, c);
    RestrictStep(row.cells, target, done, c);
    if cells[c] == target[c] {
      assert cells == cells[c := target[c]];
      assert c in Marked(row.cells, target, done) || row.cells[c] == target[c];
    }
  }

  /** A column is marked exactly when the job's rendering of it differs from the cell. */
  lemma ChangedColumnsExactly(cells: map<string, string>, job: JobRecord, c: string)
    requires cells.Keys == ColumnSet
    ensures c in ChangedColumns(cells, job) <==> c in ColumnSet && cells[c] != CellHtml(c, job)
  {
  }

  /** Patching a row with the job it already shows marks nothing. */
  lemma SameJobNoMarks(job: JobRecord)
    ensures ChangedColumns(RenderedCells(job), job) == {}
  {
  }

  /** How the row patchTable leaves for a job relates to the rows before the patch: the
      row of an id already present stays, no longer entering, with the differing columns
      added to its changed marks; a row for any other id is new, entering, unmarked. */
  predicate Reconciled(before: map<string, Row>, row: Row, job: JobRecord) {
    if JobId(job) in before then
      !row.entering && row.changed == before[JobId(job)].changed + ChangedColumns(before[JobId(job)].cells, job)
    else
      row.entering && row.changed == {}
  }

  /** One pass of patchTable's loop on the row found under the job's id
      (`existingRows[id]`): its cells are patched, "clickable" follows the job's state and
      the className assignment drops "entering"; without a row, a new one is built with
      delay 0 and so enters. */
  method ReuseOrBuild(existing: Option<Row>, job: JobRecord) returns (row: Row)
    requires existing.Some? ==> existing.value.cells.Keys == ColumnSet
    ensures ShowsJob(row, job)
    ensures existing.Some? ==>
      !row.entering && row.changed == existing.value.changed + ChangedColumns(existing.value.cells, job)
    ensures existing.None? ==> row.entering && row.changed == {}
  {
    match existing
    case Some(tr) =>
      row := UpdateCells(tr, RenderedCells(job), Columns);
      assert Restrict(RenderedCells(job), Columns) == RenderedCells(job);
      row := row.(clickable := IsClickable(job), entering := false);
    case None =>
      row := BuildRow(job, true);
  }

  /** The rows show the jobs: the ids in the jobs' order, each with its job's row. */
  predicate ShowJobs(order: seq<string>, table: map<string, Row>, jobs: seq<JobRecord>) {
    && order == JobIds(jobs)
    && forall i :: 0 <= i < |jobs| ==> order[i] in table && ShowsJob(table[order[i]], jobs[i])
  }

  /** No two jobs share an id. */
  ghost predicate DistinctJobIds(jobs: seq<JobRecord>) {
    Distinct(JobIds(jobs))
  }

  function IdSet(ids: seq<string>): set<string> {
    set i | i in ids
  }

  /** The ids of the set, in their order: what is left of the table after the removals. */
  function Surviving(order: seq<string>, ids: set<string>): seq<string> {
    if order == [] then []
    else (if order[0] in ids then [order[0]] else []) + Surviving(order[1..], ids)
  }

  /** order with its first occurrence of x taken out. */
  function Without(order: seq<string>, x: string): seq<string> {
    if order == [] then [] else if order[0] == x then order[1..] else [order[0]] + Without(order[1..], x)
  }

  /** The cursor step of patchTable: the row of id x stays when it already follows the
      first k rows (`prevRow.nextElementSibling === tr`, or the first row when k is 0);
      otherwise it is moved (or inserted) there, by `prevRow.after(tr)` or
      `tbody.prepend(tr)`. */
  function Placed(order: seq<string>, k: nat, x: string): seq<string>
    requires k <= |order|
  {
    if k < |order| && order[k] == x then order else order[..k] + [x] + Without(order[k..], x)
  }

  lemma {:induction false} SurvivingWithin(order: seq<string>, ids: set<string>, x: string)
    requires x in Surviving(order, ids)
    ensures x in order && x in ids
  {
    if order[0] != x || order[0] !in ids {
      assert x in Surviving(order[1..], ids);
      SurvivingWithin(order[1..], ids, x);
    }
  }

  lemma {:induction false} WithoutAbsent(order: seq<string>, x: string)
    requires x !in order
    ensures Without(order, x) == order
  {
    if order != [] {
      WithoutAbsent(order[1..], x);
    }
  }

  /** When x is not in the table, dropping x from the ids changes nothing. */
  lemma {:induction false} SurvivingAbsent(order: seq<string>, ids: set<string>, x: string)
    requires x !in order
    ensures Surviving(order, ids - {x}) == Surviving(order, ids)
  {
    if order != [] {
      SurvivingAbsent(order[1..], ids, x);
    }
  }

  /** Taking x out of the survivors leaves the survivors of the other ids. */
  lemma {:induction false} SurvivingDrop(order: seq<string>, ids: set<string>, x: string)
    requires Distinct(order) && x in order && x in ids
    ensures Without(Surviving(order, ids), x) == Surviving(order, ids - {x})
  {
    var tail := order[1..];
    assert Distinct(tail) by {
      forall i, j | 0 <= i < j < |tail| ensures tail[i] != tail[j] {
        assert tail[i] == order[i + 1] && tail[j] == order[j + 1];
      }
    }
    if order[0] == x {
      assert x !in tail by {
        forall j | 0 <= j < |tail| ensures tail[j] != x {
          assert tail[j] == order[j + 1];
        }
      }
      SurvivingAbsent(tail, ids, x);
      assert Surviving(order, ids) == [x] + Surviving(tail, ids);
    } else {
      assert x in tail;
      SurvivingDrop(tail, ids, x);
      var rest := Surviving(tail, ids);
      if order[0] in ids {
        assert Surviving(order, ids) == [order[0]] + rest;
        assert Without([order[0]] + rest, x) == [order[0]] + Without(rest, x);
        assert Surviving(order, ids - {x}) == [order[0]] + Surviving(tail, ids - {x});
      } else {
        assert Surviving(order, ids) == rest;
        assert Surviving(order, ids - {x}) == Surviving(tail, ids - {x});
      }
    }
  }

  /** No id left: no survivors. */
  lemma {:induction false} SurvivingNone(order: seq<string>)
    ensures Surviving(order, {}) == []
  {
    if order != [] {
      SurvivingNone(order[1..]);
    }
  }

  lemma IdSetTail(ids: seq<string>, k: nat)
    requires k < |ids| && Distinct(ids)
    ensures IdSet(ids[k + 1..]) == IdSet(ids[k..]) - {ids[k]}
    ensures IdSet(ids[..k + 1]) == IdSet(ids[..k]) + {ids[k]}
  {
    assert ids[k..] == [ids[k]] + ids[k + 1..];
    assert ids[..k + 1] == ids[..k] + [ids[k]];
    assert ids[k] !in ids[k + 1..];
  }

  /** The cursor step as a splice: the first k rows, the row, then the other rows with
      the row taken out. */
  lemma PlacedSplice(order: seq<string>, k: nat, x: string)
    requires k <= |order| && x !in order[..k]
    ensures Placed(order, k, x) == order[..k] + [x] + Without(order[k..], x)
  {
    if k < |order| && order[k] == x {
      assert order[k..] == [x] + order[k + 1..];
      assert order == order[..k] + [x] + order[k + 1..];
    }
  }

  /** One step of the cursor walk: with the rows of the first k jobs in place and the
      survivors of the other jobs after them, placing the next job's row leaves the
      survivors of the jobs after it. */
  lemma PlaceStep(order0: seq<string>, ids: seq<string>, k: nat)
    requires Distinct(order0) && Distinct(ids) && k < |ids|
    ensures Placed(ids[..k] + Surviving(order0, IdSet(ids[k..])), k, ids[k])
      == ids[..k + 1] + Surviving(order0, IdSet(ids[k + 1..]))
  {
    var x := ids[k];
    var pending := Surviving(order0, IdSet(ids[k..]));
    var order := ids[..k] + pending;
    assert x !in ids[..k];
    assert order[..k] == ids[..k] && order[k..] == pending;
    PendingWithout(order0, ids, k);
    PlacedSplice(order, k, x);
    assert ids[..k + 1] == ids[..k] + [x];
  }

  /** Taking the next job's row out of the survivors of the remaining jobs leaves the
      survivors of the jobs after it. */
  lemma PendingWithout(order0: seq<string>, ids: seq<string>, k: nat)
    requires Distinct(order0) && Distinct(ids) && k < |ids|
    ensures Without(Surviving(order0, IdSet(ids[k..])), ids[k]) == Surviving(order0, IdSet(ids[k + 1..]))
  {
    var x := ids[k];
    var pending := Surviving(order0, IdSet(ids[k..]));
    IdSetTail(ids, k);
    if x in order0 {
      assert x in IdSet(ids[k..]);
      SurvivingDrop(order0, IdSet(ids[k..]), x);
    } else {
      SurvivingAbsent(order0, IdSet(ids[k..]), x);
      assert x !in pending by {
        if x in pending {
          SurvivingWithin(order0, IdSet(ids[k..]), x);
        }
      }
      WithoutAbsent(pending, x);
    }
  }

  /** The body of a card under its heading, by what its text is made from: the
      `.error-msg` div (BodyText gives its HTML), the `.no-jobs` div, or the job table. */
  datatype Body = ErrorBody(server: string, error: string) | EmptyBody(server: string) | TableBody

  /** The recently-finished disclosure: the count in its toggle, whether the chevron and
      the body have the "open" class, and the jobs whose table (RecentTableHtml) fills
      the body. */
  datatype RecentPanel = RecentPanel(count: nat, chevronOpen: bool, bodyOpen: bool, jobs: seq<JobRecord>)

  /** The three shapes a card can take. */
  datatype Shape = ErrorShape | EmptyShape | TableShape

  /** `!!serverData.error`: an empty error text counts as no error. */
  predicate HasError(s: ServerSnapshot) { s.error.Some? && s.error.value != "" }

  /** `!hasError && jobs.length > 0`. */
  predicate HasJobs(s: ServerSnapshot) { !HasError(s) && |s.jobs| > 0 }

  function ShapeOf(s: ServerSnapshot): Shape {
    if HasError(s) then ErrorShape else if |s.jobs| == 0 then EmptyShape else TableShape
  }

  function BodyShape(b: Body): Shape {
    match b
    case ErrorBody(_, _) => ErrorShape
    case EmptyBody(_) => EmptyShape
    case TableBody => TableShape
  }

  /** patchServer's shapeChanged: with no previous snapshot it always holds
      (`undefined !== false`). */
  predicate ShapeChanged(prev: Option<ServerSnapshot>, s: ServerSnapshot) {
    prev.None? || HasError(s) != HasError(prev.value) || HasJobs(s) != HasJobs(prev.value)
  }

  /** The two flags patchServer compares are exactly the shape: the card is rebuilt
      exactly when the shape of the snapshot differs from the previous one. */
  lemma ShapeChangedExactly(prev: ServerSnapshot, s: ServerSnapshot)
    ensures ShapeChanged(Some(prev), s) <==> ShapeOf(prev) != ShapeOf(s)
  {
  }

  function ErrorText(name: string, error: string): string {
    "Could not reach " + EscapeHtml(name) + ".<br><small>" + EscapeHtml(error) + "</small>"
  }

  function QuietText(name: string): string {
    "All quiet on " + EscapeHtml(name) + ". No jobs in queue."
  }

  /** The HTML inside the body's div; the job table's rows are modelled separately. */
  function BodyText(b: Body): string {
    match b
    case ErrorBody(server, error) => ErrorText(server, error)
    case EmptyBody(server) => QuietText(server)
    case TableBody => ""
  }

  /** The body renderServerFull gives a snapshot. */
  function BodyFor(s: ServerSnapshot): (b: Body)
    ensures BodyShape(b) == ShapeOf(s)
  {
    if HasError(s) then ErrorBody(s.server, s.error.value)
    else if |s.jobs| == 0 then EmptyBody(s.server)
    else TableBody
  }

  /** buildRecentSection: no section for no recent jobs. */
  function NewPanel(recentJobs: seq<JobRecord>, open: bool): Option<RecentPanel> {
    if |recentJobs| == 0 then None
    else Some(RecentPanel(|recentJobs|, open, open, recentJobs))
  }

  /** What patchTable's loop has achieved after the first k jobs: the tbody holds their
      rows, in order, followed by the surviving rows of the jobs still to come; those
      rows are as they were, and every placed row shows its job and is reconciled. */
  ghost predicate Progress(existingRows: map<string, Row>, order0: seq<string>, jobs: seq<JobRecord>,
                           k: nat, tbody: seq<string>, rows: map<string, Row>)
  {
    var ids := JobIds(jobs);
    && k <= |jobs|
    && Distinct(order0) && IdSet(order0) == existingRows.Keys && Distinct(ids)
    && (forall id :: id in existingRows ==> existingRows[id].cells.Keys == ColumnSet)
    && tbody == ids[..k] + Surviving(order0, IdSet(ids[k..]))
    && rows.Keys == IdSet(ids[..k]) + existingRows.Keys * IdSet(ids[k..])
    && forall i :: 0 <= i < k ==>
         ids[i] in rows && ShowsJob(rows[ids[i]], jobs[i]) && Reconciled(existingRows, rows[ids[i]], jobs[i])
  }

  /** Before the loop: the removals leave the survivors of all the jobs. */
  lemma ProgressStart(existingRows: map<string, Row>, order0: seq<string>, jobs: seq<JobRecord>)
    requires Distinct(order0) && IdSet(order0) == existingRows.Keys && DistinctJobIds(jobs)
    requires forall id :: id in existingRows ==> existingRows[id].cells.Keys == ColumnSet
    ensures var ids := JobIds(jobs);
      Progress(existingRows, order0, jobs, 0, Surviving(order0, IdSet(ids)),
               map id | id in existingRows && id in IdSet(ids) :: existingRows[id])
  {
    var ids := JobIds(jobs);
    assert ids[..0] == [] && ids[0..] == ids;
  }

  /** One pass of the loop keeps the progress, one job further. */
  lemma ProgressStep(existingRows: map<string, Row>, order0: seq<string>, jobs: seq<JobRecord>,
                     k: nat, tbody: seq<string>, rows: map<string, Row>, row: Row)
    requires Progress(existingRows, order0, jobs, k, tbody, rows) && k < |jobs|
    requires ShowsJob(row, jobs[k]) && Reconciled(existingRows, row, jobs[k])
    ensures k <= |tbody|
    ensures Progress(existingRows, order0, jobs, k + 1, Placed(tbody, k, JobIds(jobs)[k]),
                     rows[JobIds(jobs)[k] := row])
  {
    var ids := JobIds(jobs);
    PlaceStep(order0, ids, k);
    RowsStep(existingRows, ids, jobs, k, rows, row);
  }

  /** The rows by id after placing the k-th job's row. */
  lemma RowsStep(existingRows: map<string, Row>, ids: seq<string>, jobs: seq<JobRecord>,
                 k: nat, rows: map<string, Row>, row: Row)
    requires k < |jobs| == |ids| && Distinct(ids)
    requires rows.Keys == IdSet(ids[..k]) + existingRows.Keys * IdSet(ids[k..])
    requires forall i :: 0 <= i < k ==>
      ids[i] in rows && ShowsJob(rows[ids[i]], jobs[i]) && Reconciled(existingRows, rows[ids[i]], jobs[i])
    requires ShowsJob(row, jobs[k]) && Reconciled(existingRows, row, jobs[k])
    ensures rows[ids[k] := row].Keys == IdSet(ids[..k + 1]) + existingRows.Keys * IdSet(ids[k + 1..])
    ensures forall i :: 0 <= i < k + 1 ==>
      ids[i] in rows[ids[k] := row] && ShowsJob(rows[ids[k] := row][ids[i]], jobs[i])
      && Reconciled(existingRows, rows[ids[k] := row][ids[i]], jobs[i])
  {
    IdSetTail(ids, k);
    var rows' := rows[ids[k] := row];
    forall i | 0 <= i < k + 1
      ensures ids[i] in rows' && ShowsJob(rows'[ids[i]], jobs[i]) && Reconciled(existingRows, rows'[ids[i]], jobs[i])
    {
      if i < k {
        assert ids[i] != ids[k];
      }
    }
  }

  /** After the loop the tbody holds exactly the rows of the jobs, in their order. */
  lemma ProgressDone(existingRows: map<string, Row>, order0: seq<string>, jobs: seq<JobRecord>,
                     tbody: seq<string>, rows: map<string, Row>)
    requires Progress(existingRows, order0, jobs, |jobs|, tbody, rows)
    ensures tbody == JobIds(jobs) && rows.Keys == IdSet(tbody) && Distinct(tbody)
    ensures forall i :: 0 <= i < |jobs| ==>
      tbody[i] in rows && ShowsJob(rows[tbody[i]], jobs[i]) && Reconciled(existingRows, rows[tbody[i]], jobs[i])
    ensures forall id :: id in rows ==> rows[id].cells.Keys == ColumnSet
  {
    var ids := JobIds(jobs);
    var k := |jobs|;
    assert ids[..k] == ids && ids[k..] == [];
    assert IdSet(ids[k..]) == {};
    SurvivingNone(order0);
    forall id | id in rows
      ensures rows[id].cells.Keys == ColumnSet
    {
      var i :| 0 <= i < |ids| && ids[i] == id;
    }
  }

  /** The body of patchTable on the rows by id and their order in the tbody: remove the
      rows of vanished jobs, then walk the jobs, reusing or building each one's row and
      moving it after its predecessor (or to the top). */
  method ReconcileRows(order0: seq<string>, existingRows: map<string, Row>, jobs: seq<JobRecord>)
    returns (tbody: seq<string>, rows: map<string, Row>)
    requires Distinct(order0) && IdSet(order0) == existingRows.Keys && DistinctJobIds(jobs)
    requires forall id :: id in existingRows ==> existingRows[id].cells.Keys == ColumnSet
    ensures tbody == JobIds(jobs) && rows.Keys == IdSet(tbody)
    ensures forall i :: 0 <= i < |jobs| ==>
      tbody[i] in rows && ShowsJob(rows[tbody[i]], jobs[i]) && Reconciled(existingRows, rows[tbody[i]], jobs[i])
    ensures forall id :: id in rows ==> rows[id].cells.Keys == ColumnSet
  {
    var ids := JobIds(jobs);
    var newIds := IdSet(ids);
    // The tbody's rows, top to bottom, and the rows by id, after the removals.
    tbody := Surviving(order0, newIds);
    rows := map id | id in existingRows && id in newIds :: existingRows[id];
    var k := 0;
    ProgressStart(existingRows, order0, jobs);
    while k < |jobs|
      invariant Progress(existingRows, order0, jobs, k, tbody, rows)
    {
      var job := jobs[k];
      var id := ids[k];
      var existing := if id in existingRows then Some(existingRows[id]) else None;
      var row := ReuseOrBuild(existing, job);
      ProgressStep(existingRows, order0, jobs, k, tbody, rows, row);
      tbody := Placed(tbody, k, id);
      rows := rows[id := row];
      k := k + 1;
    }
    ProgressDone(existingRows, order0, jobs, tbody, rows);
  }

  /** Patching again with the jobs the table already shows keeps every row in its place,
      with its cells and its marks; only the "entering" class of the rows is cleared. */
  method RepatchSameJobs(order0: seq<string>, table0: map<string, Row>, jobs: seq<JobRecord>)
    returns (order: seq<string>, table: map<string, Row>)
    requires IdSet(order0) == table0.Keys && DistinctJobIds(jobs) && ShowJobs(order0, table0, jobs)
    ensures order == order0 && table.Keys == table0.Keys
    ensures forall id :: id in table ==>
      && table[id].cells == table0[id].cells && table[id].changed == table0[id].changed
      && table[id].clickable == table0[id].clickable && !table[id].entering
  {
    forall id | id in table0
      ensures table0[id].cells.Keys == ColumnSet
    {
      var i :| 0 <= i < |order0| && order0[i] == id;
    }
    order, table := ReconcileRows(order0, table0, jobs);
    forall id | id in table
      ensures table[id].cells == table0[id].cells && table[id].changed == table0[id].changed
      ensures table[id].clickable == table0[id].clickable && !table[id].entering
    {
      var i :| 0 <= i < |order| && order[i] == id;
      SameJobKept(table0, table[id], jobs[i]);
    }
  }

  /** A row reconciled with the job its old row already showed keeps that row's cells,
      marks and clickability. */
  lemma SameJobKept(before: map<string, Row>, row: Row, job: JobRecord)
    requires JobId(job) in before && ShowsJob(before[JobId(job)], job)
    requires ShowsJob(row, job) && Reconciled(before, row, job)
    ensures row.cells == before[JobId(job)].cells && row.changed == before[JobId(job)].changed
    ensures row.clickable == before[JobId(job)].clickable && !row.entering
  {
    SameJobNoMarks(job);
  }

  /** A server card (`<div id="server-NAME">`). */
  class ServerCard {
    const name: string
    var entering: bool
    var dotOk: bool
    /** The number in the `.job-count` span (shown as CountText), absent under an error. */
    var jobCount: Option<nat>
    var body: Body
    /** The `data-jobid` of the table's rows, top to bottom. */
    var order: seq<string>
    /** The table's rows by job id. */
    var table: map<string, Row>
    var recent: Option<RecentPanel>

    /** Each row of the table has its own id and a cell per column, and only a table body
        has rows. */
    ghost predicate Valid()
      reads this
    {
      && Distinct(order)
      && IdSet(order) == table.Keys
      && (forall id :: id in table ==> table[id].cells.Keys == ColumnSet)
      && (!body.TableBody? ==> order == [])
    }

    /** The card is exactly renderServerFull's rendering of the snapshot. */
    ghost predicate Shows(s: ServerSnapshot, open: bool)
      reads this
    {
      && dotOk == !HasError(s)
      && jobCount == (if HasError(s) then None else Some(|s.jobs|))
      && body == BodyFor(s)
      && recent == NewPanel(s.recentJobs, open)
      && ShowJobs(order, table, if body.TableBody? then s.jobs else [])
    }

    /** patchServer's first branch: a new card, entering on the first render, holding
        renderServerFull's rendering (rows animated on the first render). */
    constructor Create(s: ServerSnapshot, open: bool, isFirstRender: bool)
      requires DistinctJobIds(s.jobs)
      ensures name == s.server && entering == isFirstRender
      ensures Valid() && Shows(s, open)
      ensures forall id :: id in table ==> table[id].entering == isFirstRender && table[id].changed == {}
    {
      name := s.server;
      entering := isFirstRender;
      new;
      RenderFull(s, open, isFirstRender);
    }

    /** renderServerFull: the card's content rebuilt from the snapshot; every row is new. */
    method RenderFull(s: ServerSnapshot, open: bool, animate: bool)
      requires DistinctJobIds(s.jobs)
      modifies this
      ensures Valid() && Shows(s, open)
      ensures forall id :: id in table ==> table[id].entering == animate && table[id].changed == {}
      ensures entering == old(entering)
    {
      var newBody := BodyFor(s);
      var newOrder, newTable := RenderTable(s.jobs, newBody.TableBody?, animate);
      dotOk, jobCount, body := !HasError(s), if HasError(s) then None else Some(|s.jobs|), newBody;
      order, table, recent := newOrder, newTable, NewPanel(s.recentJobs, open);
    }

    /** patchRecentSection: no recent jobs removes the disclosure, a missing one is built
        with the stored open flag; otherwise the toggle is rewritten (count and chevron
        from the stored flag) and the table replaced, while the body keeps its own open
        class. */
    method PatchRecent(s: ServerSnapshot, open: bool)
      modifies this
      ensures recent.Some? <==> |s.recentJobs| > 0
      ensures recent.Some? ==>
        recent.value.count == |s.recentJobs| && recent.value.chevronOpen == open
        && recent.value.jobs == s.recentJobs
      ensures recent.Some? && old(recent).Some? ==> recent.value.bodyOpen == old(recent).value.bodyOpen
      ensures recent.Some? && old(recent).None? ==> recent.value.bodyOpen == open
      ensures dotOk == old(dotOk) && jobCount == old(jobCount) && body == old(body)
      ensures order == old(order) && table == old(table) && entering == old(entering)
    {
      if |s.recentJobs| == 0 {
        recent := None;
        return;
      }
      if recent.None? {
        recent := NewPanel(s.recentJobs, open);
        return;
      }
      recent := Some(RecentPanel(|s.recentJobs|, open, recent.value.bodyOpen, s.recentJobs));
    }

    /** The part of toggleRecent that touches the card: the chevron and the body each
        toggle their "open" class. */
    method ToggleDisclosure()
      modifies this
      ensures recent.Some? <==> old(recent).Some?
      ensures recent.Some? ==>
        && recent.value.chevronOpen == !old(recent).value.chevronOpen
        && recent.value.bodyOpen == !old(recent).value.bodyOpen
        && recent.value.count == old(recent).value.count
        && recent.value.jobs == old(recent).value.jobs
      ensures dotOk == old(dotOk) && jobCount == old(jobCount) && body == old(body)
      ensures order == old(order) && table == old(table) && entering == old(entering)
    {
      if recent.Some? {
        var p := recent.value;
        recent := Some(p.(chevronOpen := !p.chevronOpen, bodyOpen := !p.bodyOpen));
      }
    }

    /** patchTable: the rows of vanished jobs are removed, surviving rows are updated in
        place, new jobs get new rows, and the rows end up in the order of the jobs. A card
        whose body is not a job table is left alone. The source looks for the first tbody
        of the section instead; the two agree on every card patchServer reaches here,
        because it patches the table only when the previous snapshot had jobs, and such
        a card has a job table. */
    method PatchTable(jobs: seq<JobRecord>)
      requires Valid() && DistinctJobIds(jobs)
      modifies this
      ensures Valid()
      ensures dotOk == old(dotOk) && jobCount == old(jobCount) && body == old(body)
      ensures recent == old(recent) && entering == old(entering)
      ensures !body.TableBody? ==> order == old(order) && table == old(table)
      ensures body.TableBody? ==> ShowJobs(order, table, jobs)
      ensures body.TableBody? ==> forall i :: 0 <= i < |jobs| && order[i] in table ==>
        Reconciled(old(table), table[order[i]], jobs[i])
      ensures body.TableBody? ==> table.Keys == IdSet(JobIds(jobs))
    {
      if !body.TableBody? {
        return;
      }
      order, table := ReconcileRows(order, table, jobs);
    }

    /** patchServer on an existing card, given the previous snapshot of its server and
        the stored open flag of its disclosure. */
    method PatchServer(s: ServerSnapshot, prev: Option<ServerSnapshot>, open: bool)
      requires Valid() && DistinctJobIds(s.jobs)
      modifies this
      ensures Valid() && entering == old(entering)
      ensures dotOk == !HasError(s)
      ensures !HasError(s) ==> jobCount == Some(|s.jobs|)
      ensures ShapeChanged(prev, s) ==> Shows(s, open)
      ensures ShapeChanged(prev, s) ==> forall id :: id in table ==> !table[id].entering && table[id].changed == {}
      ensures !ShapeChanged(prev, s) && HasError(s) ==>
        && body == (if old(body).ErrorBody? then ErrorBody(s.server, s.error.value) else old(body))
        && jobCount == old(jobCount) && order == old(order) && table == old(table) && recent == old(recent)
      ensures !ShapeChanged(prev, s) && !HasError(s) ==> body == old(body)
      ensures !ShapeChanged(prev, s) && !HasError(s) ==>
        && (recent.Some? <==> |s.recentJobs| > 0)
        && (recent.Some? ==>
              recent.value.count == |s.recentJobs| && recent.value.chevronOpen == open
              && recent.value.jobs == s.recentJobs)
        && (recent.Some? && old(recent).Some? ==> recent.value.bodyOpen == old(recent).value.bodyOpen)
        && (recent.Some? && old(recent).None? ==> recent.value.bodyOpen == open)
      ensures !ShapeChanged(prev, s) && !HasJobs(s) ==> order == old(order) && table == old(table)
      ensures !ShapeChanged(prev, s) && HasJobs(s) && body.TableBody? ==>
        && ShowJobs(order, table, s.jobs)
        && forall i :: 0 <= i < |s.jobs| && order[i] in table ==> Reconciled(old(table), table[order[i]], s.jobs[i])
      ensures !ShapeChanged(prev, s) && HasJobs(s) && !body.TableBody? ==> order == old(order) && table == old(table)
      ensures (ShapeChanged(prev, s) || BodyShape(old(body)) == ShapeOf(prev.value)) ==>
        BodyShape(body) == ShapeOf(s)
    {
      dotOk := !HasError(s);
      if !HasError(s) {
        jobCount := Some(|s.jobs|);
      }
      if ShapeChanged(prev, s) {
        RenderFull(s, open, false);
        return;
      }
      ShapeChangedExactly(prev.value, s);
      PatchInPlace(s, open);
    }

    /** The rest of patchServer when the shape is unchanged: the error text under an
        error, else the disclosure alone when there are no jobs, else the table and then
        the disclosure. */
    method PatchInPlace(s: ServerSnapshot, open: bool)
      requires Valid() && DistinctJobIds(s.jobs)
      modifies this
      ensures Valid() && BodyShape(body) == BodyShape(old(body))
      ensures entering == old(entering) && dotOk == old(dotOk) && jobCount == old(jobCount)
      ensures HasError(s) ==>
        && body == (if old(body).ErrorBody? then ErrorBody(s.server, s.error.value) else old(body))
        && order == old(order) && table == old(table) && recent == old(recent)
      ensures !HasError(s) ==>
        && body == old(body)
        && (recent.Some? <==> |s.recentJobs| > 0)
        && (recent.Some? ==>
              recent.value.count == |s.recentJobs| && recent.value.chevronOpen == open
              && recent.value.jobs == s.recentJobs)
        && (recent.Some? && old(recent).Some? ==> recent.value.bodyOpen == old(recent).value.bodyOpen)
        && (recent.Some? && old(recent).None? ==> recent.value.bodyOpen == open)
      ensures !HasJobs(s) ==> order == old(order) && table == old(table)
      ensures HasJobs(s) && body.TableBody? ==>
        && ShowJobs(order, table, s.jobs)
        && forall i :: 0 <= i < |s.jobs| && order[i] in table ==> Reconciled(old(table), table[order[i]], s.jobs[i])
      ensures HasJobs(s) && !body.TableBody? ==> order == old(order) && table == old(table)
    {
      if HasError(s) {
        if body.ErrorBody? {
          body := ErrorBody(s.server, s.error.value);
        }
        return;
      }
      if !HasJobs(s) {
        PatchRecent(s, open);
        return;
      }
      PatchTable(s.jobs);
      PatchRecent(s, open);
    }
  }

  /** The rows renderServerFull writes into a card: one per job under a table body, none
      under an error or an empty message. */
  method RenderTable(jobs: seq<JobRecord>, tableBody: bool, animate: bool)
    returns (order: seq<string>, table: map<string, Row>)
    requires DistinctJobIds(jobs)
    ensures Distinct(order) && IdSet(order) == table.Keys
    ensures !tableBody ==> order == []
    ensures ShowJobs(order, table, if tableBody then jobs else [])
    ensures forall id :: id in table ==>
      table[id].cells.Keys == ColumnSet && table[id].entering == animate && table[id].changed == {}
  {
    if tableBody {
      order := JobIds(jobs);
      table := BuildRows(jobs, animate);
    } else {
      order, table := [], map[];
    }
  }

  /** The forEach of renderServerFull that builds one row per job. */
  method BuildRows(jobs: seq<JobRecord>, animate: bool) returns (table: map<string, Row>)
    requires DistinctJobIds(jobs)
    ensures table.Keys == IdSet(JobIds(jobs)) && ShowJobs(JobIds(jobs), table, jobs)
    ensures forall id :: id in table ==>
      table[id].cells.Keys == ColumnSet && table[id].entering == animate && table[id].changed == {}
  {
    table := map[];
    var ids := JobIds(jobs);
    var i := 0;
    assert ids[..0] == [];
    while i < |jobs|
      invariant Built(jobs, animate, i, table)
    {
      BuiltStep(jobs, animate, i, table);
      table := table[ids[i] := BuildRow(jobs[i], animate)];
      i := i + 1;
    }
    BuiltDone(jobs, animate, table);
  }

  /** The rows of the first i jobs, by id. */
  ghost predicate Built(jobs: seq<JobRecord>, animate: bool, i: nat, table: map<string, Row>) {
    var ids := JobIds(jobs);
    && i <= |jobs| && Distinct(ids)
    && table.Keys == IdSet(ids[..i])
    && forall j :: 0 <= j < i ==> ids[j] in table && table[ids[j]] == BuildRow(jobs[j], animate)
  }

  lemma BuiltStep(jobs: seq<JobRecord>, animate: bool, i: nat, table: map<string, Row>)
    requires Built(jobs, animate, i, table) && i < |jobs|
    ensures Built(jobs, animate, i + 1, table[JobIds(jobs)[i] := BuildRow(jobs[i], animate)])
  {
    var ids := JobIds(jobs);
    assert ids[..i + 1] == ids[..i] + [ids[i]];
    forall j | 0 <= j < i
      ensures ids[j] != ids[i]
    {
    }
  }

  lemma BuiltDone(jobs: seq<JobRecord>, animate: bool, table: map<string, Row>)
    requires Built(jobs, animate, |jobs|, table)
    ensures table.Keys == IdSet(JobIds(jobs)) && ShowJobs(JobIds(jobs), table, jobs)
    ensures forall id :: id in table ==>
      table[id].cells.Keys == ColumnSet && table[id].entering == animate && table[id].changed == {}
  {
    var ids := JobIds(jobs);
    assert ids[..|jobs|] == ids;
    forall id | id in table
      ensures table[id].cells.Keys == ColumnSet && table[id].entering == animate && table[id].changed == {}
    {
      var j :| 0 <= j < |ids| && ids[j] == id;
    }
  }
}
